=== FILE: README.md ===
# Sprocket.Args resolution engine in Dafny

This project models the core of Sprocket.Args, a .NET library that turns a command
line into commands, options and values. The accepted commands and options come
from an XML definition, and the model covers three stages:

- **Definitions.** `Processor.LoadDefinitionsFromXML` walks the XML tree and builds
  the command definitions (`CommandDef`, each holding its `OptionDef`s) and the
  global option definitions. It rejects duplicate names, a second default command,
  a required global option and a global option named like a command.
- **Resolution.** `Processor.Parse` normalises the input and hands it to `Parser`.
  The parser runs three parts:
  - the quote-aware tokenizer `GetNextWord`;
  - the matcher `ParseInner`, which decides word by word whether a word is a
    global option, a command, an option keyword, a flag, a value, or text
    deferred to a second pass;
  - `ParseOuter`, which merges deferred text and parses it once more so that it
    can bind to the default command.
- **Assembly.** `Parser.Parse` builds the result from the entries. It adds a
  default command when no command was given, back-fills option defaults, checks
  required options and moves `##global` pseudo-commands into the global options.

The model is functional:

- **Files:**
  - The parsed collections (`Option`, `OptionCollection`, `Command`,
    `CommandCollection`) are sequences of immutable records: `options.dfy` and
    `commands.dfy`.
  - The definitions are in `optiondefs.dfy` and `commanddefs.dfy`, and the XML
    reading helpers in `assist.dfy`.
  - The definition loader is `loader.dfy`; a loaded definition is a `Grammar`
    (`grammar.dfy`).
  - The tokenizer is `tokenizer.dfy`.
  - One iteration of `ParseInner` is `Engine.Step`, and a pass is a fold of `Step`
    over the words (`engine.dfy`).
  - The two-level `ParseOuter` is `passes.dfy`, the assembler `assembler.dfy`, and
    the entry point `processor.dfy`.
- **Errors.** Every exception the source throws is a value of `Errors.ParseError`
  (parsing) or `Errors.DefinitionError` (loading), returned in a `Result`.
- **Mutable references.** The source's open option is a reference to an `Option`
  object inside the open command. The model keeps instead the index of that
  option in the command (`Engine.Target`). Where the source's reference stops
  pointing into the command (see Findings), the model says `Detached`.
  `Engine.MergeMode` selects between two behaviours:
  - `AsWritten` reproduces the source;
  - `Reattach` keeps the open option on the merged option, as evidently intended.

  `Processor.Parse` uses `Reattach`.

A quoted word collects every character up to its closing quote
(Args/internal/parser.cs:747-749, 764-800) and is then trimmed
(Args/internal/parser.cs:803), so white space just inside the quotes is lost.
`Tokenizer.QuotedWord` states this.

## Model

| member | source | states |
|---|---|---|
| Text.TrimFacts | Args/processor.cs:234-237 | `Trim` removes exactly the leading and trailing white space: the result is a slice of the input, with no white space at either end, and is empty exactly when the input is all white space |
| Text.TrimUnchanged | Args/processor.cs:234-237 | a text without white space at either end is its own trim |
| Text.Upper | Args/internal/parser.cs:805 | upper-casing keeps the length and maps every character on its own |
| Text.UpperIdempotent | Args/internal/commandDef.cs:29-32 | upper-casing a key twice gives the same key, so keys compare stably |
| XmlNodes.Attribute | Args/internal/assist.cs:60-63 | an attribute is found exactly when the element carries it, with its text |
| Assist.GetOptionalBooleanAttribute | Args/internal/assist.cs:27-51 | fails exactly when the attribute is present and its trimmed text is neither `true` nor `false` in any letter case, naming the attribute; otherwise yields its truth value, or the fallback when it is absent |
| Assist.GetOptionalStringAttribute | Args/internal/assist.cs:60-63 | yields the attribute's text when present and the fallback otherwise |
| Assist.BooleanIgnoresCase | Args/internal/assist.cs:38-41 | `True` reads as true whatever the fallback |
| Assist.BooleanRefusesOtherWords | Args/internal/assist.cs:46-49 | `yes` is refused with the invalid-boolean error for that attribute |
| Errors.DuplicateOptionMessage | Args/exceptions/duplicateOptionException.cs:48-53 | without a command name the message is exactly `Multiple uses of <option> not supported`; with one, the message ends in the command's name |
| Errors.MissingValueMessage | Args/exceptions/missingValueException.cs:47-52 | for the `##global` pseudo-command the message is exactly `No value specified for option '<option>'`; otherwise it ends in the quoted command name |
| Errors.DuplicateGlobalOption | Args/exceptions/duplicateOptionException.cs:48-53 | a repeated global option reads `Multiple uses of --repeat not supported` |
| Errors.MissingGlobalValue | Args/exceptions/missingValueException.cs:47-52 | a global option without a value reads `No value specified for option '--repeat'` |
| ParsedOptions.NewOption | Args/option.cs:53-58 | a new option carries its name and exactly the one given value |
| ParsedOptions.IndexOf | Args/optionCollection.cs:20-35 | the index of the first option whose name matches case-insensitively, or none exactly when no option matches |
| ParsedOptions.Lookup | Args/optionCollection.cs:20-35 | the first option matching the name, taken from the collection; none exactly when no option matches |
| ParsedOptions.Exists | Args/optionCollection.cs:42-54 | true exactly when some option matches the name, which is when `Lookup` finds one |
| ParsedOptions.CountWithName | Args/optionCollection.cs:130-142 | zero exactly when no option of that name exists, and never more than the collection's size |
| ParsedOptions.UsedKeysCount | Args/optionCollection.cs:130-142 | a name's upper-cased key is among the collection's keys exactly when the count for the name is positive |
| ParsedOptions.DistinctCountAtMostOne | Args/optionCollection.cs:108-123 | in a collection built by `Add` no name is counted more than once |
| ParsedOptions.ValueOr | Args/optionCollection.cs:63-75 | the first value of the option of that name, or the fallback when there is none |
| ParsedOptions.ValuesOr | Args/optionCollection.cs:84-101 | all values of the option of that name, or the fallback when there is none |
| ParsedOptions.Add | Args/optionCollection.cs:108-123 | adding an option of a new name appends it; adding one of a present name keeps the size and the names, leaves every other option alone, and appends the new values to the first option of that name |
| ParsedOptions.AddUsedKeys | Args/optionCollection.cs:108-123 | after `Add` the collection's keys are the old keys plus the added option's key |
| ParsedOptions.AddKeepsNamesDistinct | Args/optionCollection.cs:108-123 | `Add` never creates two options of the same name |
| ParsedOptions.AddKeepsValues | Args/optionCollection.cs:108-123 | `Add` keeps every option holding at least one value |
| ParsedOptions.AddAll | Args/internal/parser.cs:122-125 | adding a list of options one by one yields distinct names, and every option still holds a value |
| ParsedCommands.NewCommand | Args/command.cs:30-34 | a new command carries its name and no option |
| ParsedCommands.AddOption | Args/command.cs:41-44 | the command keeps its name; afterwards the option's name is present exactly once when the names were distinct |
| ParsedCommands.CommandValue | Args/command.cs:50-63 | a command without options has the empty value; otherwise its value is the first value of its first option |
| ParsedCommands.LookupCommand | Args/commandCollection.cs:18-33 | the first command whose name matches case-insensitively, or none exactly when no command matches |
| ParsedCommands.CommandExists | Args/commandCollection.cs:40-52 | true exactly when `LookupCommand` finds a command |
| ParsedCommands.RepeatedCommandsKept | Args/commandCollection.cs:18-33 | when a command occurs twice, looking up its name yields the first occurrence |
| Intermediate.EmptyEntry | Args/internal/intermediateCommandResult.cs:27-31 | the default entry holds neither text nor command and is not well formed |
| Intermediate.AsUnprocessedText | Args/internal/intermediateCommandResult.cs:33-38 | a text entry holds exactly that text and no command |
| Intermediate.AsCommand | Args/internal/intermediateCommandResult.cs:40-45 | a command entry holds exactly that command and no text |
| OptionDefs.FindOptionDef | Args/internal/optionDef.cs:8-14 | the first definition with the key, or none exactly when no definition has it |
| OptionDefs.FindUniqueOptionDef | Args/internal/optionDef.cs:8-14 | with unique keys, looking up a definition's key yields that definition |
| OptionDefs.AddOptionDef | Args/internal/optionDef.cs:8-14 | adding fails with a duplicate-key error exactly when the key is taken; otherwise the definition is appended and keys stay unique |
| OptionDefs.ElementName | Args/internal/optionDef.cs:38-43 | the trimmed `name` attribute, absent exactly when the attribute is missing or blank |
| OptionDefs.OptionSettings | Args/internal/optionDef.cs:46-60 | each setting is read from its underscore or hyphen attribute; reading fails exactly when a boolean setting is invalid, and `required` is checked first |
| OptionDefs.OptionDefFromElement | Args/internal/optionDef.cs:36-61 | a definition read from an element is well formed |
| OptionDefs.OptionElementReading | Args/internal/optionDef.cs:36-61 | a missing name fails with the missing-name error for `option`; with a name and valid settings the element reads as the definition of those settings; invalid settings give the settings' error |
| CommandDefs.NewCommandDef | Args/internal/commandDef.cs:72-78 | a new command definition has the given flags and no option definition |
| CommandDefs.FindCommandDef | Args/internal/commandDef.cs:29-32 | the first command definition with the key, or none exactly when no definition has it |
| CommandDefs.FindUniqueCommandDef | Args/internal/commandDef.cs:29-32 | with unique keys, looking up a definition's key yields that definition |
| CommandDefs.AddKeyed | Args/internal/commandDef.cs:29-32 | adding fails with a duplicate-key error exactly when the key is taken; otherwise it appends and keeps keys unique |
| CommandDefs.GetDefault | Args/internal/commandDef.cs:16-27 | the first default definition, or none exactly when no definition is default |
| CommandDefs.AddOptionDefToCommand | Args/internal/commandDef.cs:123-126 | fails exactly when the command already has an option definition of that key; otherwise appends it |
| CommandDefs.OptionElements | Args/internal/commandDef.cs:104-116 | the `option` children, each taken from the children, with none left out |
| CommandDefs.OptionElementsSingle | Args/internal/commandDef.cs:104-116 | a single child is kept exactly when it is named `option` |
| CommandDefs.OptionElementsAppend | Args/internal/commandDef.cs:104-116 | the option children of two runs of children are those of the first run followed by those of the second, so document order is kept |
| CommandDefs.AddOptionElements | Args/internal/commandDef.cs:104-116 | reading the option children keeps the earlier definitions, adds one per child, and yields unique, well-formed definitions |
| CommandDefs.AddOptionElementsInOrder | Args/internal/commandDef.cs:104-116 | when reading succeeds, the i-th added definition is the one read from the i-th option child |
| CommandDefs.AddOptionElementsFirst | Args/internal/commandDef.cs:104-116 | reading the children is reading the first one and then the rest after it |
| CommandDefs.CommandSettings | Args/internal/commandDef.cs:97-102 | the default and multiple flags are read from their attributes; reading fails exactly when either is invalid, and `is_default` is checked first |
| CommandDefs.CommandDefFromElement | Args/internal/commandDef.cs:85-117 | a command definition read from an element is well formed |
| CommandDefs.CommandElementSettings | Args/internal/commandDef.cs:85-102 | a missing name fails with the missing-name error for `command`; an invalid `is_default` fails with its error; a successful reading carries the trimmed name and the settings |
| CommandDefs.CommandElementOptions | Args/internal/commandDef.cs:104-116 | a successful reading holds exactly one option definition per `option` child |
| Grammar.EmptyGrammar | Args/processor.cs:32-36 | the definitions a new processor starts with are valid |
| Loader.AddCommandDef | Args/processor.cs:186-196 | a second default command is refused; any other failure is a duplicate key; success appends the definition and keeps the tables valid |
| Loader.AddGlobalOption | Args/processor.cs:131-150 | a required global option is refused; any other failure is a duplicate key; success appends the definition and keeps the tables valid |
| Loader.LoadElement | Args/processor.cs:116-155 | an element that is neither `command` nor `option` is refused by name; a loaded `command` element appends its definition to the commands and a loaded `option` element appends its definition to the global options, the other table unchanged; success keeps the tables valid |
| Loader.LoadElementAdds | Args/processor.cs:116-155 | a loaded element was readable, and it adds its own definition to its own table and nothing to the other |
| Loader.LoadElements | Args/processor.cs:116-155 | success adds exactly one definition per element and keeps the tables valid |
| Loader.LoadElementsRead | Args/processor.cs:116-155 | after a successful load every top-level element was a readable `command` or `option` |
| Loader.LoadElementsInOrder | Args/processor.cs:116-155 | a successful load appends the `command` definitions to the commands and the `option` definitions to the global options, each in document order |
| Loader.LoadElementsCons | Args/processor.cs:116-155 | when the first element loads, the rest is loaded on top of it, for the result and for what is held |
| Loader.LoadElementsFirstFails | Args/processor.cs:116-155 | when the first element fails, the load fails with its error and holds nothing new |
| Loader.LoadElementsPrefixCons | Args/processor.cs:116-155 | loading the first k + 1 elements is loading the first one and then k more |
| Loader.Held | Args/processor.cs:116-155 | what the processor holds after the element loop: the loaded definitions on success; always an extension of what it held before, with valid tables |
| Loader.HeldStopsAtFailure | Args/processor.cs:116-155 | after a failed load the processor holds exactly what the elements before the first failing one added, and the error is that element's |
| Loader.CheckNoClash | Args/processor.cs:172-178 | succeeds, unchanged, exactly when no global option is named like a command; otherwise it names the first global option, in table order, whose name is a command's |
| Loader.LoadDefinitions | Args/processor.cs:60-180 | a failing element's error is the load's error; after the elements load, the load succeeds exactly when no global option is named like a command and otherwise names the first such global option; a success appends the `command` definitions to the commands and the `option` definitions to the global options in document order, and is valid |
| Loader.HeldAfterLoad | Args/processor.cs:60-180 | what the processor holds after loading: the result on success, every element's definition after a clash, and always an extension of what it held before, with valid tables |
| Loader.WrapperTransparent | Args/processor.cs:86-112 | a single wrapping root element loads as its children |
| Tokenizer.Scan | Args/internal/parser.cs:752-801 | the character loop always moves forward unless at the end, and stays inside the text |
| Tokenizer.NextWord | Args/internal/parser.cs:752-806 | reading a word always moves forward; an unquoted word carries the NUL quote, a quoted one a real quote |
| Tokenizer.NextWordNoSeparators | Args/internal/parser.cs:752-806 | an unquoted word holds no space and no `=` |
| Tokenizer.TokenizeFrom | Args/internal/parser.cs:752-806 | the words read from a position are never more than the characters left |
| Tokenizer.TokenizeNoSeparators | Args/internal/parser.cs:752-806 | no unquoted word the tokenizer returns holds a space or `=` |
| Tokenizer.QuotedWord | Args/internal/parser.cs:752-806 | a word opening with a quote is the trimmed text up to its closing quote, the first same quote followed by a space or the end of the text; reading resumes after the closing quote and the character that follows it |
| Tokenizer.UnquotedWord | Args/internal/parser.cs:752-806 | a word not opening with a quote is the trimmed text up to the next space or `=`; reading resumes after that separator |
| Tokenizer.ScanQuoted | Args/internal/parser.cs:764-800 | inside quotes every character up to the closing quote is collected, spaces and `=` included |
| Tokenizer.ScanUnquoted | Args/internal/parser.cs:764-800 | outside quotes the word runs to the next separator, quotes included |
| Tokenizer.EqualsAsSpaces | Args/internal/parser.cs:787-795 | the text with every `=` replaced by a space and every other character kept |
| Tokenizer.EqualsIsSpace | Args/internal/parser.cs:752-806 | a quote-free text reads exactly as the same text with every `=` turned into a space; inside quotes `=` is kept literally |
| Tokenizer.TokenizeFromEqualsAsSpaces | Args/internal/parser.cs:752-806 | the same, for quote-free text, from any position |
| Tokenizer.SeparatorsSkipped | Args/internal/parser.cs:787-800 | separators before a word do not change the word read or where reading resumes |
| Tokenizer.ListThenTxt | Args/internal/parser.cs:752-806 | `list`, any non-empty run of spaces and `=`, then `*.txt` reads as the two words `list` and `*.txt` |
| Tokenizer.TwoWords | Args/internal/parser.cs:752-806 | a word, a run of separators and a second word read as exactly those two trimmed words |
| Tokenizer.TokenizeFromShift | Args/internal/parser.cs:752-806 | the words read from a position depend only on the text from there on |
| Tokenizer.TokenizeFromStep | Args/internal/parser.cs:752-806 | reading from a position is one word followed by the words after it |
| Tokenizer.PlainWordAlone | Args/internal/parser.cs:752-806 | a non-empty word without separators, quotes or white space reads as itself |
| Tokenizer.PlainWordThen | Args/internal/parser.cs:752-806 | such a word followed by a space reads as itself followed by the words of the rest |
| Tokenizer.JoinedWordsRead | Args/internal/parser.cs:752-806 | round trip: plain words joined by single spaces read back as exactly those words, in order |
| Engine.SetSlotValue | Args/internal/parser.cs:383-390 | writing through the open option replaces the values of that option only; names and every other option are untouched |
| Engine.AppendSlotValue | Args/internal/parser.cs:395-398 | appending through the open option adds the value to that option only; names and every other option are untouched |
| Engine.FindQualifyingGlobal | Args/internal/parser.cs:614-653 | the global definition named like the word, refused as a duplicate exactly when it does not allow several values and a `##global` entry already holds it |
| Engine.CommandAvailable | Args/internal/parser.cs:655-685 | the definition named by the word, yielded exactly when it exists and has not been found yet or allows several uses |
| Engine.GetUnusedOption | Args/internal/parser.cs:582-596 | the first definition of the command with no option yet or allowing several values; none exactly when every definition is used up |
| Engine.FirstUnusedDefault | Args/internal/parser.cs:598-612 | the first default command definition not found yet; none exactly when every default one has been found |
| Engine.Step | Args/internal/parser.cs:221-549 | once a command is open, one (perhaps another) is still open after the word, and no found command is forgotten |
| Engine.Run | Args/internal/parser.cs:218-549 | once a command is open, one (perhaps another) is still open after all the words, and no found command is forgotten |
| Engine.Finish | Args/internal/parser.cs:551-577 | at the end no option is left awaiting its value, and the entries and found commands are unchanged; an option still awaiting its value with no default, required or not, fails with the missing-value error naming its command and itself |
| Engine.ParseInner | Args/internal/parser.cs:214-580 | a pass never forgets a command found before it |
| PassInvariants.SetSlotValueOk | Args/internal/parser.cs:383-390 | writing a value keeps the command's option names distinct and every option holding a value |
| PassInvariants.AppendSlotValueOk | Args/internal/parser.cs:395-398 | appending a value keeps the command sound and the open option attached |
| PassInvariants.OpenOptionOk | Args/internal/parser.cs:419-434 | opening an option through `AddOption` keeps the context sound, the open option pointing at its option |
| PassInvariants.TakeDefaultOk | Args/internal/parser.cs:551-577 | taking the default keeps the context sound |
| PassInvariants.GlobalContextOk | Args/internal/parser.cs:248-268 | the `##global` pseudo-command of a global keyword is sound |
| PassInvariants.InSlotOk | Args/internal/parser.cs:292-440 | every word handled while an option is open keeps the context sound |
| PassInvariants.NoSlotOk | Args/internal/parser.cs:491-547 | every word handled right after a command keyword keeps the context sound |
| PassInvariants.NoContextOk | Args/internal/parser.cs:443-490 | a word before any command keeps the pass invariant |
| PassInvariants.GlobalStepOk | Args/internal/parser.cs:224-271 | a global keyword closes the open command and keeps the pass invariant |
| PassInvariants.CommandStepOk | Args/internal/parser.cs:274-289 | a command keyword closes the open command and keeps the pass invariant |
| PassInvariants.StepKeepsInv | Args/internal/parser.cs:221-549 | every word keeps the pass invariant: sound commands, deferred text before commands, and no deferred text on the second pass |
| PassInvariants.RunKeepsInv | Args/internal/parser.cs:218-549 | the loop over the words keeps the pass invariant |
| PassInvariants.ParseInnerSound | Args/internal/parser.cs:214-580 | a pass yields sound entries with the deferred words first; a second-level pass yields commands only |
| Behaviour.GlobalKeywordFirst | Args/internal/parser.cs:224-271 | an unquoted word naming a usable global option is taken as that option before any other rule |
| Behaviour.QuotedNeverGlobal | Args/internal/parser.cs:224-230 | a quoted word is never a global option keyword |
| Behaviour.DuplicateGlobal | Args/internal/parser.cs:614-653 | a second use of a global option not allowing several values fails with the duplicate-option error naming no command |
| Behaviour.GlobalSupersedesAwaiting | Args/internal/parser.cs:228-245 | a global keyword after a required option still awaiting its value gives that option its default, or fails with the missing-value error when it has none; an optional one is closed with its empty value; either way the global pseudo-command opens |
| Behaviour.GlobalFlagResolves | Args/internal/parser.cs:247-268 | a global flag holds its default, else `true`, and awaits nothing; any other global option starts empty and awaits its value |
| Behaviour.CommandKeyword | Args/internal/parser.cs:274-289 | unless an option awaits its value, a word naming an available command closes the open command and opens a new one, recording it as found |
| Behaviour.AwaitingTakesWord | Args/internal/parser.cs:383-390 | an option awaiting its value takes the next word as its only value |
| Behaviour.AwaitingValueLands | Args/internal/parser.cs:383-390 | in a sound context that value lands in the option the open option names, and no other option changes |
| Behaviour.RequiredAwaitingKeyword | Args/internal/parser.cs:294-302 | a required option awaiting its value, followed by an option keyword of its command, fails with the missing-value error |
| Behaviour.KeywordOpensOption | Args/internal/parser.cs:493-523 | right after a command keyword, an option keyword adds that option, with the flag's default or `true` for a flag, and opens it awaiting a value unless it is a flag |
| Behaviour.PositionalFirstUnused | Args/internal/parser.cs:524-546 | a word that is no keyword fills the first unused option definition, or is ignored when there is none |
| Behaviour.RepeatedOption | Args/internal/parser.cs:339-374 | a repeated option keyword fails with the duplicate-option error unless the option allows several values; then it leaves the command as it was |
| Behaviour.MultipleValuesAccumulate | Args/internal/parser.cs:395-398 | the values of an option allowing several accumulate in the order they come |
| Behaviour.NoPlaceForWord | Args/internal/parser.cs:405-416 | a word no rule takes fails as a duplicate command when that command was already found, and as an invalid command otherwise |
| Behaviour.FirstPassDefers | Args/internal/parser.cs:476-488 | before any command the first pass defers the word, with its quotes restored |
| Behaviour.SecondPassNoDefault | Args/internal/parser.cs:447-475 | before any command the second pass rejects the word when every default command has been found |
| Behaviour.SecondPassBindsDefault | Args/internal/parser.cs:447-475 | otherwise the word becomes the first option of the first unused default command, which is now found |
| Behaviour.FinishTakesDefault | Args/internal/parser.cs:551-577 | at the end of the text an option awaiting its value takes its default, required or not |
| Passes.MergeUnprocessed | Args/internal/parser.cs:149-178 | merging never lengthens the entry list |
| Passes.MergeKeepsCommands | Args/internal/parser.cs:149-178 | the merge keeps every command in order, leaves no two texts side by side, and starts with a text exactly when the input did |
| Passes.MergeIdentity | Args/internal/parser.cs:149-178 | a list of commands alone is left as it is |
| Passes.MergeClosedForm | Args/internal/parser.cs:149-178 | texts followed by commands merge into one text, the texts joined by single spaces, followed by the commands |
| Passes.ParseNested | Args/internal/parser.cs:183-206 | the nested parse of a deferred text yields sound commands only and forgets no found command |
| Passes.ReparseSound | Args/internal/parser.cs:183-206 | after the reparse only sound commands are left |
| Passes.ReparseCommands | Args/internal/parser.cs:183-206 | commands alone pass through the reparse unchanged |
| Passes.TextPrefix | Args/internal/parser.cs:149-178 | the leading entries before the first command hold no command |
| Passes.OrderedSplit | Args/internal/parser.cs:149-178 | ordered entries are their deferred texts followed by commands only |
| Passes.SettleCommandsFirst | Args/internal/parser.cs:143-212 | sound entries without deferred text come out of the second pass unchanged |
| Passes.SettleLeadingTexts | Args/internal/parser.cs:143-212 | sound entries with leading texts become the nested parse of those texts joined by spaces, followed by the original commands |
| Passes.ParseOuterDefersOnce | Args/internal/parser.cs:143-212 | the words before the first command are parsed a second time, together, ahead of the commands the first pass found |
| Passes.SettleSound | Args/internal/parser.cs:143-212 | settling ordered sound entries leaves sound commands only |
| Passes.ParseOuterSound | Args/internal/parser.cs:143-212 | the outcome of the two passes holds sound commands only: no deferred text survives |
| Assembler.DefOf | Args/internal/parser.cs:73 | a command's definition is the one whose key is the command's upper-cased name |
| Assembler.CommandsOfOk | Args/internal/parser.cs:35-43 | the commands of sound entries are sound |
| Assembler.DefaultCommands | Args/internal/parser.cs:45-55 | each synthesised command is empty and named after a default definition |
| Assembler.DefaultCommandsOfGrammar | Args/internal/parser.cs:45-55 | with no default definition nothing is synthesised; with one, exactly that command |
| Assembler.DefaultCommandsKnown | Args/internal/parser.cs:45-55 | the synthesised commands are known and sound |
| Assembler.BackfillOptions | Args/internal/parser.cs:75-86 | the back-fill keeps the existing options as a prefix |
| Assembler.BackfillHasDefaults | Args/internal/parser.cs:75-86 | afterwards every definition with a non-empty default has an option of its name |
| Assembler.BackfillAddsDefaults | Args/internal/parser.cs:75-86 | every option the back-fill adds is a definition's non-empty default and nothing else |
| Assembler.BackfillKeepsSound | Args/internal/parser.cs:75-86 | the back-fill keeps names distinct and every option holding a value |
| Assembler.Backfill | Args/internal/parser.cs:64-89 | a command keeps its name and options, and a `##global` pseudo-command is left alone |
| Assembler.BackfillAll | Args/internal/parser.cs:64-89 | every command is back-filled, in order |
| Assembler.FirstMissing | Args/internal/parser.cs:102-108 | the first required definition, in definition order, without an option of its name; none exactly when every required one is present |
| Assembler.MissingIn | Args/internal/parser.cs:91-110 | a command passes exactly when it is a `##global` pseudo-command or has every required option; otherwise the error names the command and its first missing option |
| Assembler.CheckRequired | Args/internal/parser.cs:91-110 | the check passes exactly when every command passes |
| Assembler.CheckRequiredFirst | Args/internal/parser.cs:91-110 | the error is that of the first command lacking a required option |
| Assembler.NonGlobal | Args/internal/parser.cs:112-136 | keeps exactly the commands that are not `##global` |
| Assembler.SplitGlobals | Args/internal/parser.cs:112-136 | the commands that are not `##global` stay in order with repeats kept; the global options are those already held with every `##global` command's options merged in, in order, by the collection's add, and their names stay distinct |
| ParsedOptions.AddAllAppend | Args/internal/parser.cs:122-125 | merging two lists one after the other is merging their concatenation |
| Assembler.SplitWithoutGlobals | Args/internal/parser.cs:112-136 | without a `##global` pseudo-command the commands stay as they are and there is no global option |
| Assembler.AddAllKeys | Args/internal/parser.cs:122-125 | merging options adds exactly their keys |
| Assembler.SplitGlobalKeys | Args/internal/parser.cs:112-136 | the global options carry exactly the names given to `##global` pseudo-commands |
| Assembler.GlobalKeysBackfill | Args/internal/parser.cs:64-89 | the back-fill does not change the names of global options |
| Assembler.Assemble | Args/internal/parser.cs:28-141 | the result's global options have distinct names and no result command is a `##global` pseudo-command |
| Assembler.AssembleCommands | Args/internal/parser.cs:28-141 | every result command is defined, has all its required options and every non-empty default |
| Assembler.AssembleFails | Args/internal/parser.cs:91-110 | assembling fails exactly when a command, after the back-fill, lacks a required option |
| Assembler.AssembleDefaults | Args/internal/parser.cs:45-55 | default commands are synthesised only when no entry holds a command, and every result command then is a default one |
| Assembler.AssembleGlobals | Args/internal/parser.cs:112-136 | the global options carry exactly the names given to `##global` pseudo-commands |
| Processor.Normalise | Args/processor.cs:230-237 | a null input reads as empty; otherwise the input from its first to its last non-blank character, empty exactly when the input is blank |
| Processor.NormaliseIdempotent | Args/processor.cs:230-237 | normalising a normalised text changes nothing |
| Processor.ParseWith | Args/processor.cs:228-248 | with either reading of the merge, a result has distinct global names and no `##global` command |
| Processor.Parse | Args/processor.cs:228-248 | with the merge at Args/internal/parser.cs:434 corrected, a result has distinct global names, and every result command is a defined command |
| Processor.ParseKnown | Args/processor.cs:228-248 | every result command is defined, is not `##global`, and carries its required options and non-empty defaults |
| Processor.ParseIgnoresSurroundingSpace | Args/processor.cs:230-237 | a null input parses as the empty text, and white space around the input does not change the parse |
| ExampleText.JoinedExample | Args/internal/parser.cs:752-806 | `list a mode m b c`, written as six words joined by spaces, reads as those six unquoted words |
| ExampleText.InputParts | Args/internal/parser.cs:752-806 | the example text is the six words joined by single spaces and has no surrounding white space |
| Findings.DetachedValueLost | Args/internal/parser.cs:395-398 | as written, once the open option has been merged away, a further value for it changes nothing |
| Findings.ExampleParse | Args/internal/parser.cs:405-437 | the example parses to one `list` command whose `files` values depend on the reading of the merge |
| Findings.LostValue | Args/internal/parser.cs:405-437 | as written, `list a mode m b c` keeps `files` = `a b` and loses `c`; corrected, `files` = `a b c` |

## Left out

- Reading the XML text itself (`XmlDocument.LoadXml`) and its syntax errors are not modelled. The loader starts from an element tree (`XmlNodes.Element`), so the model has no malformed-XML path.
- `XMLProcessingException` wraps loading errors with line information. The model returns the underlying `DefinitionError` instead, because positions belong to the XML reader.
- JSON serialisation of the result, `ToString` overrides and the console example program are not part of the engine.
- `Text.Upper` upper-cases ASCII letters only, where the source calls `ToUpperInvariant`. Full Unicode case mapping is a table outside the model. Keys therefore compare case-insensitively only for ASCII letters.
- The `CommandDefs != null` test in `Processor.Parse` (Args/processor.cs:239-247) can never fail because the constructor always sets it, so its `ArgsException` is left out.
- The exception class hierarchy is one error datatype per stage. Only `DuplicateOption` and `MissingValue` carry their message text (`Errors.DuplicateOptionMessage`, `Errors.MissingValueMessage`); the other exceptions are identified by their kind and the word.
- Object identity and shared mutable references are not modelled. The open option is an index into its command (`Engine.Target`), and the one place where the source's reference leaves the command is the `AsWritten` reading of `Engine.MergeMode`.
- A default command without option definitions, reached on the second pass, makes the source index `OptionsDefs[0]` out of range. The model returns `Errors.ParseError.IndexOutOfRange` for it instead of a runtime exception.
- Engine.Step: its contract states only the invariants of one step. What each branch does is stated by the lemmas of module `Behaviour`, and soundness by `PassInvariants.StepKeepsInv`.
- Engine.ParseInner: its contract states only that found commands are kept; what a pass yields is `PassInvariants.ParseInnerSound`.
- Processor.Parse: uses the corrected merge (`Reattach`), so `list a mode m b c` yields `files` = `a b c` where the source yields `a b`. The source as written is `Processor.ParseWith(AsWritten, …)`, and `Findings.LostValue` states both results.
- Loader.LoadDefinitions: on failure it returns only the error. The definitions the processor keeps after a failed load are `Loader.HeldAfterLoad` (through `Loader.Held` and `Loader.HeldStopsAtFailure`): those added before a failing element, or all of them after a clash.
- Loader.LoadElements: its contract gives validity and the count of definitions. Document order is `Loader.LoadElementsInOrder`, readability is `Loader.LoadElementsRead`, and what is held after a failure is `Loader.HeldStopsAtFailure`.
- Tokenizer.Scan: its contract gives only progress and the quote state; what the loop collects is `Tokenizer.ScanQuoted` and `Tokenizer.ScanUnquoted`.

## Findings

| source | as written | input that shows it | evidently intended | confidence | as-written member | corrected member |
|---|---|---|---|---|---|---|
| Args/internal/parser.cs:405-437 | A positional word for an option allowing several values that the command already holds is added with `Cmd.AddOption(newOption)`. `OptionCollection.Add` merges the new option's value into the existing option and discards the new object. The open option still refers to the discarded object, so every later value for it is lost. | The command `list` has options `files` (allow_multiple, first) and `mode`; the input is `list a mode m b c`. `b` is merged into `files`, and `c` goes to the discarded object: the result has `files` = `a b`. | `files` = `a b c`: later values keep accumulating in the option they were merged into. | not executed | Findings.LostValue | Behaviour.MultipleValuesAccumulate |

=== FILE: assembler.dfy ===
/** `Parser.Parse` (Args/internal/parser.cs:28-141): from the entries of the
    outer pass to the result, in the source's order: default commands when no
    command was found, back-filled defaults, the required-option check, and the
    global options moved out of their `##global` pseudo-commands. */
module Assembler {
  import opened Results
  import opened Text
  import opened Errors
  import opened ParsedOptions
  import opened ParsedCommands
  import opened Intermediate
  import opened OptionDefs
  import opened CommandDefs
  import opened Grammar
  import opened PassInvariants
  import opened Passes

  /** `ParseResult`: the commands in input order and the global options. */
  datatype ParseResult = ParseResult(commands: seq<ParsedCommand>, globals: seq<ParsedOption>)

  predicate AllKnown(g: Grammar, cmds: seq<ParsedCommand>) {
    forall i :: 0 <= i < |cmds| ==> KnownName(g, cmds[i].name)
  }

  /** `cmdDefs[cmd.Name.ToUpperInvariant()]`. */
  function DefOf(g: Grammar, c: ParsedCommand): (cd: CommandDef)
    requires KnownName(g, c.name) && !IsGlobalName(c.name)
    ensures cd in g.commands && CommandKey(cd) == Upper(c.name)
  {
    FindCommandDef(g.commands, Upper(c.name)).value
  }

  /** The commands of sound entries are sound. */
  lemma {:induction false} CommandsOfOk(g: Grammar, es: seq<Entry>)
    requires AllEntriesOk(g, es)
    ensures forall i :: 0 <= i < |CommandsOf(es)| ==> CommandOk(g, CommandsOf(es)[i])
    decreases |es|
  {
    if |es| > 0 {
      assert EntryOk(g, es[0]);
      CommandsOfOk(g, es[1..]);
    }
  }

  /** A new command, without options, for every default definition, in definition order. */
  function DefaultCommands(cmds: seq<CommandDef>): (r: seq<ParsedCommand>)
    ensures |r| <= |cmds|
    ensures forall i :: 0 <= i < |r| ==> |r[i].options| == 0 && exists j :: 0 <= j < |cmds| && cmds[j].isDefault && r[i].name == cmds[j].name
    decreases |cmds|
  {
    if |cmds| == 0 then []
    else
      var rest := DefaultCommands(cmds[1..]);
      assert forall j :: 1 <= j < |cmds| ==> cmds[j] == cmds[1..][j - 1];
      if cmds[0].isDefault then [NewCommand(cmds[0].name)] + rest else rest
  }

  /** With no default definition there is no default command; with one, there is exactly that one. */
  lemma {:induction false} DefaultCommandsOfGrammar(cmds: seq<CommandDef>)
    ensures (forall j :: 0 <= j < |cmds| ==> !cmds[j].isDefault) ==> DefaultCommands(cmds) == []
    ensures AtMostOneDefault(cmds) && GetDefault(cmds).Some? ==> DefaultCommands(cmds) == [NewCommand(GetDefault(cmds).value.name)]
    decreases |cmds|
  {
    if |cmds| > 0 {
      DefaultCommandsOfGrammar(cmds[1..]);
      assert forall j :: 1 <= j < |cmds| ==> cmds[j] == cmds[1..][j - 1];
      if AtMostOneDefault(cmds) {
        assert AtMostOneDefault(cmds[1..]) by {
          forall i, j | 0 <= i < |cmds[1..]| && 0 <= j < |cmds[1..]| && cmds[1..][i].isDefault && cmds[1..][j].isDefault
            ensures i == j
          {
            assert cmds[i + 1].isDefault && cmds[j + 1].isDefault;
          }
        }
        if cmds[0].isDefault {
          assert forall j :: 1 <= j < |cmds| ==> !cmds[j].isDefault;
        }
      }
    }
  }

  /** The default commands are known to the grammar. */
  lemma DefaultCommandsKnown(g: Grammar)
    ensures AllKnown(g, DefaultCommands(g.commands))
    ensures forall i :: 0 <= i < |DefaultCommands(g.commands)| ==> CommandOk(g, DefaultCommands(g.commands)[i])
  {
    var r := DefaultCommands(g.commands);
    forall i | 0 <= i < |r|
      ensures CommandOk(g, r[i])
    {
      assert |r[i].options| == 0 && exists j :: 0 <= j < |g.commands| && g.commands[j].isDefault && r[i].name == g.commands[j].name;
      var j :| 0 <= j < |g.commands| && g.commands[j].isDefault && r[i].name == g.commands[j].name;
      DefinedNameKnown(g, g.commands[j]);
    }
  }

  /** `!string.IsNullOrEmpty(optDef.DefaultValue)`. */
  predicate HasDefault(od: OptionDef) {
    od.defaultValue.Some? && od.defaultValue.value != ""
  }

  /** The back-fill loop over a command's definitions: an option holding the
      default for each definition with a non-empty default and no option of its name. */
  function BackfillOptions(opts: seq<ParsedOption>, defs: seq<OptionDef>): (r: seq<ParsedOption>)
    ensures |opts| <= |r| && r[..|opts|] == opts
    decreases |defs|
  {
    if |defs| == 0 then opts
    else
      var od := defs[0];
      var opts' := if HasDefault(od) && CountWithName(opts, od.name) == 0 then Add(opts, NewOption(od.name, od.defaultValue.value)) else opts;
      var r := BackfillOptions(opts', defs[1..]);
      assert r[..|opts|] == r[..|opts'|][..|opts|];
      r
  }

  /** `cmd.Options.CountWithName(name) > 0`, through the keys it tests against (`UsedKeysCount`). */
  predicate HasOption(opts: seq<ParsedOption>, name: string) {
    Upper(name) in UsedKeys(opts)
  }

  /** After the back-fill every definition with a non-empty default has an option of its name. */
  lemma {:induction false} BackfillHasDefaults(opts: seq<ParsedOption>, defs: seq<OptionDef>)
    ensures forall i :: 0 <= i < |defs| && HasDefault(defs[i]) ==> HasOption(BackfillOptions(opts, defs), defs[i].name)
    decreases |defs|
  {
    if |defs| > 0 {
      var od := defs[0];
      var o := NewOption(od.name, od.defaultValue.GetOr(""));
      var opts' := if HasDefault(od) && CountWithName(opts, od.name) == 0 then Add(opts, o) else opts;
      BackfillHasDefaults(opts', defs[1..]);
      var r := BackfillOptions(opts, defs);
      assert r == BackfillOptions(opts', defs[1..]);
      assert forall i :: 1 <= i < |defs| ==> defs[i] == defs[1..][i - 1];
      UsedKeysPrefix(opts', r);
      if HasDefault(od) {
        UsedKeysCount(opts, od.name);
        AddUsedKeys(opts, o);
        assert HasOption(opts', od.name);
      }
    }
  }

  /** The options the back-fill adds hold a default and nothing else. */
  lemma {:induction false} BackfillAddsDefaults(opts: seq<ParsedOption>, defs: seq<OptionDef>)
    ensures forall j :: |opts| <= j < |BackfillOptions(opts, defs)| ==>
              exists i :: 0 <= i < |defs| && HasDefault(defs[i]) && BackfillOptions(opts, defs)[j] == NewOption(defs[i].name, defs[i].defaultValue.value)
    decreases |defs|
  {
    if |defs| > 0 {
      var od := defs[0];
      var o := NewOption(od.name, od.defaultValue.GetOr(""));
      var opts' := if HasDefault(od) && CountWithName(opts, od.name) == 0 then Add(opts, o) else opts;
      BackfillAddsDefaults(opts', defs[1..]);
      var r := BackfillOptions(opts, defs);
      assert r == BackfillOptions(opts', defs[1..]);
      forall j | |opts| <= j < |r|
        ensures exists i :: 0 <= i < |defs| && HasDefault(defs[i]) && r[j] == NewOption(defs[i].name, defs[i].defaultValue.value)
      {
        if j < |opts'| {
          assert HasDefault(od) && CountWithName(opts, od.name) == 0;
          assert opts' == opts + [o];
          assert r[j] == r[..|opts'|][j] == opts'[j] == NewOption(defs[0].name, defs[0].defaultValue.value);
        } else {
          assert |opts'| <= j < |BackfillOptions(opts', defs[1..])|;
          var i :| 0 <= i < |defs[1..]| && HasDefault(defs[1..][i]) && BackfillOptions(opts', defs[1..])[j] == NewOption(defs[1..][i].name, defs[1..][i].defaultValue.value);
          assert defs[i + 1] == defs[1..][i];
          assert HasDefault(defs[i + 1]) && r[j] == NewOption(defs[i + 1].name, defs[i + 1].defaultValue.value);
        }
      }
    } else {
      assert BackfillOptions(opts, defs) == opts;
    }
  }

  /** The back-fill keeps the options sound. */
  lemma {:induction false} BackfillKeepsSound(opts: seq<ParsedOption>, defs: seq<OptionDef>)
    requires DistinctNames(opts) && AllHaveValues(opts)
    ensures DistinctNames(BackfillOptions(opts, defs)) && AllHaveValues(BackfillOptions(opts, defs))
    decreases |defs|
  {
    if |defs| > 0 {
      var od := defs[0];
      var o := NewOption(od.name, od.defaultValue.GetOr(""));
      AddKeepsNamesDistinct(opts, o);
      AddKeepsValues(opts, o);
      var opts' := if HasDefault(od) && CountWithName(opts, od.name) == 0 then Add(opts, o) else opts;
      BackfillKeepsSound(opts', defs[1..]);
    }
  }

  /** The first loop of the assembler over one command: global pseudo-commands are left alone. */
  function Backfill(g: Grammar, c: ParsedCommand): (r: ParsedCommand)
    requires KnownName(g, c.name)
    ensures r.name == c.name && |c.options| <= |r.options| && r.options[..|c.options|] == c.options
    ensures IsGlobalName(c.name) ==> r == c
  {
    if IsGlobalName(c.name) then c
    else c.(options := BackfillOptions(c.options, DefOf(g, c).options))
  }

  function BackfillAll(g: Grammar, cmds: seq<ParsedCommand>): (r: seq<ParsedCommand>)
    requires AllKnown(g, cmds)
    ensures |r| == |cmds| && forall i :: 0 <= i < |cmds| ==> r[i] == Backfill(g, cmds[i])
  {
    seq(|cmds|, i requires 0 <= i < |cmds| => Backfill(g, cmds[i]))
  }

  /** Every required definition has an option of its name. */
  predicate RequiredPresent(cd: CommandDef, c: ParsedCommand) {
    forall k :: 0 <= k < |cd.options| && cd.options[k].required ==> HasOption(c.options, cd.options[k].name)
  }

  /** The inner check of the second loop: the first required definition, in
      definition order, without an option of its name. */
  function FirstMissing(defs: seq<OptionDef>, c: ParsedCommand): (r: Option<OptionDef>)
    ensures r.None? <==> forall k :: 0 <= k < |defs| && defs[k].required ==> HasOption(c.options, defs[k].name)
    ensures r.Some? ==> exists k :: 0 <= k < |defs| && defs[k] == r.value && r.value.required && !HasOption(c.options, r.value.name)
                          && forall m :: 0 <= m < k && defs[m].required ==> HasOption(c.options, defs[m].name)
    decreases |defs|
  {
    if |defs| == 0 then None
    else
      UsedKeysCount(c.options, defs[0].name);
      if defs[0].required && CountWithName(c.options, defs[0].name) == 0 then Some(defs[0])
      else
        var r := FirstMissing(defs[1..], c);
        assert forall k :: 1 <= k < |defs| ==> defs[k] == defs[1..][k - 1];
        r
  }

  /** The required-option check of one command: none for a `##global` pseudo-command,
      else the first required definition lacking an option. */
  function MissingIn(g: Grammar, c: ParsedCommand): (r: Option<ParseError>)
    requires KnownName(g, c.name)
    ensures r.None? <==> IsGlobalName(c.name) || RequiredPresent(DefOf(g, c), c)
    ensures r.Some? ==> FirstMissing(DefOf(g, c).options, c).Some?
                        && r.value == MissingValue(DefOf(g, c).name, FirstMissing(DefOf(g, c).options, c).value.name)
  {
    if IsGlobalName(c.name) then None
    else
      match FirstMissing(DefOf(g, c).options, c)
      case Some(od) => Some(MissingValue(DefOf(g, c).name, od.name))
      case None => None
  }

  /** The second loop: the first command, in order, missing a required option fails the parse. */
  function CheckRequired(g: Grammar, cmds: seq<ParsedCommand>): (r: Option<ParseError>)
    requires AllKnown(g, cmds)
    ensures r.None? <==> forall i :: 0 <= i < |cmds| ==> MissingIn(g, cmds[i]).None?
    decreases |cmds|
  {
    if |cmds| == 0 then None
    else if MissingIn(g, cmds[0]).Some? then MissingIn(g, cmds[0])
    else
      assert forall i :: 1 <= i < |cmds| ==> cmds[i] == cmds[1..][i - 1];
      CheckRequired(g, cmds[1..])
  }

  /** The error is that of the first command lacking a required option. */
  lemma {:induction false} CheckRequiredFirst(g: Grammar, cmds: seq<ParsedCommand>)
    requires AllKnown(g, cmds)
    ensures CheckRequired(g, cmds).Some? ==>
      exists i :: 0 <= i < |cmds| && CheckRequired(g, cmds) == MissingIn(g, cmds[i])
                  && forall m :: 0 <= m < i ==> MissingIn(g, cmds[m]).None?
    decreases |cmds|
  {
    if |cmds| > 0 && CheckRequired(g, cmds).Some? {
      if MissingIn(g, cmds[0]).Some? {
        assert CheckRequired(g, cmds) == MissingIn(g, cmds[0]);
      } else {
        var tail := cmds[1..];
        assert AllKnown(g, tail) by {
          forall i | 0 <= i < |tail|
            ensures KnownName(g, tail[i].name)
          {
            assert tail[i] == cmds[i + 1];
          }
        }
        assert CheckRequired(g, cmds) == CheckRequired(g, tail);
        CheckRequiredFirst(g, tail);
        var i :| 0 <= i < |tail| && CheckRequired(g, tail) == MissingIn(g, tail[i])
                 && forall m :: 0 <= m < i ==> MissingIn(g, tail[m]).None?;
        assert tail[i] == cmds[i + 1];
        forall m | 0 <= m < i + 1
          ensures MissingIn(g, cmds[m]).None?
        {
          if m > 0 {
            assert cmds[m] == tail[m - 1];
          }
        }
      }
    }
  }

  /** The commands that are not `##global` pseudo-commands, in order, repeats kept. */
  function NonGlobal(cmds: seq<ParsedCommand>): (r: seq<ParsedCommand>)
    ensures |r| <= |cmds|
    ensures forall i :: 0 <= i < |r| ==> !IsGlobalName(r[i].name) && r[i] in cmds
    ensures forall i :: 0 <= i < |cmds| && !IsGlobalName(cmds[i].name) ==> cmds[i] in r
    decreases |cmds|
  {
    if |cmds| == 0 then []
    else
      assert forall i :: 1 <= i < |cmds| ==> cmds[i] == cmds[1..][i - 1];
      (if IsGlobalName(cmds[0].name) then [] else [cmds[0]]) + NonGlobal(cmds[1..])
  }

  /** The options of the `##global` pseudo-commands, one command after the other. */
  function GlobalOptionsOf(cmds: seq<ParsedCommand>): seq<ParsedOption>
    decreases |cmds|
  {
    if |cmds| == 0 then []
    else (if IsGlobalName(cmds[0].name) then cmds[0].options else []) + GlobalOptionsOf(cmds[1..])
  }

  /** The third loop: the options of every `##global` pseudo-command are added,
      merging by name, to the global options; the other commands are kept in order. */
  function SplitGlobals(cmds: seq<ParsedCommand>, globals: seq<ParsedOption>): (r: ParseResult)
    requires DistinctNames(globals)
    ensures r == ParseResult(NonGlobal(cmds), AddAll(globals, GlobalOptionsOf(cmds)))
    ensures DistinctNames(r.globals)
    ensures forall i :: 0 <= i < |r.commands| ==> !IsGlobalName(r.commands[i].name) && r.commands[i] in cmds
    ensures forall i :: 0 <= i < |cmds| && !IsGlobalName(cmds[i].name) ==> cmds[i] in r.commands
    decreases |cmds|
  {
    if |cmds| == 0 then ParseResult([], globals)
    else
      var tail := cmds[1..];
      if IsGlobalName(cmds[0].name) then
        assert NonGlobal(cmds) == NonGlobal(tail);
        assert GlobalOptionsOf(cmds) == cmds[0].options + GlobalOptionsOf(tail);
        AddAllAppend(globals, cmds[0].options, GlobalOptionsOf(tail));
        SplitGlobals(tail, AddAll(globals, cmds[0].options))
      else
        var rest := SplitGlobals(tail, globals);
        assert NonGlobal(cmds) == [cmds[0]] + NonGlobal(tail);
        assert GlobalOptionsOf(cmds) == GlobalOptionsOf(tail);
        ParseResult([cmds[0]] + rest.commands, rest.globals)
  }

  /** Without a `##global` pseudo-command the commands stay as they are and no global
      option appears, as when the source skips the third loop. */
  lemma {:induction false} SplitWithoutGlobals(cmds: seq<ParsedCommand>)
    requires forall i :: 0 <= i < |cmds| ==> !IsGlobalName(cmds[i].name)
    ensures SplitGlobals(cmds, []) == ParseResult(cmds, [])
    decreases |cmds|
  {
    if |cmds| > 0 {
      SplitWithoutGlobals(cmds[1..]);
      assert cmds == [cmds[0]] + cmds[1..];
    }
  }

  lemma {:induction false} AddAllKeys(opts: seq<ParsedOption>, more: seq<ParsedOption>)
    requires DistinctNames(opts)
    ensures UsedKeys(AddAll(opts, more)) == UsedKeys(opts) + UsedKeys(more)
    decreases |more|
  {
    if |more| > 0 {
      AddKeepsNamesDistinct(opts, more[0]);
      AddAllKeys(Add(opts, more[0]), more[1..]);
      AddUsedKeys(opts, more[0]);
      UsedKeysCons(more);
    }
  }

  /** The keys of the options given to `##global` pseudo-commands. */
  function GlobalKeys(cmds: seq<ParsedCommand>): set<string>
    decreases |cmds|
  {
    if |cmds| == 0 then {}
    else (if IsGlobalName(cmds[0].name) then UsedKeys(cmds[0].options) else {}) + GlobalKeys(cmds[1..])
  }

  /** The global options carry exactly the names given to `##global` pseudo-commands. */
  lemma {:induction false} SplitGlobalKeys(cmds: seq<ParsedCommand>, globals: seq<ParsedOption>)
    requires DistinctNames(globals)
    ensures UsedKeys(SplitGlobals(cmds, globals).globals) == UsedKeys(globals) + GlobalKeys(cmds)
    decreases |cmds|
  {
    if |cmds| > 0 {
      if IsGlobalName(cmds[0].name) {
        AddAllKeys(globals, cmds[0].options);
        SplitGlobalKeys(cmds[1..], AddAll(globals, cmds[0].options));
      } else {
        SplitGlobalKeys(cmds[1..], globals);
      }
    }
  }

  /** `Parser.Parse` after `ParseOuter`. */
  function Assemble(g: Grammar, es: seq<Entry>): (r: Result<ParseResult, ParseError>)
    requires AllKnown(g, CommandsOf(es))
    ensures r.Ok? ==> DistinctNames(r.value.globals)
    ensures r.Ok? ==> forall i :: 0 <= i < |r.value.commands| ==> !IsGlobalName(r.value.commands[i].name)
  {
    var cmds := CommandsOf(es);
    DefaultCommandsKnown(g);
    var initial := if |cmds| == 0 then DefaultCommands(g.commands) else cmds;
    var filled := BackfillAll(g, initial);
    match CheckRequired(g, filled)
    case Some(e) => Err(e)
    case None => Ok(SplitGlobals(filled, []))
  }

  /** The commands the assembler starts from: those of the entries, or the
      default commands when there are none. */
  function InitialCommands(g: Grammar, es: seq<Entry>): seq<ParsedCommand> {
    if |CommandsOf(es)| == 0 then DefaultCommands(g.commands) else CommandsOf(es)
  }

  /** What the assembler promises about each command it returns: the required
      options and the non-empty defaults are all present, and a command keeps the
      options it was given, first and unchanged. */
  lemma AssembleCommands(g: Grammar, es: seq<Entry>)
    requires AllKnown(g, CommandsOf(es))
    ensures Assemble(g, es).Ok? ==>
      forall i :: 0 <= i < |Assemble(g, es).value.commands| ==>
        var c := Assemble(g, es).value.commands[i];
        KnownName(g, c.name) && !IsGlobalName(c.name) && RequiredPresent(DefOf(g, c), c)
        && (forall k :: 0 <= k < |DefOf(g, c).options| && HasDefault(DefOf(g, c).options[k]) ==> HasOption(c.options, DefOf(g, c).options[k].name))
        && exists j :: 0 <= j < |InitialCommands(g, es)| && Backfill(g, InitialCommands(g, es)[j]) == c
                       && c.options[..|InitialCommands(g, es)[j].options|] == InitialCommands(g, es)[j].options
  {
    DefaultCommandsKnown(g);
    var initial := InitialCommands(g, es);
    var filled := BackfillAll(g, initial);
    if Assemble(g, es).Ok? {
      var r := Assemble(g, es).value;
      assert r == SplitGlobals(filled, []);
      forall i | 0 <= i < |r.commands|
        ensures var c := r.commands[i];
          KnownName(g, c.name) && !IsGlobalName(c.name) && RequiredPresent(DefOf(g, c), c)
          && (forall k :: 0 <= k < |DefOf(g, c).options| && HasDefault(DefOf(g, c).options[k]) ==> HasOption(c.options, DefOf(g, c).options[k].name))
          && exists j :: 0 <= j < |initial| && Backfill(g, initial[j]) == c && c.options[..|initial[j].options|] == initial[j].options
      {
        var c := r.commands[i];
        var j :| 0 <= j < |filled| && filled[j] == c;
        assert filled[j] == Backfill(g, initial[j]);
        BackfillHasDefaults(initial[j].options, DefOf(g, initial[j]).options);
        BackfillAddsDefaults(initial[j].options, DefOf(g, initial[j]).options);
      }
    }
  }

  /** The assembler fails exactly when a command, after the back-fill, lacks a
      required option, and then with the error of the first such command. */
  lemma AssembleFails(g: Grammar, es: seq<Entry>)
    requires AllKnown(g, CommandsOf(es))
    ensures
      var filled := BackfillAll(g, InitialCommands(g, es));
      && (Assemble(g, es).Err? <==> exists i :: 0 <= i < |filled| && !IsGlobalName(filled[i].name) && !RequiredPresent(DefOf(g, filled[i]), filled[i]))
      && (Assemble(g, es).Err? ==> exists i :: 0 <= i < |filled| && MissingIn(g, filled[i]) == Some(Assemble(g, es).error)
                                              && forall m :: 0 <= m < i ==> MissingIn(g, filled[m]).None?)
  {
    DefaultCommandsKnown(g);
    var filled := BackfillAll(g, InitialCommands(g, es));
    CheckRequiredFirst(g, filled);
  }

  /** Defaults are synthesised only when no entry holds a command; a
      `##global` pseudo-command counts as one. */
  lemma AssembleDefaults(g: Grammar, es: seq<Entry>)
    requires AllKnown(g, CommandsOf(es))
    ensures |CommandsOf(es)| > 0 ==> InitialCommands(g, es) == CommandsOf(es)
    ensures |CommandsOf(es)| == 0 && Assemble(g, es).Ok? ==>
      forall i :: 0 <= i < |Assemble(g, es).value.commands| ==>
        exists j :: 0 <= j < |g.commands| && g.commands[j].isDefault && Assemble(g, es).value.commands[i].name == g.commands[j].name
  {
    DefaultCommandsKnown(g);
    if |CommandsOf(es)| == 0 && Assemble(g, es).Ok? {
      var initial := DefaultCommands(g.commands);
      var filled := BackfillAll(g, initial);
      var r := Assemble(g, es).value;
      forall i | 0 <= i < |r.commands|
        ensures exists j :: 0 <= j < |g.commands| && g.commands[j].isDefault && r.commands[i].name == g.commands[j].name
      {
        var k :| 0 <= k < |filled| && filled[k] == r.commands[i];
        assert filled[k].name == initial[k].name;
      }
    }
  }

  /** The global options carry exactly the names given to `##global` pseudo-commands. */
  lemma AssembleGlobals(g: Grammar, es: seq<Entry>)
    requires AllKnown(g, CommandsOf(es))
    ensures Assemble(g, es).Ok? ==> UsedKeys(Assemble(g, es).value.globals) == GlobalKeys(InitialCommands(g, es))
  {
    DefaultCommandsKnown(g);
    var initial := InitialCommands(g, es);
    var filled := BackfillAll(g, initial);
    SplitGlobalKeys(filled, []);
    GlobalKeysBackfill(g, initial);
  }

  lemma {:induction false} GlobalKeysBackfill(g: Grammar, cmds: seq<ParsedCommand>)
    requires AllKnown(g, cmds)
    ensures GlobalKeys(BackfillAll(g, cmds)) == GlobalKeys(cmds)
    decreases |cmds|
  {
    if |cmds| > 0 {
      GlobalKeysBackfill(g, cmds[1..]);
      assert BackfillAll(g, cmds)[1..] == BackfillAll(g, cmds[1..]);
    }
  }
}

=== FILE: assist.dfy ===
/** Optional-attribute readers (Args/internal/assist.cs). */
module Assist {
  import opened Results
  import opened Text
  import opened XmlNodes

  /** The attribute value spells "true", ignoring surrounding white space and letter case. */
  predicate IsTrueWord(v: string) {
    EqualsIgnoreCase(Trim(v), "true")
  }

  /** The attribute value spells "false", ignoring surrounding white space and letter case. */
  predicate IsFalseWord(v: string) {
    EqualsIgnoreCase(Trim(v), "false")
  }

  /** A boolean attribute that is absent or spells "true" or "false". */
  predicate BooleanAttributeValid(e: Element, attr: string) {
    attr !in e.attributes || IsTrueWord(e.attributes[attr]) || IsFalseWord(e.attributes[attr])
  }

  /** `GetOptionalBooleanAttribute`: absent gives the fallback; otherwise the
      trimmed value must be "true" or "false", in any letter case. */
  function GetOptionalBooleanAttribute(e: Element, name: string, fallback: bool): (r: Result<bool, DefinitionError>)
    ensures r.Err? <==> !BooleanAttributeValid(e, name)
    ensures r.Err? ==> r.error == InvalidBoolean(name)
    ensures r.Ok? ==> r.value == if name in e.attributes then IsTrueWord(e.attributes[name]) else fallback
  {
    match Attribute(e, name)
    case None => Ok(fallback)
    case Some(raw) =>
      var value := Trim(raw);
      if EqualsIgnoreCase("true", value) then Ok(true)
      else if EqualsIgnoreCase("false", value) then Ok(false)
      else Err(InvalidBoolean(name))
  }

  /** `GetOptionalStringAttribute`: the raw, untrimmed value when present, else the fallback. */
  function GetOptionalStringAttribute(e: Element, name: string, fallback: Option<string>): (r: Option<string>)
    ensures name in e.attributes ==> r == Some(e.attributes[name])
    ensures name !in e.attributes ==> r == fallback
  {
    match Attribute(e, name)
    case Some(v) => Some(v)
    case None => fallback
  }

  /** Letter case does not matter to the boolean reader. */
  lemma BooleanIgnoresCase(fallback: bool)
    ensures GetOptionalBooleanAttribute(Element("option", map["is_flag" := "True"], []), "is_flag", fallback) == Ok(true)
  {
    TrimUnchanged("True");
    assert Upper("True") == Upper("true") by {
      assert forall i :: 0 <= i < 4 ==> UpperChar("True"[i]) == UpperChar("true"[i]);
    }
  }

  /** A word other than "true" or "false" is refused, whatever the fallback. */
  lemma BooleanRefusesOtherWords(fallback: bool)
    ensures GetOptionalBooleanAttribute(Element("option", map["is_flag" := "yes"], []), "is_flag", fallback) == Err(InvalidBoolean("is_flag"))
  {
    TrimUnchanged("yes");
    assert Upper("yes")[0] != Upper("true")[0];
  }
}

=== FILE: behaviour.dfy ===
/** What one word does to a pass (Args/internal/parser.cs:214-547), stated for
    all inputs: the order in which a word is tried, and the rules the parser's
    tests pin down. */
module Behaviour {
  import opened Results
  import opened Text
  import opened Tokenizer
  import opened Errors
  import opened ParsedOptions
  import opened ParsedCommands
  import opened Intermediate
  import opened OptionDefs
  import opened CommandDefs
  import opened Grammar
  import opened Engine
  import opened PassInvariants

  /** An unquoted word naming a global option, not used yet in this pass or
      allowing several values, closes the open command and opens a `##global`
      pseudo-command holding that option. */
  lemma GlobalKeywordFirst(mode: MergeMode, g: Grammar, level: nat, st: PassState, w: Word, od: OptionDef)
    requires GlobalKeyword(g, st, w) == Ok(Some(od))
    ensures Step(mode, g, level, st, w) ==
      match Supersede(st.ctx)
      case Ok(ctx) => Ok(PassState(st.done + Flush(ctx), Some(GlobalContext(od)), st.found))
      case Err(e) => Err(e)
  {
  }

  /** A quoted word is never a global keyword. */
  lemma QuotedNeverGlobal(g: Grammar, st: PassState, w: Word)
    requires w.quoted
    ensures GlobalKeyword(g, st, w) == Ok(None)
  {
  }

  /** A global option already used in this pass, and not allowing several values, fails
      with a message naming no command. */
  lemma DuplicateGlobal(mode: MergeMode, g: Grammar, level: nat, st: PassState, w: Word)
    requires !w.quoted
    requires FindOptionDef(g.globals, Upper(w.text)).Some? && !FindOptionDef(g.globals, Upper(w.text)).value.allowMultiple
    requires GlobalUsed(Entries(st), w.text)
    ensures Step(mode, g, level, st, w) == Err(DuplicateOption("", w.text))
  {
  }

  /** A global keyword supersedes an option still awaiting its value: a required
      one takes its default or fails; any other is closed with its "" placeholder. */
  lemma GlobalSupersedesAwaiting(mode: MergeMode, g: Grammar, level: nat, st: PassState, w: Word, od: OptionDef)
    requires GlobalKeyword(g, st, w) == Ok(Some(od)) && Awaiting(st.ctx)
    ensures var c := st.ctx.value; var s := c.slot.value;
      && (!s.def.required ==> Step(mode, g, level, st, w) == Ok(PassState(st.done + [AsCommand(c.cmd)], Some(GlobalContext(od)), st.found)))
      && (s.def.required && s.def.defaultValue.None? ==> Step(mode, g, level, st, w) == Err(MissingValue(c.def.name, s.def.name)))
      && (s.def.required && s.def.defaultValue.Some? ==>
            Step(mode, g, level, st, w) == Ok(PassState(st.done + [AsCommand(TakeDefault(c, s.def.defaultValue.value).cmd)], Some(GlobalContext(od)), st.found)))
  {
  }

  /** The `##global` pseudo-command of a global keyword: a flag holds its default or
      "true" and is complete; any other option awaits its value. */
  lemma GlobalFlagResolves(od: OptionDef)
    ensures GlobalContext(od).cmd == ParsedCommand(GlobalCommandName, [NewOption(od.name, InitialValue(od))])
    ensures od.isFlag ==> Value(GlobalContext(od).cmd.options[0]) == od.defaultValue.GetOr("true") && !GlobalContext(od).slot.value.awaiting
    ensures !od.isFlag ==> Value(GlobalContext(od).cmd.options[0]) == "" && GlobalContext(od).slot.value.awaiting
  {
    assert GlobalContext(od).cmd.options == [NewOption(od.name, InitialValue(od))];
  }

  /** Unless an option awaits its value, a word naming a command not found yet, or
      allowing repeats, opens that command, quoted or not. */
  lemma CommandKeyword(mode: MergeMode, g: Grammar, level: nat, st: PassState, w: Word, cd: CommandDef)
    requires GlobalKeyword(g, st, w) == Ok(None) && !Awaiting(st.ctx)
    requires CommandAvailable(g, st.found, w.text) == Some(cd)
    ensures Step(mode, g, level, st, w) == Ok(PassState(Entries(st), Some(Context(cd, NewCommand(cd.name), None)), st.found + {Upper(w.text)}))
  {
  }

  /** An option awaiting its value takes the next word that is not a global
      keyword, even a command name, and even an option keyword when the awaiting
      option is not required. */
  lemma AwaitingTakesWord(mode: MergeMode, g: Grammar, level: nat, st: PassState, w: Word)
    requires GlobalKeyword(g, st, w) == Ok(None) && Awaiting(st.ctx)
    requires !st.ctx.value.slot.value.def.required || FindOptionDef(st.ctx.value.def.options, w.Upper()).None?
    ensures var c := st.ctx.value; var s := c.slot.value;
      Step(mode, g, level, st, w) == Ok(st.(ctx := Some(c.(cmd := SetSlotValue(c.cmd, s.target, w.text), slot := Some(s.(awaiting := false))))))
  {
  }

  /** In a sound context the value lands in the option the slot names, and only there. */
  lemma AwaitingValueLands(g: Grammar, level: nat, st: PassState, w: Word)
    requires GlobalKeyword(g, st, w) == Ok(None) && Awaiting(st.ctx) && ContextOk(Reattach, g, st.ctx.value)
    requires !st.ctx.value.slot.value.def.required || FindOptionDef(st.ctx.value.def.options, w.Upper()).None?
    ensures Step(Reattach, g, level, st, w).Ok?
    ensures var c := st.ctx.value; var i := c.slot.value.target.index; var c' := Step(Reattach, g, level, st, w).value.ctx.value;
      && c'.cmd.options[i].values == [w.text] && Named(c'.cmd.options[i], c.slot.value.def.name)
      && !c'.slot.value.awaiting
      && forall j :: 0 <= j < |c.cmd.options| && j != i ==> c'.cmd.options[j] == c.cmd.options[j]
  {
    AwaitingTakesWord(Reattach, g, level, st, w);
  }

  /** A required option awaiting its value, followed by one of its command's option keywords, fails. */
  lemma RequiredAwaitingKeyword(mode: MergeMode, g: Grammar, level: nat, st: PassState, w: Word)
    requires GlobalKeyword(g, st, w) == Ok(None) && Awaiting(st.ctx)
    requires st.ctx.value.slot.value.def.required && FindOptionDef(st.ctx.value.def.options, w.Upper()).Some?
    ensures Step(mode, g, level, st, w) == Err(MissingValue(st.ctx.value.def.name, st.ctx.value.slot.value.def.name))
  {
  }

  /** With an open command and no open option, an unquoted option keyword opens
      that option under the word's own spelling; a flag is complete at once,
      holding its default or "true". */
  lemma KeywordOpensOption(mode: MergeMode, c: Context, w: Word, kd: OptionDef)
    requires c.slot.None? && !w.quoted && FindOptionDef(c.def.options, w.Upper()) == Some(kd)
    requires IndexOf(c.cmd.options, w.text).None?
    ensures NoSlot(mode, c, w).cmd.options == c.cmd.options + [NewOption(w.text, InitialValue(kd))]
    ensures NoSlot(mode, c, w).slot == Some(Slot(kd, Attached(|c.cmd.options|), !kd.isFlag))
    ensures kd.isFlag ==> InitialValue(kd) == kd.defaultValue.GetOr("true")
  {
  }

  /** A word that is no keyword, or is quoted, fills the first option of the
      command that is unused or allows several values, under the definition's name;
      with no such option it is dropped. */
  lemma PositionalFirstUnused(mode: MergeMode, c: Context, w: Word)
    requires c.slot.None? && (w.quoted || FindOptionDef(c.def.options, w.Upper()).None?)
    ensures GetUnusedOption(c.def.options, c.cmd.options).None? ==> NoSlot(mode, c, w) == c
    ensures GetUnusedOption(c.def.options, c.cmd.options).Some? ==>
      var od := GetUnusedOption(c.def.options, c.cmd.options).value;
      NoSlot(mode, c, w).cmd == AddOption(c.cmd, NewOption(od.name, w.text))
  {
  }

  /** An option keyword while an option is open and complete: a new option is
      opened, a repeated one fails unless it allows several values. */
  lemma RepeatedOption(mode: MergeMode, found: set<string>, c: Context, w: Word, kd: OptionDef)
    requires c.slot.Some? && !c.slot.value.awaiting
    requires FindOptionDef(c.def.options, w.Upper()) == Some(kd) && IndexOf(c.cmd.options, w.text).Some?
    ensures !kd.allowMultiple ==> InSlot(mode, found, c, w) == Err(DuplicateOption(c.def.name, w.text))
    ensures kd.allowMultiple ==> InSlot(mode, found, c, w).Ok? && InSlot(mode, found, c, w).value.cmd == c.cmd
  {
  }

  /** Values of an open option allowing several accumulate in the order they come. */
  lemma MultipleValuesAccumulate(g: Grammar, found: set<string>, c: Context, w: Word)
    requires ContextOk(Reattach, g, c) && c.slot.Some? && !c.slot.value.awaiting && c.slot.value.def.allowMultiple
    requires FindOptionDef(c.def.options, w.Upper()).None?
    ensures InSlot(Reattach, found, c, w).Ok?
    ensures var i := c.slot.value.target.index;
      && InSlot(Reattach, found, c, w).value.cmd.options[i].values == c.cmd.options[i].values + [w.text]
      && Named(InSlot(Reattach, found, c, w).value.cmd.options[i], c.slot.value.def.name)
  {
  }

  /** A word no rule takes, after a complete single-value option with no unused
      option left, fails: as a repeated command when it names a command already
      found, as an invalid command otherwise. */
  lemma NoPlaceForWord(mode: MergeMode, found: set<string>, c: Context, w: Word)
    requires c.slot.Some? && !c.slot.value.awaiting && !c.slot.value.def.allowMultiple
    requires FindOptionDef(c.def.options, w.Upper()).None?
    requires GetUnusedOption(c.def.options, c.cmd.options).None?
    ensures w.Upper() in found ==> InSlot(mode, found, c, w) == Err(DuplicateCommand(w.text))
    ensures w.Upper() !in found ==> InSlot(mode, found, c, w) == Err(InvalidCommand(w.text))
  {
  }

  /** Before any command, the first pass defers the word, quotes restored. */
  lemma FirstPassDefers(mode: MergeMode, g: Grammar, st: PassState, w: Word)
    requires st.ctx.None? && GlobalKeyword(g, st, w) == Ok(None) && CommandAvailable(g, st.found, w.text).None?
    ensures Step(mode, g, 0, st, w) == Ok(st.(done := st.done + [AsUnprocessedText(w.Unprocessed())]))
  {
  }

  /** Before any command, the second pass rejects a word when every default
      command has been found already. */
  lemma SecondPassNoDefault(mode: MergeMode, g: Grammar, level: nat, st: PassState, w: Word)
    requires level > 0 && st.ctx.None? && GlobalKeyword(g, st, w) == Ok(None) && CommandAvailable(g, st.found, w.text).None?
    requires FirstUnusedDefault(g.commands, st.found).None?
    ensures Step(mode, g, level, st, w) == Err(InvalidCommand(w.text))
  {
  }

  /** Before any command, the second pass makes the word the first option of the
      first default command not found yet. */
  lemma SecondPassBindsDefault(mode: MergeMode, g: Grammar, level: nat, st: PassState, w: Word, cd: CommandDef)
    requires level > 0 && st.ctx.None? && GlobalKeyword(g, st, w) == Ok(None) && CommandAvailable(g, st.found, w.text).None?
    requires FirstUnusedDefault(g.commands, st.found) == Some(cd) && |cd.options| > 0
    ensures Step(mode, g, level, st, w).Ok?
    ensures Step(mode, g, level, st, w).value.ctx.value.cmd == ParsedCommand(cd.name, [NewOption(cd.options[0].name, w.text)])
    ensures Step(mode, g, level, st, w).value.found == st.found + {CommandKey(cd)}
  {
    assert AddOption(NewCommand(cd.name), NewOption(cd.options[0].name, w.text)).options == [NewOption(cd.options[0].name, w.text)];
  }

  /** At the end of the text an option awaiting its value takes its default, required or not. */
  lemma FinishTakesDefault(st: PassState)
    requires Awaiting(st.ctx) && st.ctx.value.slot.value.def.defaultValue.Some?
    ensures Finish(st) == Ok(st.(ctx := Some(TakeDefault(st.ctx.value, st.ctx.value.slot.value.def.defaultValue.value))))
  {
  }
}

=== FILE: commanddefs.dfy ===
/** Command definitions and their keyed collection (Args/internal/commandDef.cs). */
module CommandDefs {
  import opened Results
  import opened Text
  import opened XmlNodes
  import opened Assist
  import opened OptionDefs

  datatype CommandDef = CommandDef(
    name: string,
    isDefault: bool,
    allowMultiple: bool,
    options: seq<OptionDef>)

  /** `GetKeyForItem`. */
  function CommandKey(cd: CommandDef): string {
    Upper(cd.name)
  }

  /** What every loaded command definition satisfies. */
  predicate ValidCommandDef(cd: CommandDef) {
    WellNamed(cd.name) && UniqueOptionKeys(cd.options)
    && forall i :: 0 <= i < |cd.options| ==> ValidOptionDef(cd.options[i])
  }

  predicate UniqueCommandKeys(defs: seq<CommandDef>) {
    forall i, j :: 0 <= i < j < |defs| ==> CommandKey(defs[i]) != CommandKey(defs[j])
  }

  /** `new CommandDef(name, isDefault, allowMultiple)`: a definition without options. */
  function NewCommandDef(name: string, isDefault: bool, allowMultiple: bool): (cd: CommandDef)
    ensures cd.name == name && cd.isDefault == isDefault && cd.allowMultiple == allowMultiple
    ensures forall key :: FindOptionDef(cd.options, key).None?
  {
    CommandDef(name, isDefault, allowMultiple, [])
  }

  /** `Contains(key)` and the indexer `this[key]`: the first definition with that key. */
  function FindCommandDef(defs: seq<CommandDef>, key: string): (r: Option<CommandDef>)
    ensures r.None? <==> forall i :: 0 <= i < |defs| ==> CommandKey(defs[i]) != key
    ensures r.Some? ==> exists i :: 0 <= i < |defs| && defs[i] == r.value && CommandKey(defs[i]) == key
                          && forall j :: 0 <= j < i ==> CommandKey(defs[j]) != key
  {
    if |defs| == 0 then None
    else if CommandKey(defs[0]) == key then Some(defs[0])
    else
      var r := FindCommandDef(defs[1..], key);
      assert forall j :: 1 <= j < |defs| ==> defs[j] == defs[1..][j - 1];
      r
  }

  /** With unique keys the definition found is the only one with that key. */
  lemma FindUniqueCommandDef(defs: seq<CommandDef>, i: nat)
    requires UniqueCommandKeys(defs) && i < |defs|
    ensures FindCommandDef(defs, CommandKey(defs[i])) == Some(defs[i])
  {
    var r := FindCommandDef(defs, CommandKey(defs[i]));
    var m :| 0 <= m < |defs| && defs[m] == r.value && CommandKey(defs[m]) == CommandKey(defs[i]);
    assert m == i;
  }

  /** `KeyedCollection.Add`: appends, or refuses an item whose key is present. */
  function AddKeyed(defs: seq<CommandDef>, cd: CommandDef): (r: Result<seq<CommandDef>, DefinitionError>)
    ensures r.Err? <==> exists i :: 0 <= i < |defs| && CommandKey(defs[i]) == CommandKey(cd)
    ensures r.Err? ==> r.error == DuplicateKey(CommandKey(cd))
    ensures r.Ok? ==> r.value == defs + [cd]
    ensures r.Ok? && UniqueCommandKeys(defs) ==> UniqueCommandKeys(r.value)
  {
    if FindCommandDef(defs, CommandKey(cd)).Some? then Err(DuplicateKey(CommandKey(cd)))
    else Ok(defs + [cd])
  }

  /** `GetDefault`: the first definition marked default, or null. */
  function GetDefault(defs: seq<CommandDef>): (r: Option<CommandDef>)
    ensures r.None? <==> forall i :: 0 <= i < |defs| ==> !defs[i].isDefault
    ensures r.Some? ==> exists i :: 0 <= i < |defs| && defs[i] == r.value && r.value.isDefault
                          && forall j :: 0 <= j < i ==> !defs[j].isDefault
  {
    if |defs| == 0 then None
    else if defs[0].isDefault then Some(defs[0])
    else
      var r := GetDefault(defs[1..]);
      assert forall j :: 1 <= j < |defs| ==> defs[j] == defs[1..][j - 1];
      r
  }

  /** `AddOptionDef`: the option joins the command's keyed option collection. */
  function AddOptionDefToCommand(cd: CommandDef, od: OptionDef): (r: Result<CommandDef, DefinitionError>)
    ensures r.Err? <==> FindOptionDef(cd.options, OptionKey(od)).Some?
    ensures r.Ok? ==> r.value == cd.(options := cd.options + [od])
  {
    var options :- AddOptionDef(cd.options, od);
    Ok(cd.(options := options))
  }

  predicate IsOptionElement(e: Element) {
    EqualsIgnoreCase("option", e.name)
  }

  /** The children a command element reads: those named "option", in any letter case, in order. */
  function OptionElements(children: seq<Element>): (r: seq<Element>)
    ensures |r| <= |children|
    ensures forall i :: 0 <= i < |r| ==> IsOptionElement(r[i]) && r[i] in children
    ensures forall i :: 0 <= i < |children| && IsOptionElement(children[i]) ==> children[i] in r
  {
    if |children| == 0 then []
    else
      var rest := OptionElements(children[1..]);
      assert forall i :: 1 <= i < |children| ==> children[i] == children[1..][i - 1];
      if IsOptionElement(children[0]) then [children[0]] + rest else rest
  }

  /** A single child is kept exactly when it is named "option". */
  lemma OptionElementsSingle(e: Element)
    ensures OptionElements([e]) == (if IsOptionElement(e) then [e] else [])
  {
    assert [e][1..] == [];
  }

  /** The option children of two runs of children are those of the first run, then
      those of the second: the filter keeps document order. */
  lemma {:induction false} OptionElementsAppend(a: seq<Element>, b: seq<Element>)
    ensures OptionElements(a + b) == OptionElements(a) + OptionElements(b)
    decreases |a|
  {
    if |a| > 0 {
      var ab, h := a + b, if IsOptionElement(a[0]) then [a[0]] else [];
      assert ab[0] == a[0] && ab[1..] == a[1..] + b;
      OptionElementsAppend(a[1..], b);
      assert OptionElements(ab) == h + (OptionElements(a[1..]) + OptionElements(b));
      assert OptionElements(a) == h + OptionElements(a[1..]);
    } else {
      assert a + b == b;
    }
  }

  /** Reads option elements one after another into a keyed option collection;
      the first failure ends the reading. */
  function AddOptionElements(defs: seq<OptionDef>, elems: seq<Element>): (r: Result<seq<OptionDef>, DefinitionError>)
    requires UniqueOptionKeys(defs) && AllValidOptionDefs(defs)
    ensures r.Ok? ==> UniqueOptionKeys(r.value) && AllValidOptionDefs(r.value)
    ensures r.Ok? ==> |r.value| == |defs| + |elems| && forall i :: 0 <= i < |defs| ==> r.value[i] == defs[i]
    decreases |elems|
  {
    if |elems| == 0 then Ok(defs)
    else
      var od :- OptionDefFromElement(elems[0]);
      var defs' :- AddOptionDef(defs, od);
      AppendValidOptionDef(defs, od);
      AddOptionElements(defs', elems[1..])
  }

  /** Each element reads as the definition at its place in `out`, counted from `base`. */
  predicate ReadsInOrder(elems: seq<Element>, out: seq<OptionDef>, base: nat)
    requires base + |elems| <= |out|
  {
    forall i :: 0 <= i < |elems| ==> OptionDefFromElement(elems[i]) == Ok(out[base + i])
  }

  lemma ReadsInOrderCons(elems: seq<Element>, out: seq<OptionDef>, base: nat)
    requires |elems| > 0 && base + |elems| <= |out|
    requires OptionDefFromElement(elems[0]) == Ok(out[base])
    requires ReadsInOrder(elems[1..], out, base + 1)
    ensures ReadsInOrder(elems, out, base)
  {
    forall i | 0 <= i < |elems|
      ensures OptionDefFromElement(elems[i]) == Ok(out[base + i])
    {
      if i > 0 {
        assert elems[i] == elems[1..][i - 1];
      }
    }
  }

  /** A successful reading holds, after the given definitions, the definition
      each element reads as, in element order. */
  lemma {:induction false} AddOptionElementsInOrder(defs: seq<OptionDef>, elems: seq<Element>)
    requires UniqueOptionKeys(defs) && AllValidOptionDefs(defs)
    ensures AddOptionElements(defs, elems).Ok? ==>
      forall i :: 0 <= i < |elems| ==> OptionDefFromElement(elems[i]) == Ok(AddOptionElements(defs, elems).value[|defs| + i])
    decreases |elems|
  {
    var r := AddOptionElements(defs, elems);
    if |elems| > 0 && r.Ok? {
      var od := AddOptionElementsFirst(defs, elems);
      AddOptionElementsInOrder(defs + [od], elems[1..]);
      assert ReadsInOrder(elems[1..], r.value, |defs| + 1);
      assert r.value[|defs|] == (defs + [od])[|defs|];
      ReadsInOrderCons(elems, r.value, |defs|);
      assert ReadsInOrder(elems, r.value, |defs|);
    }
  }

  /** A successful reading reads the first element, adds it, and goes on with the rest. */
  lemma AddOptionElementsFirst(defs: seq<OptionDef>, elems: seq<Element>) returns (od: OptionDef)
    requires UniqueOptionKeys(defs) && AllValidOptionDefs(defs)
    requires |elems| > 0 && AddOptionElements(defs, elems).Ok?
    ensures OptionDefFromElement(elems[0]) == Ok(od)
    ensures UniqueOptionKeys(defs + [od]) && AllValidOptionDefs(defs + [od])
    ensures AddOptionElements(defs, elems) == AddOptionElements(defs + [od], elems[1..])
  {
    od := OptionDefFromElement(elems[0]).value;
    AppendValidOptionDef(defs, od);
  }

  /** The settings of a command element other than its name and options,
      the `-` aliases read after the `_` spellings. */
  function CommandSettings(e: Element, name: string): (r: Result<CommandDef, DefinitionError>)
    ensures r.Ok? ==> r.value == NewCommandDef(name, BooleanSetting(e, "is_default", "is-default"),
                                                BooleanSetting(e, "allow_multiple", "allow-multiple"))
    ensures r.Err? <==> !BooleanAttributeValid(e, "is_default") || !BooleanAttributeValid(e, "allow_multiple")
                        || !BooleanAttributeValid(e, "is-default") || !BooleanAttributeValid(e, "allow-multiple")
    ensures !BooleanAttributeValid(e, "is_default") ==> r == Err(InvalidBoolean("is_default"))
  {
    var isDefault :- GetOptionalBooleanAttribute(e, "is_default", false);
    var allowMultiple :- GetOptionalBooleanAttribute(e, "allow_multiple", false);
    var isDefault' :- GetOptionalBooleanAttribute(e, "is-default", isDefault);
    var allowMultiple' :- GetOptionalBooleanAttribute(e, "allow-multiple", allowMultiple);
    Ok(NewCommandDef(name, isDefault', allowMultiple'))
  }

  /** `new CommandDef(node)`: a trimmed, non-blank name, the settings, and the
      "option" children in order. */
  function CommandDefFromElement(e: Element): (r: Result<CommandDef, DefinitionError>)
    ensures r.Ok? ==> ValidCommandDef(r.value)
  {
    match ElementName(e)
    case None => Err(MissingName("command"))
    case Some(name) =>
      var cd :- CommandSettings(e, name);
      var options :- AddOptionElements([], OptionElements(e.children));
      Ok(cd.(options := options))
  }

  /** How a command element reads: the name attribute is required and the
      settings follow their attributes, the `-` alias winning. */
  lemma CommandElementSettings(e: Element)
    ensures ElementName(e).None? ==> CommandDefFromElement(e) == Err(MissingName("command"))
    ensures ElementName(e).Some? && !BooleanAttributeValid(e, "is_default") ==>
      CommandDefFromElement(e) == Err(InvalidBoolean("is_default"))
    ensures CommandDefFromElement(e).Ok? ==>
      Some(CommandDefFromElement(e).value.name) == ElementName(e)
      && CommandDefFromElement(e).value.isDefault == BooleanSetting(e, "is_default", "is-default")
      && CommandDefFromElement(e).value.allowMultiple == BooleanSetting(e, "allow_multiple", "allow-multiple")
  {
    match ElementName(e)
    case None =>
    case Some(name) =>
      var cd := CommandSettings(e, name);
      if cd.Ok? {
        var read := AddOptionElements([], OptionElements(e.children));
        if read.Ok? {
          assert CommandDefFromElement(e) == Ok(cd.value.(options := read.value));
        } else {
          assert CommandDefFromElement(e) == Err(read.error);
        }
      } else {
        assert CommandDefFromElement(e) == Err(cd.error);
      }
  }

  /** A command's options are what reading its "option" children, in order,
      into an empty collection gives. */
  lemma CommandElementOptions(e: Element)
    ensures CommandDefFromElement(e).Ok? ==>
      AddOptionElements([], OptionElements(e.children)) == Ok(CommandDefFromElement(e).value.options)
  {
    match ElementName(e)
    case None =>
    case Some(name) =>
      var cd := CommandSettings(e, name);
      var read := AddOptionElements([], OptionElements(e.children));
      if cd.Ok? && read.Ok? {
        assert CommandDefFromElement(e) == Ok(cd.value.(options := read.value));
      }
  }
}

=== FILE: commands.dfy ===
/** Parsed commands and the ordered command list of a parse result
    (Args/command.cs, Args/commandCollection.cs). */
module ParsedCommands {
  import opened Results
  import opened Text
  import opened ParsedOptions

  /** A command found in the input with its options in first-use order. */
  datatype ParsedCommand = ParsedCommand(name: string, options: seq<ParsedOption>)

  /** `new Command(name)`: the given name and no options. */
  function NewCommand(name: string): (c: ParsedCommand)
    ensures c.name == name && |c.options| == 0 && !Exists(c.options, name)
  {
    ParsedCommand(name, [])
  }

  /** `AddOption`: delegates to the merging `OptionCollection.Add`, so a repeated
      option name extends the present option instead of adding a second one. */
  function AddOption(c: ParsedCommand, o: ParsedOption): (r: ParsedCommand)
    ensures r.name == c.name && r.options == Add(c.options, o)
    ensures Exists(r.options, o.name)
    ensures DistinctNames(c.options) ==> DistinctNames(r.options) && CountWithName(r.options, o.name) == 1
  {
    var r := ParsedCommand(c.name, Add(c.options, o));
    AddKeepsNamesDistinct(c.options, o);
    assert !Exists(c.options, o.name) ==> r.options[|c.options|] == o;
    assert Exists(c.options, o.name) ==> exists j :: 0 <= j < |c.options| && Named(r.options[j], o.name);
    if DistinctNames(c.options) then DistinctCountAtMostOne(r.options, o.name); r else r
  }

  /** `Command.Value`: the first value of the first option, or "" without options. */
  function CommandValue(c: ParsedCommand): (v: string)
    requires |c.options| > 0 ==> |c.options[0].values| > 0
    ensures |c.options| == 0 ==> v == ""
    ensures |c.options| > 0 ==> v == ValueOr(c.options, c.options[0].name, "")
  {
    if |c.options| > 0 then Value(c.options[0]) else ""
  }

  predicate CommandNamed(c: ParsedCommand, name: string) {
    EqualsIgnoreCase(c.name, name)
  }

  /** The indexer `this[commandName]`: the first case-insensitive match, or null. */
  function LookupCommand(cmds: seq<ParsedCommand>, name: string): (r: Option<ParsedCommand>)
    ensures r.Some? ==> exists i :: 0 <= i < |cmds| && cmds[i] == r.value && CommandNamed(cmds[i], name)
                          && forall j :: 0 <= j < i ==> !CommandNamed(cmds[j], name)
    ensures r.None? <==> forall j :: 0 <= j < |cmds| ==> !CommandNamed(cmds[j], name)
  {
    if |cmds| == 0 then None
    else if CommandNamed(cmds[0], name) then Some(cmds[0])
    else
      var r := LookupCommand(cmds[1..], name);
      assert forall j :: 1 <= j < |cmds| ==> cmds[j] == cmds[1..][j - 1];
      r
  }

  /** `CommandCollection.Exists`, exactly when the indexer finds a command. */
  function CommandExists(cmds: seq<ParsedCommand>, name: string): (b: bool)
    ensures b <==> LookupCommand(cmds, name).Some?
  {
    exists j :: 0 <= j < |cmds| && CommandNamed(cmds[j], name)
  }

  /** The list keeps repeated commands and their order: a second match stays
      behind the first, and the indexer returns the first. */
  lemma RepeatedCommandsKept(cmds: seq<ParsedCommand>, i: nat, j: nat)
    requires i < j < |cmds| && CommandNamed(cmds[i], cmds[j].name)
    requires forall k :: 0 <= k < i ==> !CommandNamed(cmds[k], cmds[j].name)
    ensures LookupCommand(cmds, cmds[j].name) == Some(cmds[i])
  {
    var r := LookupCommand(cmds, cmds[j].name);
    assert r.Some?;
    var m :| 0 <= m < |cmds| && cmds[m] == r.value && CommandNamed(cmds[m], cmds[j].name)
             && forall k :: 0 <= k < m ==> !CommandNamed(cmds[k], cmds[j].name);
    assert m == i;
  }
}

=== FILE: engine.dfy ===
/** One parse pass (`Parser.ParseInner` and its helpers, Args/internal/parser.cs):
    a fold over the words of the text that keeps the open command and the
    option it is filling, and yields the pass's entries in order. */
module Engine {
  import opened Results
  import opened Text
  import opened Tokenizer
  import opened Errors
  import opened ParsedOptions
  import opened ParsedCommands
  import opened Intermediate
  import opened OptionDefs
  import opened CommandDefs
  import opened Grammar

  /** What the open option refers to after `AddOption` merged it into an option
      already present. The source keeps a reference to the new `Option` object,
      which the merge has left outside the command (`AsWritten`); `Reattach`
      refers to the option the values were merged into. */
  datatype MergeMode = AsWritten | Reattach

  /** The option object the open option refers to: the command's option at
      `index`, or an object no longer held by the command. */
  datatype Target = Attached(index: nat) | Detached

  /** `OptionDetails`: the definition, the object written to, and `IsAwaitingFirstValue`. */
  datatype Slot = Slot(def: OptionDef, target: Target, awaiting: bool)

  /** `CommandAndOptionDetails`: the open command, its definition, and the open option. */
  datatype Context = Context(def: CommandDef, cmd: ParsedCommand, slot: Option<Slot>)

  /** The state between two words. The open command is already part of the
      source's result list; here it joins `done` when a new context replaces it.
      `found` holds the keys of `pi.commandsFound`. */
  datatype PassState = PassState(done: seq<Entry>, ctx: Option<Context>, found: set<string>)

  /** What a pass hands back: its entries and the updated set of found commands. */
  datatype PassResult = PassResult(entries: seq<Entry>, found: set<string>)

  function Flush(ctx: Option<Context>): seq<Entry> {
    if ctx.Some? then [AsCommand(ctx.value.cmd)] else []
  }

  /** The source's result list at this point: the closed entries, then the open command. */
  function Entries(st: PassState): seq<Entry> {
    st.done + Flush(st.ctx)
  }

  predicate Awaiting(ctx: Option<Context>) {
    ctx.Some? && ctx.value.slot.Some? && ctx.value.slot.value.awaiting
  }

  /** The value an option introduced by its keyword starts with: a flag resolves
      at once to its default or "true"; any other option holds "" while it awaits a value. */
  function InitialValue(od: OptionDef): string {
    if od.isFlag then od.defaultValue.GetOr("true") else ""
  }

  /** `Values.Clear(); Values.Add(v)` on the open option. */
  function SetSlotValue(cmd: ParsedCommand, t: Target, v: string): (r: ParsedCommand)
    ensures r.name == cmd.name && |r.options| == |cmd.options|
    ensures forall i :: 0 <= i < |cmd.options| ==> r.options[i].name == cmd.options[i].name
    ensures forall i :: 0 <= i < |cmd.options| && t != Attached(i) ==> r.options[i] == cmd.options[i]
    ensures t.Attached? && t.index < |cmd.options| ==> r.options[t.index].values == [v]
  {
    if t.Attached? && t.index < |cmd.options| then
      cmd.(options := cmd.options[t.index := cmd.options[t.index].(values := [v])])
    else cmd
  }

  /** `Values.Add(v)` on the open option. */
  function AppendSlotValue(cmd: ParsedCommand, t: Target, v: string): (r: ParsedCommand)
    ensures r.name == cmd.name && |r.options| == |cmd.options|
    ensures forall i :: 0 <= i < |cmd.options| ==> r.options[i].name == cmd.options[i].name
    ensures forall i :: 0 <= i < |cmd.options| && t != Attached(i) ==> r.options[i] == cmd.options[i]
    ensures t.Attached? && t.index < |cmd.options| ==> r.options[t.index].values == cmd.options[t.index].values + [v]
  {
    if t.Attached? && t.index < |cmd.options| then
      cmd.(options := cmd.options[t.index := cmd.options[t.index].(values := cmd.options[t.index].values + [v])])
    else cmd
  }

  /** The object the open option refers to once `o` has been added to `opts`. */
  function Attach(mode: MergeMode, opts: seq<ParsedOption>, o: ParsedOption): Target {
    match IndexOf(opts, o.name)
    case None => Attached(|opts|)
    case Some(i) => if mode == Reattach then Attached(i) else Detached
  }

  /** `Cmd.AddOption(newOption)` with `newOption` becoming the open option. */
  function OpenOption(mode: MergeMode, c: Context, od: OptionDef, o: ParsedOption, awaiting: bool): Context {
    Context(c.def, AddOption(c.cmd, o), Some(Slot(od, Attach(mode, c.cmd.options, o), awaiting)))
  }

  /** A `##global` entry of the list already holds an option named `word`. */
  predicate GlobalUsed(entries: seq<Entry>, word: string) {
    exists i :: 0 <= i < |entries| && entries[i].cmd.Some? && IsGlobalName(entries[i].cmd.value.name)
                && Exists(entries[i].cmd.value.options, word)
  }

  /** `FindQualifyingGlobalOption`: the first global definition named like the
      word; a non-multiple one already used in a `##global` entry of this pass
      is a duplicate. */
  function FindQualifyingGlobal(globals: seq<OptionDef>, word: string, entries: seq<Entry>): (r: Result<Option<OptionDef>, ParseError>)
    ensures r.Ok? ==> r.value == FindOptionDef(globals, Upper(word))
    ensures r.Err? <==> FindOptionDef(globals, Upper(word)).Some? && !FindOptionDef(globals, Upper(word)).value.allowMultiple
                        && GlobalUsed(entries, word)
    ensures r.Err? ==> r.error == DuplicateOption("", word)
  {
    match FindOptionDef(globals, Upper(word))
    case None => Ok(None)
    case Some(od) =>
      if !od.allowMultiple && GlobalUsed(entries, word) then Err(DuplicateOption("", word))
      else Ok(Some(od))
  }

  /** The open option, awaiting its value, takes its definition's default. */
  function TakeDefault(c: Context, d: string): Context
    requires c.slot.Some?
  {
    c.(cmd := SetSlotValue(c.cmd, c.slot.value.target, d), slot := Some(c.slot.value.(awaiting := false)))
  }

  /** What a global keyword does to the context it replaces: a required option
      still awaiting its value takes its default or fails; anything else is left as it is. */
  function Supersede(ctx: Option<Context>): (r: Result<Option<Context>, ParseError>)
    ensures !Awaiting(ctx) || !ctx.value.slot.value.def.required ==> r == Ok(ctx)
    ensures Awaiting(ctx) && ctx.value.slot.value.def.required ==>
      match ctx.value.slot.value.def.defaultValue
      case Some(d) => r == Ok(Some(TakeDefault(ctx.value, d)))
      case None => r == Err(MissingValue(ctx.value.def.name, ctx.value.slot.value.def.name))
  {
    if Awaiting(ctx) && ctx.value.slot.value.def.required then
      match ctx.value.slot.value.def.defaultValue
      case Some(d) => Ok(Some(TakeDefault(ctx.value, d)))
      case None => Err(MissingValue(ctx.value.def.name, ctx.value.slot.value.def.name))
    else Ok(ctx)
  }

  /** A fresh `##global` pseudo-command holding the one option, which is open. */
  function GlobalContext(od: OptionDef): Context {
    Context(NewCommandDef(GlobalCommandName, false, od.allowMultiple),
            AddOption(NewCommand(GlobalCommandName), NewOption(od.name, InitialValue(od))),
            Some(Slot(od, Attached(0), !od.isFlag)))
  }

  /** `isThisACommandAndNotYetUsedOrAllowsMultiples`: the definition the word names,
      if it was not found yet in this parse or may repeat. */
  function CommandAvailable(g: Grammar, found: set<string>, word: string): (r: Option<CommandDef>)
    ensures r.Some? <==> FindCommandDef(g.commands, Upper(word)).Some?
                         && (Upper(word) !in found || FindCommandDef(g.commands, Upper(word)).value.allowMultiple)
    ensures r.Some? ==> r == FindCommandDef(g.commands, Upper(word)) && CommandKey(r.value) == Upper(word)
  {
    match FindCommandDef(g.commands, Upper(word))
    case None => None
    case Some(cd) => if Upper(word) !in found || cd.allowMultiple then Some(cd) else None
  }

  /** The definition can take a positional word: no option of its name yet, or several values allowed. */
  predicate Unused(opts: seq<ParsedOption>, od: OptionDef) {
    Upper(od.name) !in UsedKeys(opts) || od.allowMultiple
  }

  /** `GetUnusedOptionInCommand`: the first definition that can take a positional word. */
  function GetUnusedOption(defs: seq<OptionDef>, opts: seq<ParsedOption>): (r: Option<OptionDef>)
    ensures r.None? <==> forall i :: 0 <= i < |defs| ==> !Unused(opts, defs[i])
    ensures r.Some? ==> exists i :: 0 <= i < |defs| && defs[i] == r.value && Unused(opts, defs[i])
                          && forall j :: 0 <= j < i ==> !Unused(opts, defs[j])
  {
    if |defs| == 0 then None
    else if Unused(opts, defs[0]) then Some(defs[0])
    else
      var r := GetUnusedOption(defs[1..], opts);
      assert forall j :: 1 <= j < |defs| ==> defs[j] == defs[1..][j - 1];
      r
  }

  /** `GetFirstUnusedCommandWhereIsDefaultIsSet`. */
  function FirstUnusedDefault(cmds: seq<CommandDef>, found: set<string>): (r: Option<CommandDef>)
    ensures r.None? <==> forall i :: 0 <= i < |cmds| ==> !cmds[i].isDefault || CommandKey(cmds[i]) in found
    ensures r.Some? ==> exists i :: 0 <= i < |cmds| && cmds[i] == r.value && r.value.isDefault && CommandKey(r.value) !in found
                          && forall j :: 0 <= j < i ==> !cmds[j].isDefault || CommandKey(cmds[j]) in found
  {
    if |cmds| == 0 then None
    else if cmds[0].isDefault && CommandKey(cmds[0]) !in found then Some(cmds[0])
    else
      var r := FirstUnusedDefault(cmds[1..], found);
      assert forall j :: 1 <= j < |cmds| ==> cmds[j] == cmds[1..][j - 1];
      r
  }

  /** A word while an option is open (lines 292-440). */
  function InSlot(mode: MergeMode, found: set<string>, c: Context, w: Word): Result<Context, ParseError>
    requires c.slot.Some?
  {
    var s := c.slot.value;
    var keyword := FindOptionDef(c.def.options, w.Upper());
    if keyword.Some? && s.def.required && s.awaiting then
      Err(MissingValue(c.def.name, s.def.name))
    else if keyword.Some? && !s.awaiting then
      var kd := keyword.value;
      match IndexOf(c.cmd.options, w.text)
      case None => Ok(OpenOption(mode, c, kd, NewOption(w.text, InitialValue(kd)), !kd.isFlag))
      case Some(i) =>
        if !kd.allowMultiple then Err(DuplicateOption(c.def.name, w.text))
        else if s.def.name == w.text then Ok(c)
        else Ok(c.(slot := Some(Slot(kd, Attached(i), false))))
    else if s.awaiting then
      Ok(c.(cmd := SetSlotValue(c.cmd, s.target, w.text), slot := Some(s.(awaiting := false))))
    else if s.def.allowMultiple then
      Ok(c.(cmd := AppendSlotValue(c.cmd, s.target, w.text)))
    else
      match GetUnusedOption(c.def.options, c.cmd.options)
      case Some(od) => Ok(OpenOption(mode, c, od, NewOption(od.name, w.text), false))
      case None => if w.Upper() in found then Err(DuplicateCommand(w.text)) else Err(InvalidCommand(w.text))
  }

  /** A word before any command (lines 443-490): deferred on the first pass; on
      the second it opens the first unused default command as its first option. */
  function NoContext(g: Grammar, level: nat, st: PassState, w: Word): Result<PassState, ParseError>
    requires st.ctx.None?
  {
    if level > 0 then
      match FirstUnusedDefault(g.commands, st.found)
      case None => Err(InvalidCommand(w.text))
      case Some(cd) =>
        if |cd.options| == 0 then Err(IndexOutOfRange)
        else
          var od := cd.options[0];
          var c := Context(cd, AddOption(NewCommand(cd.name), NewOption(od.name, w.text)), Some(Slot(od, Attached(0), false)));
          Ok(PassState(st.done, Some(c), st.found + {CommandKey(cd)}))
    else
      Ok(st.(done := st.done + [AsUnprocessedText(w.Unprocessed())]))
  }

  /** A word right after a command keyword (lines 491-547): an unquoted option
      keyword opens that option, any other word fills the first unused option,
      and without one the word is dropped. */
  function NoSlot(mode: MergeMode, c: Context, w: Word): Context
    requires c.slot.None?
  {
    var keyword := if w.quoted then None else FindOptionDef(c.def.options, w.Upper());
    match keyword
    case Some(kd) => OpenOption(mode, c, kd, NewOption(w.text, InitialValue(kd)), !kd.isFlag)
    case None =>
      match GetUnusedOption(c.def.options, c.cmd.options)
      case Some(od) => OpenOption(mode, c, od, NewOption(od.name, w.text), false)
      case None => c
  }

  /** The global option an unquoted word names, or the duplicate-use error. */
  function GlobalKeyword(g: Grammar, st: PassState, w: Word): Result<Option<OptionDef>, ParseError> {
    if w.quoted then Ok(None) else FindQualifyingGlobal(g.globals, w.text, Entries(st))
  }

  /** One iteration of the loop of `ParseInner`: a global keyword first, then a
      command keyword unless an option awaits its value, then by context. */
  function Step(mode: MergeMode, g: Grammar, level: nat, st: PassState, w: Word): (r: Result<PassState, ParseError>)
    ensures r.Ok? && st.ctx.Some? ==> r.value.ctx.Some?
    ensures r.Ok? ==> st.found <= r.value.found
  {
    var global :- GlobalKeyword(g, st, w);
    if global.Some? then
      var ctx :- Supersede(st.ctx);
      Ok(PassState(st.done + Flush(ctx), Some(GlobalContext(global.value)), st.found))
    else if !Awaiting(st.ctx) && CommandAvailable(g, st.found, w.text).Some? then
      var cd := CommandAvailable(g, st.found, w.text).value;
      Ok(PassState(Entries(st), Some(Context(cd, NewCommand(cd.name), None)), st.found + {CommandKey(cd)}))
    else
      match st.ctx
      case None => NoContext(g, level, st, w)
      case Some(c) =>
        if c.slot.Some? then
          var c' :- InSlot(mode, st.found, c, w);
          Ok(st.(ctx := Some(c')))
        else Ok(st.(ctx := Some(NoSlot(mode, c, w))))
  }

  /** The loop of `ParseInner` over the remaining words; the first error ends the pass. */
  function Run(mode: MergeMode, g: Grammar, level: nat, st: PassState, words: seq<Word>): (r: Result<PassState, ParseError>)
    ensures r.Ok? && st.ctx.Some? ==> r.value.ctx.Some?
    ensures r.Ok? ==> st.found <= r.value.found
    decreases |words|
  {
    if |words| == 0 then Ok(st)
    else
      var st' :- Step(mode, g, level, st, words[0]);
      Run(mode, g, level, st', words[1..])
  }

  /** The end of the text (lines 552-577): an option still awaiting its value
      takes its default, else the pass fails. */
  function Finish(st: PassState): (r: Result<PassState, ParseError>)
    ensures !Awaiting(st.ctx) ==> r == Ok(st)
    ensures Awaiting(st.ctx) && st.ctx.value.slot.value.def.defaultValue.None? ==>
      r == Err(MissingValue(st.ctx.value.def.name, st.ctx.value.slot.value.def.name))
    ensures r.Ok? ==> !Awaiting(r.value.ctx) && r.value.done == st.done && r.value.found == st.found
  {
    if Awaiting(st.ctx) then
      match st.ctx.value.slot.value.def.defaultValue
      case Some(d) => Ok(st.(ctx := Some(TakeDefault(st.ctx.value, d))))
      case None => Err(MissingValue(st.ctx.value.def.name, st.ctx.value.slot.value.def.name))
    else Ok(st)
  }

  /** `ParseInner`: one pass over the text at the given level, starting from the
      commands found by earlier passes. */
  function ParseInner(mode: MergeMode, g: Grammar, level: nat, text: string, found: set<string>): (r: Result<PassResult, ParseError>)
    ensures r.Ok? ==> found <= r.value.found
  {
    var st :- Run(mode, g, level, PassState([], None, found), Tokenize(text));
    var st' :- Finish(st);
    Ok(PassResult(Entries(st'), st'.found))
  }
}

=== FILE: errors.dfy ===
/** The exceptions `Processor.Parse` can raise, as one datatype (Args/exceptions). */
module Errors {
  import opened Text

  /** Name of the pseudo-command that carries global options while a pass runs. */
  const GlobalCommandName: string := "##global"

  predicate IsGlobalName(name: string) {
    EqualsIgnoreCase(name, GlobalCommandName)
  }

  datatype ParseError =
    | InvalidCommand(commandName: string)
    | DuplicateCommand(commandName: string)
    | DuplicateOption(commandName: string, optionName: string)
    | MissingValue(commandName: string, optionName: string)
      /** `OptionsDefs[0]` on a default command that declares no options. */
    | IndexOutOfRange
  {
    /** The exception's `Message`. */
    function Message(): string {
      match this
      case InvalidCommand(c) => "Invalid command '" + c + "'"
      case DuplicateCommand(c) => "Multiple uses of " + c + " not supported"
      case DuplicateOption(c, o) => DuplicateOptionMessage(c, o)
      case MissingValue(c, o) => MissingValueMessage(c, o)
      case IndexOutOfRange => "Index was out of range."
    }
  }

  /** `DuplicateOptionException`'s message: the command suffix appears exactly
      when a command name is given (global options pass ""). */
  function DuplicateOptionMessage(commandName: string, optionName: string): (m: string)
    ensures commandName == "" <==> m == "Multiple uses of " + optionName + " not supported"
    ensures commandName != "" ==> |commandName| < |m| && m[|m| - |commandName|..] == commandName
  {
    "Multiple uses of " + optionName + " not supported"
    + (if commandName == "" then "" else " for command " + commandName)
  }

  /** `MissingValueException`'s message: the command suffix is left out exactly
      when the command is the global pseudo-command. */
  function MissingValueMessage(commandName: string, optionName: string): (m: string)
    ensures IsGlobalName(commandName) <==> m == "No value specified for option '" + optionName + "'"
    ensures !IsGlobalName(commandName) ==> |commandName| + 1 < |m| && m[|m| - |commandName| - 1..] == commandName + "'"
  {
    "No value specified for option '" + optionName + "'"
    + (if !IsGlobalName(commandName) then " for command '" + commandName + "'" else "")
  }

  /** A global duplicate names no command. */
  lemma DuplicateGlobalOption()
    ensures DuplicateOption("", "--repeat").Message() == "Multiple uses of --repeat not supported"
  {
  }

  /** A missing global value names no command. */
  lemma MissingGlobalValue()
    ensures MissingValue(GlobalCommandName, "--repeat").Message() == "No value specified for option '--repeat'"
  {
    assert IsGlobalName(GlobalCommandName);
  }
}

=== FILE: findings.dfy ===
/** The example text of the finding below, read by the tokenizer. */
module ExampleText {
  import opened Text
  import opened Tokenizer

  const Parts: seq<string> := ["list", "a", "mode", "m", "b", "c"]
  const Input := "list a mode m b c"

  /** The words the tokenizer reads from the example text. */
  const Words: seq<Word> := [Unquoted("list"), Unquoted("a"), Unquoted("mode"), Unquoted("m"), Unquoted("b"), Unquoted("c")]

  /** `ts` holds the example words, stated one by one so that `Tokenize` is
      never applied to a literal text. */
  predicate SixParts(ts: seq<string>) {
    && |ts| == 6
    && ts[0] == "list" && ts[1] == "a" && ts[2] == "mode"
    && ts[3] == "m" && ts[4] == "b" && ts[5] == "c"
  }

  /** The example words joined by single spaces read back as those words. */
  lemma JoinedExample(ts: seq<string>)
    requires SixParts(ts)
    ensures Tokenize(Join(ts, " ")) == Words
  {
    forall i | 0 <= i < |ts|
      ensures IsPlainWord(ts[i])
    {
      assert forall j :: 0 <= j < |ts[i]| ==> 'a' <= ts[i][j] <= 'z';
    }
    JoinedWordsRead(ts);
    assert UnquotedAll(ts) == Words;
  }

  /** The example text is the example words joined by single spaces, with no white space around it. */
  lemma InputParts()
    ensures SixParts(Parts) && Join(Parts, " ") == Input && Trim(Input) == Input
  {
    InputJoined();
    InputTrimmed();
  }

  lemma InputJoined()
    ensures Join(Parts, " ") == Input
  {
  }

  lemma InputTrimmed()
    ensures Trim(Input) == Input
  {
    TrimUnchanged(Input);
  }
}

/** The value lost after a positional word merges into an option already
    present (Args/internal/parser.cs:405-437 with 395-398).

    When no option keyword matches and the open option takes a single value,
    the word goes to the first unused option, and one allowing several values
    always counts as unused. The parser builds a new `Option` for it and keeps
    that object as the open option, while `AddOption` merges its value into the
    option of the same name already held by the command. The open option is now
    an object outside the command, so the values that follow are added to it and
    lost. `MergeMode.AsWritten` models that; `MergeMode.Reattach`, which `Parse`
    uses, keeps the option the value was merged into open. */
module Findings {
  import opened Results
  import opened Text
  import opened Tokenizer
  import opened ParsedOptions
  import opened ParsedCommands
  import opened Intermediate
  import opened OptionDefs
  import opened CommandDefs
  import opened Grammar
  import opened Engine
  import opened PassInvariants
  import opened Passes
  import opened Assembler
  import opened Processor
  import opened Behaviour
  import opened ExampleText

  /** As written, once the open option has been merged away, a further value for it changes nothing. */
  lemma DetachedValueLost(found: set<string>, c: Context, w: Word)
    requires c.slot.Some? && c.slot.value.target == Detached && !c.slot.value.awaiting && c.slot.value.def.allowMultiple
    requires FindOptionDef(c.def.options, w.Upper()).None?
    ensures InSlot(AsWritten, found, c, w) == Ok(c)
  {
  }

  const Files := OptionDef("files", false, None, true, false)
  const Mode := OptionDef("mode", false, None, false, false)
  const ListDef := CommandDef("list", false, false, [Files, Mode])
  const Example := Grammar([ListDef], [])
  const ListFound: set<string> := {Upper("list")}

  function After(cmd: ParsedCommand, slot: Option<Slot>): PassState {
    PassState([], Some(Context(ListDef, cmd, slot)), ListFound)
  }

  /** The keys the example compares differ. */
  lemma DistinctKeys()
    ensures Upper("a") != Upper("list") && Upper("m") != Upper("list") && Upper("b") != Upper("list") && Upper("c") != Upper("list")
    ensures Upper("mode") != Upper("list") && Upper("files") != Upper("mode")
    ensures Upper("a") != Upper("files") && Upper("a") != Upper("mode")
    ensures Upper("m") != Upper("files") && Upper("m") != Upper("mode")
    ensures Upper("b") != Upper("files") && Upper("b") != Upper("mode")
    ensures Upper("c") != Upper("files") && Upper("c") != Upper("mode")
  {
    assert Upper("mode")[0] == 'M' && Upper("list")[0] == 'L';
  }

  /** No global option is defined, so no word is a global keyword. */
  lemma NoGlobals(st: PassState, w: Word)
    ensures GlobalKeyword(Example, st, w) == Ok(None)
  {
  }

  lemma Step1(mode: MergeMode)
    ensures Step(mode, Example, 0, PassState([], None, {}), Unquoted("list")) == Ok(After(NewCommand("list"), None))
  {
    var st := PassState([], None, {});
    NoGlobals(st, Unquoted("list"));
    assert CommandAvailable(Example, {}, "list") == Some(ListDef);
    CommandKeyword(mode, Example, 0, st, Unquoted("list"), ListDef);
    assert Entries(st) == [];
    assert {} + {Upper(Unquoted("list").text)} == ListFound;
  }

  /** A word that names no command of the example. */
  lemma NotACommand(found: set<string>, t: string)
    requires Upper(t) != Upper("list")
    ensures CommandAvailable(Example, found, t).None?
  {
  }

  lemma Step2(mode: MergeMode)
    ensures Step(mode, Example, 0, After(NewCommand("list"), None), Unquoted("a"))
            == Ok(After(ParsedCommand("list", [ParsedOption("files", ["a"])]), Some(Slot(Files, Attached(0), false))))
  {
    var st := After(NewCommand("list"), None);
    var c := st.ctx.value;
    DistinctKeys();
    NoGlobals(st, Unquoted("a"));
    NotACommand(ListFound, "a");
    assert FindOptionDef(ListDef.options, Upper("a")).None?;
    assert GetUnusedOption(ListDef.options, []) == Some(Files);
    assert NoSlot(mode, c, Unquoted("a")) == Context(ListDef, ParsedCommand("list", [ParsedOption("files", ["a"])]), Some(Slot(Files, Attached(0), false)));
  }

  const A := [ParsedOption("files", ["a"])]

  lemma Step3(mode: MergeMode)
    ensures Step(mode, Example, 0, After(ParsedCommand("list", A), Some(Slot(Files, Attached(0), false))), Unquoted("mode"))
            == Ok(After(ParsedCommand("list", A + [ParsedOption("mode", [""])]), Some(Slot(Mode, Attached(1), true))))
  {
    var st := After(ParsedCommand("list", A), Some(Slot(Files, Attached(0), false)));
    var c := st.ctx.value;
    DistinctKeys();
    NoGlobals(st, Unquoted("mode"));
    NotACommand(ListFound, "mode");
    assert FindOptionDef(ListDef.options, Upper("mode")) == Some(Mode);
    assert IndexOf(A, "mode").None? by {
      assert !Named(A[0], "mode");
    }
    assert InSlot(mode, ListFound, c, Unquoted("mode")) == Ok(OpenOption(mode, c, Mode, NewOption("mode", ""), true));
  }

  const AM := A + [ParsedOption("mode", [""])]

  lemma Step4(mode: MergeMode)
    ensures Step(mode, Example, 0, After(ParsedCommand("list", AM), Some(Slot(Mode, Attached(1), true))), Unquoted("m"))
            == Ok(After(ParsedCommand("list", A + [ParsedOption("mode", ["m"])]), Some(Slot(Mode, Attached(1), false))))
  {
    var st := After(ParsedCommand("list", AM), Some(Slot(Mode, Attached(1), true)));
    DistinctKeys();
    NoGlobals(st, Unquoted("m"));
    assert FindOptionDef(ListDef.options, Upper("m")).None?;
    AwaitingTakesWord(mode, Example, 0, st, Unquoted("m"));
    assert SetSlotValue(ParsedCommand("list", AM), Attached(1), "m") == ParsedCommand("list", A + [ParsedOption("mode", ["m"])]);
  }

  const AMm := A + [ParsedOption("mode", ["m"])]
  const ABm := [ParsedOption("files", ["a", "b"]), ParsedOption("mode", ["m"])]

  function MergedTarget(mode: MergeMode): Target {
    if mode == Reattach then Attached(0) else Detached
  }

  lemma Step5(mode: MergeMode)
    ensures Step(mode, Example, 0, After(ParsedCommand("list", AMm), Some(Slot(Mode, Attached(1), false))), Unquoted("b"))
            == Ok(After(ParsedCommand("list", ABm), Some(Slot(Files, MergedTarget(mode), false))))
  {
    var st := After(ParsedCommand("list", AMm), Some(Slot(Mode, Attached(1), false)));
    var c := st.ctx.value;
    DistinctKeys();
    NoGlobals(st, Unquoted("b"));
    NotACommand(ListFound, "b");
    assert FindOptionDef(ListDef.options, Upper("b")).None?;
    assert GetUnusedOption(ListDef.options, AMm) == Some(Files);
    assert IndexOf(AMm, "files") == Some(0);
    assert Add(AMm, NewOption("files", "b")) == ABm by {
      assert AMm[0].values + ["b"] == ["a", "b"];
    }
    assert AddOption(c.cmd, NewOption("files", "b")) == ParsedCommand("list", ABm);
    assert InSlot(mode, ListFound, c, Unquoted("b")) == Ok(OpenOption(mode, c, Files, NewOption("files", "b"), false));
  }

  function FilesFor(mode: MergeMode): seq<string> {
    if mode == Reattach then ["a", "b", "c"] else ["a", "b"]
  }

  function ExampleCommand(mode: MergeMode): ParsedCommand {
    ParsedCommand("list", [ParsedOption("files", FilesFor(mode)), ParsedOption("mode", ["m"])])
  }

  lemma Step6(mode: MergeMode)
    ensures Step(mode, Example, 0, After(ParsedCommand("list", ABm), Some(Slot(Files, MergedTarget(mode), false))), Unquoted("c"))
            == Ok(After(ExampleCommand(mode), Some(Slot(Files, MergedTarget(mode), false))))
  {
    var st := After(ParsedCommand("list", ABm), Some(Slot(Files, MergedTarget(mode), false)));
    var c := st.ctx.value;
    DistinctKeys();
    NoGlobals(st, Unquoted("c"));
    NotACommand(ListFound, "c");
    assert FindOptionDef(ListDef.options, Upper("c")).None?;
    assert InSlot(mode, ListFound, c, Unquoted("c")) == Ok(c.(cmd := AppendSlotValue(c.cmd, MergedTarget(mode), "c")));
    if mode == Reattach {
      assert ABm[0].values + ["c"] == ["a", "b", "c"];
      assert AppendSlotValue(c.cmd, Attached(0), "c") == ExampleCommand(mode);
    } else {
      assert AppendSlotValue(c.cmd, Detached, "c") == ExampleCommand(mode);
    }
  }

  /** A run that begins with a successful step continues from the state it produced. */
  lemma RunStep(mode: MergeMode, st: PassState, w: Word, st': PassState, ws: seq<Word>)
    requires Step(mode, Example, 0, st, w) == Ok(st')
    ensures Run(mode, Example, 0, st, [w] + ws) == Run(mode, Example, 0, st', ws)
  {
    assert ([w] + ws)[0] == w && ([w] + ws)[1..] == ws;
  }

  function Final(mode: MergeMode): PassState {
    After(ExampleCommand(mode), Some(Slot(Files, MergedTarget(mode), false)))
  }

  lemma RunFrom5(mode: MergeMode)
    ensures Run(mode, Example, 0, After(ParsedCommand("list", ABm), Some(Slot(Files, MergedTarget(mode), false))), [Unquoted("c")]) == Ok(Final(mode))
  {
    Step6(mode);
    RunStep(mode, After(ParsedCommand("list", ABm), Some(Slot(Files, MergedTarget(mode), false))), Unquoted("c"), Final(mode), []);
    assert [Unquoted("c")] + [] == [Unquoted("c")];
  }

  lemma RunFrom4(mode: MergeMode)
    ensures Run(mode, Example, 0, After(ParsedCommand("list", AMm), Some(Slot(Mode, Attached(1), false))), [Unquoted("b"), Unquoted("c")]) == Ok(Final(mode))
  {
    Step5(mode);
    RunFrom5(mode);
    RunStep(mode, After(ParsedCommand("list", AMm), Some(Slot(Mode, Attached(1), false))), Unquoted("b"),
            After(ParsedCommand("list", ABm), Some(Slot(Files, MergedTarget(mode), false))), [Unquoted("c")]);
  }

  lemma RunFrom3(mode: MergeMode)
    ensures Run(mode, Example, 0, After(ParsedCommand("list", AM), Some(Slot(Mode, Attached(1), true))), [Unquoted("m"), Unquoted("b"), Unquoted("c")]) == Ok(Final(mode))
  {
    Step4(mode);
    RunFrom4(mode);
    RunStep(mode, After(ParsedCommand("list", AM), Some(Slot(Mode, Attached(1), true))), Unquoted("m"),
            After(ParsedCommand("list", AMm), Some(Slot(Mode, Attached(1), false))), [Unquoted("b"), Unquoted("c")]);
  }

  lemma RunFrom2(mode: MergeMode)
    ensures Run(mode, Example, 0, After(ParsedCommand("list", A), Some(Slot(Files, Attached(0), false))), [Unquoted("mode"), Unquoted("m"), Unquoted("b"), Unquoted("c")]) == Ok(Final(mode))
  {
    Step3(mode);
    RunFrom3(mode);
    RunStep(mode, After(ParsedCommand("list", A), Some(Slot(Files, Attached(0), false))), Unquoted("mode"),
            After(ParsedCommand("list", AM), Some(Slot(Mode, Attached(1), true))), [Unquoted("m"), Unquoted("b"), Unquoted("c")]);
  }

  lemma RunFrom1(mode: MergeMode)
    ensures Run(mode, Example, 0, After(NewCommand("list"), None), [Unquoted("a"), Unquoted("mode"), Unquoted("m"), Unquoted("b"), Unquoted("c")]) == Ok(Final(mode))
  {
    Step2(mode);
    RunFrom2(mode);
    RunStep(mode, After(NewCommand("list"), None), Unquoted("a"),
            After(ParsedCommand("list", A), Some(Slot(Files, Attached(0), false))), [Unquoted("mode"), Unquoted("m"), Unquoted("b"), Unquoted("c")]);
  }

  lemma RunAll(mode: MergeMode)
    ensures Run(mode, Example, 0, PassState([], None, {}), [Unquoted("list"), Unquoted("a"), Unquoted("mode"), Unquoted("m"), Unquoted("b"), Unquoted("c")]) == Ok(Final(mode))
  {
    Step1(mode);
    RunFrom1(mode);
    RunStep(mode, PassState([], None, {}), Unquoted("list"), After(NewCommand("list"), None),
            [Unquoted("a"), Unquoted("mode"), Unquoted("m"), Unquoted("b"), Unquoted("c")]);
  }

  lemma WordsRun(mode: MergeMode, ws: seq<Word>)
    requires ws == Words
    ensures Run(mode, Example, 0, PassState([], None, {}), ws) == Ok(Final(mode))
  {
    RunAll(mode);
  }

  /** A pass over the example's words: "c" reaches the files only in `Reattach` mode. */
  lemma ExamplePass(mode: MergeMode, s: string)
    requires Tokenize(s) == Words
    ensures ParseInner(mode, Example, 0, s, {}) == Ok(PassResult([AsCommand(ExampleCommand(mode))], ListFound))
  {
    WordsRun(mode, Tokenize(s));
    var fin := Final(mode);
    assert Finish(fin) == Ok(fin);
    assert Entries(fin) == [AsCommand(ExampleCommand(mode))];
  }

  lemma ExampleOuter(mode: MergeMode, s: string)
    requires Tokenize(s) == Words
    ensures ParseOuter(mode, Example, s) == Ok(PassResult([AsCommand(ExampleCommand(mode))], ListFound))
  {
    ExamplePass(mode, s);
    var es := [AsCommand(ExampleCommand(mode))];
    assert !AnyUnprocessed(es);
    MergeIdentity(es);
  }

  /** The command already holds both options, none with a default, so assembling adds nothing. */
  lemma ExampleAssemble(mode: MergeMode)
    ensures Assemble(Example, [AsCommand(ExampleCommand(mode))]) == Ok(ParseResult([ExampleCommand(mode)], []))
  {
    var cmd := ExampleCommand(mode);
    var es := [AsCommand(cmd)];
    assert CommandsOf(es) == [cmd];
    assert DefOf(Example, cmd) == ListDef;
    assert !HasDefault(Files) && !HasDefault(Mode);
    assert BackfillOptions(cmd.options, [Mode]) == cmd.options;
    assert BackfillOptions(cmd.options, ListDef.options) == cmd.options;
    assert Backfill(Example, cmd) == cmd;
    assert BackfillAll(Example, [cmd]) == [cmd];
    assert MissingIn(Example, cmd).None?;
    assert CheckRequired(Example, [cmd]) == None;
    SplitWithoutGlobals([cmd]);
  }

  lemma ExampleParse(mode: MergeMode, ts: seq<string>)
    requires SixParts(ts) && Trim(Join(ts, " ")) == Join(ts, " ")
    ensures ParseWith(mode, Example, Some(Join(ts, " "))) == Ok(ParseResult([ExampleCommand(mode)], []))
  {
    var s := Join(ts, " ");
    JoinedExample(ts);
    assert Normalise(Some(s)) == s;
    ExampleOuter(mode, s);
    ExampleAssemble(mode);
  }

  /** As written, `list a mode m b c` keeps `a` and `b` but loses `c`; corrected, all three stay. */
  lemma LostValue()
    ensures ParseWith(AsWritten, Example, Some(Input))
            == Ok(ParseResult([ParsedCommand("list", [ParsedOption("files", ["a", "b"]), ParsedOption("mode", ["m"])])], []))
    ensures Parse(Example, Some(Input))
            == Ok(ParseResult([ParsedCommand("list", [ParsedOption("files", ["a", "b", "c"]), ParsedOption("mode", ["m"])])], []))
  {
    InputParts();
    ExampleParse(AsWritten, Parts);
    ExampleParse(Reattach, Parts);
  }
}

=== FILE: grammar.dfy ===
/** The definitions a processor holds (Args/processor.cs): the command
    definitions and the global option definitions, each a keyed collection. */
module Grammar {
  import opened Results
  import opened Text
  import opened OptionDefs
  import opened CommandDefs

  datatype Grammar = Grammar(commands: seq<CommandDef>, globals: seq<OptionDef>)

  /** `new Processor()`: no definitions. */
  function EmptyGrammar(): (g: Grammar)
    ensures Valid(g)
  {
    Grammar([], [])
  }

  predicate AtMostOneDefault(cmds: seq<CommandDef>) {
    forall i, j :: 0 <= i < |cmds| && 0 <= j < |cmds| && cmds[i].isDefault && cmds[j].isDefault ==> i == j
  }

  predicate AllValidCommandDefs(cmds: seq<CommandDef>) {
    forall i :: 0 <= i < |cmds| ==> ValidCommandDef(cmds[i])
  }

  /** What loading keeps true of each collection on its own. */
  predicate ValidTables(g: Grammar) {
    && UniqueCommandKeys(g.commands)
    && AllValidCommandDefs(g.commands)
    && AtMostOneDefault(g.commands)
    && UniqueOptionKeys(g.globals)
    && AllValidOptionDefs(g.globals)
    && forall i :: 0 <= i < |g.globals| ==> !g.globals[i].required
  }

  /** No global option shares its key with a command. */
  predicate NoClash(g: Grammar) {
    forall i :: 0 <= i < |g.globals| ==> FindCommandDef(g.commands, OptionKey(g.globals[i])).None?
  }

  /** What every successfully loaded set of definitions satisfies. */
  predicate Valid(g: Grammar) {
    ValidTables(g) && NoClash(g)
  }
}

=== FILE: intermediate.dfy ===
/** One entry of the list a parse pass produces (Args/internal/intermediateCommandResult.cs):
    either words the first pass could not place, or a command. */
module Intermediate {
  import opened Results
  import opened ParsedCommands

  datatype Entry = Entry(unprocessedText: Option<string>, cmd: Option<ParsedCommand>) {

    /** Exactly one of the two fields is set. */
    predicate WellFormed() {
      unprocessedText.Some? != cmd.Some?
    }
  }

  /** The default constructor: both fields null. */
  function EmptyEntry(): (e: Entry)
    ensures e.unprocessedText.None? && e.cmd.None? && !e.WellFormed()
  {
    Entry(None, None)
  }

  /** `CreateAsUnProcessedText`: the text, and no command. */
  function AsUnprocessedText(text: string): (e: Entry)
    ensures e.WellFormed() && e.unprocessedText == Some(text) && e.cmd.None?
  {
    EmptyEntry().(unprocessedText := Some(text))
  }

  /** `CreateAsCommand`: the command, and no text. */
  function AsCommand(c: ParsedCommand): (e: Entry)
    ensures e.WellFormed() && e.cmd == Some(c) && e.unprocessedText.None?
  {
    EmptyEntry().(cmd := Some(c))
  }
}

=== FILE: loader.dfy ===
/** Loading definitions from an already-parsed XML document
    (`Processor.LoadDefinitionsFromXML` and `AddCommandDef`, Args/processor.cs). */
module Loader {
  import opened Results
  import opened Text
  import opened XmlNodes
  import opened OptionDefs
  import opened CommandDefs
  import opened Grammar

  predicate IsCommandElement(e: Element) {
    EqualsIgnoreCase(e.name, "command")
  }

  /** `AddCommandDef`: a second default command is refused, then the keyed add. */
  function AddCommandDef(g: Grammar, cd: CommandDef): (r: Result<Grammar, DefinitionError>)
    ensures cd.isDefault && GetDefault(g.commands).Some? ==> r == Err(MultipleDefaults)
    ensures r.Err? && r.error != MultipleDefaults ==> FindCommandDef(g.commands, CommandKey(cd)).Some?
    ensures r.Ok? ==> r.value == g.(commands := g.commands + [cd])
    ensures r.Ok? && ValidTables(g) && ValidCommandDef(cd) ==> ValidTables(r.value)
  {
    if cd.isDefault && GetDefault(g.commands).Some? then Err(MultipleDefaults)
    else
      var commands :- AddKeyed(g.commands, cd);
      var r := g.(commands := commands);
      assert forall i :: 0 <= i < |g.commands| ==> commands[i] == g.commands[i];
      assert cd.isDefault ==> forall i :: 0 <= i < |g.commands| ==> !g.commands[i].isDefault;
      Ok(r)
  }

  /** A global option: refused when required, then the keyed add. */
  function AddGlobalOption(g: Grammar, od: OptionDef): (r: Result<Grammar, DefinitionError>)
    ensures od.required ==> r == Err(RequiredGlobal(od.name))
    ensures r.Err? && !od.required ==> FindOptionDef(g.globals, OptionKey(od)).Some?
    ensures r.Ok? ==> r.value == g.(globals := g.globals + [od])
    ensures r.Ok? && ValidTables(g) && ValidOptionDef(od) ==> ValidTables(r.value)
  {
    if od.required then Err(RequiredGlobal(od.name))
    else
      var globals :- AddOptionDef(g.globals, od);
      AppendValidOptionDef(g.globals, od);
      assert forall i :: 0 <= i < |g.globals| ==> globals[i] == g.globals[i];
      Ok(g.(globals := globals))
  }

  /** The element is a command or an option whose definition can be read. */
  predicate ElementReads(e: Element) {
    if IsCommandElement(e) then CommandDefFromElement(e).Ok?
    else IsOptionElement(e) && OptionDefFromElement(e).Ok?
  }

  /** The command definitions read from the `command` elements, in document order. */
  function CommandsRead(elems: seq<Element>): seq<CommandDef>
    decreases |elems|
  {
    if |elems| == 0 then [] else CommandOf(elems[0]) + CommandsRead(elems[1..])
  }

  /** The global option definitions read from the `option` elements, in document order. */
  function GlobalsRead(elems: seq<Element>): seq<OptionDef>
    decreases |elems|
  {
    if |elems| == 0 then [] else GlobalOf(elems[0]) + GlobalsRead(elems[1..])
  }

  /** One top-level element: a command, a global option, or an error. */
  function LoadElement(g: Grammar, e: Element): (r: Result<Grammar, DefinitionError>)
    ensures !IsCommandElement(e) && !IsOptionElement(e) ==> r == Err(InvalidElement(e.name))
    ensures r.Ok? ==> ElementReads(e)
    ensures IsCommandElement(e) && r.Ok? ==> r.value == g.(commands := g.commands + [CommandDefFromElement(e).value])
    ensures !IsCommandElement(e) && r.Ok? ==> r.value == g.(globals := g.globals + [OptionDefFromElement(e).value])
    ensures r.Ok? && ValidTables(g) ==> ValidTables(r.value)
    ensures r.Ok? ==> |r.value.commands| + |r.value.globals| == |g.commands| + |g.globals| + 1
  {
    if IsCommandElement(e) then
      var cd :- CommandDefFromElement(e);
      AddCommandDef(g, cd)
    else if IsOptionElement(e) then
      var od :- OptionDefFromElement(e);
      AddGlobalOption(g, od)
    else Err(InvalidElement(e.name))
  }

  /** The top-level elements in document order; the first failure ends the load. */
  function LoadElements(g: Grammar, elems: seq<Element>): (r: Result<Grammar, DefinitionError>)
    ensures r.Ok? && ValidTables(g) ==> ValidTables(r.value)
    ensures r.Ok? ==> |r.value.commands| + |r.value.globals| == |g.commands| + |g.globals| + |elems|
    decreases |elems|
  {
    if |elems| == 0 then Ok(g)
    else
      var g' :- LoadElement(g, elems[0]);
      LoadElements(g', elems[1..])
  }

  lemma ConcatAssoc<T>(a: seq<T>, b: seq<T>, c: seq<T>)
    ensures a + b + c == a + (b + c)
  {
  }

  /** The definitions one element contributes to each table. */
  function CommandOf(e: Element): seq<CommandDef> {
    if IsCommandElement(e) && CommandDefFromElement(e).Ok? then [CommandDefFromElement(e).value] else []
  }

  function GlobalOf(e: Element): seq<OptionDef> {
    if !IsCommandElement(e) && IsOptionElement(e) && OptionDefFromElement(e).Ok? then [OptionDefFromElement(e).value] else []
  }

  /** A loaded element adds its own definition to its own table. */
  lemma LoadElementAdds(g: Grammar, e: Element)
    requires LoadElement(g, e).Ok?
    ensures ElementReads(e)
    ensures LoadElement(g, e).value == Grammar(g.commands + CommandOf(e), g.globals + GlobalOf(e))
  {
  }

  /** A successful load reads every element. */
  lemma {:induction false} LoadElementsRead(g: Grammar, elems: seq<Element>)
    ensures LoadElements(g, elems).Ok? ==> forall i :: 0 <= i < |elems| ==> ElementReads(elems[i])
    decreases |elems|
  {
    if |elems| > 0 && LoadElements(g, elems).Ok? {
      var tail := elems[1..];
      var g' := LoadElement(g, elems[0]).value;
      assert LoadElements(g, elems) == LoadElements(g', tail);
      LoadElementAdds(g, elems[0]);
      LoadElementsRead(g', tail);
      assert forall i :: 1 <= i < |elems| ==> elems[i] == tail[i - 1];
    }
  }

  /** A successful load appends the command definitions to the commands and the
      option definitions to the globals, in document order. */
  lemma {:induction false} LoadElementsInOrder(g: Grammar, elems: seq<Element>)
    ensures LoadElements(g, elems).Ok? ==>
      LoadElements(g, elems).value == Grammar(g.commands + CommandsRead(elems), g.globals + GlobalsRead(elems))
    decreases |elems|
  {
    if |elems| > 0 && LoadElements(g, elems).Ok? {
      var e, tail := elems[0], elems[1..];
      var g' := LoadElement(g, e).value;
      assert LoadElements(g, elems) == LoadElements(g', tail);
      LoadElementAdds(g, e);
      LoadElementsInOrder(g', tail);
      var cs, gs := CommandOf(e), GlobalOf(e);
      assert g'.commands == g.commands + cs && g'.globals == g.globals + gs;
      assert CommandsRead(elems) == cs + CommandsRead(tail);
      assert GlobalsRead(elems) == gs + GlobalsRead(tail);
      ConcatAssoc(g.commands, cs, CommandsRead(tail));
      ConcatAssoc(g.globals, gs, GlobalsRead(tail));
    }
  }

  /** The definitions the processor holds once the elements have been loaded: each
      element adds its definition as it is read, so a failure keeps those added
      before the failing element. */
  function Held(g: Grammar, elems: seq<Element>): (h: Grammar)
    ensures LoadElements(g, elems).Ok? ==> h == LoadElements(g, elems).value
    ensures ValidTables(g) ==> ValidTables(h)
    ensures g.commands <= h.commands && g.globals <= h.globals
    decreases |elems|
  {
    if |elems| == 0 then g
    else
      match LoadElement(g, elems[0])
      case Err(_) => g
      case Ok(g') => Held(g', elems[1..])
  }

  /** Loading a list whose first element loads is loading the rest after it. */
  lemma LoadElementsCons(g: Grammar, elems: seq<Element>)
    requires |elems| > 0 && LoadElement(g, elems[0]).Ok?
    ensures LoadElements(g, elems) == LoadElements(LoadElement(g, elems[0]).value, elems[1..])
    ensures Held(g, elems) == Held(LoadElement(g, elems[0]).value, elems[1..])
  {
  }

  /** A list whose first element fails fails with that element's error, holding nothing new. */
  lemma LoadElementsFirstFails(g: Grammar, elems: seq<Element>)
    requires |elems| > 0 && LoadElement(g, elems[0]).Err?
    ensures LoadElements(g, elems) == Err(LoadElement(g, elems[0]).error)
    ensures Held(g, elems) == g
    ensures LoadElements(g, elems[..0]) == Ok(g)
  {
    assert elems[..0] == [];
  }

  /** The position of the first element that fails to load, or the length when none does. */
  function FailAt(g: Grammar, elems: seq<Element>): (k: nat)
    ensures k <= |elems|
    decreases |elems|
  {
    if |elems| == 0 then 0
    else
      match LoadElement(g, elems[0])
      case Err(_) => 0
      case Ok(g') => 1 + FailAt(g', elems[1..])
  }

  /** After a failed load the processor holds what the elements before the failing
      one added, and the error is that element's. */
  lemma {:induction false} HeldStopsAtFailure(g: Grammar, elems: seq<Element>)
    requires LoadElements(g, elems).Err?
    ensures FailAt(g, elems) < |elems|
    ensures LoadElements(g, elems[..FailAt(g, elems)]) == Ok(Held(g, elems))
    ensures LoadElement(Held(g, elems), elems[FailAt(g, elems)]) == Err(LoadElements(g, elems).error)
    decreases |elems|
  {
    var e, tail := elems[0], elems[1..];
    if LoadElement(g, e).Err? {
      LoadElementsFirstFails(g, elems);
    } else {
      var g' := LoadElement(g, e).value;
      LoadElementsCons(g, elems);
      HeldStopsAtFailure(g', tail);
      var k := FailAt(g', tail);
      assert FailAt(g, elems) == k + 1;
      LoadElementsPrefixCons(g, elems, k);
      assert elems[k + 1] == tail[k];
    }
  }

  /** Loading the first k + 1 elements is loading the first one, then k more. */
  lemma LoadElementsPrefixCons(g: Grammar, elems: seq<Element>, k: nat)
    requires k < |elems| && LoadElement(g, elems[0]).Ok?
    ensures LoadElements(g, elems[..k + 1]) == LoadElements(LoadElement(g, elems[0]).value, elems[1..][..k])
  {
    var pre := elems[..k + 1];
    assert pre[0] == elems[0] && pre[1..] == elems[1..][..k];
    LoadElementsCons(g, pre);
  }

  /** A lone root element that is neither a command nor an option and has
      children is a wrapper: its children are read instead. */
  predicate IsWrapper(e: Element) {
    |e.children| > 0 && !IsCommandElement(e) && !IsOptionElement(e)
  }

  function TopLevelElements(doc: seq<Element>): seq<Element> {
    if |doc| == 1 && IsWrapper(doc[0]) then doc[0].children else doc
  }

  /** The final check: the first global option whose key names a command is refused. */
  function CheckNoClash(g: Grammar, k: nat): (r: Result<Grammar, DefinitionError>)
    requires k <= |g.globals|
    requires forall i :: 0 <= i < k ==> FindCommandDef(g.commands, OptionKey(g.globals[i])).None?
    ensures r.Ok? <==> NoClash(g)
    ensures r.Ok? ==> r.value == g
    ensures r.Err? ==> exists i :: k <= i < |g.globals| && r.error == GlobalNamedLikeCommand(g.globals[i].name)
                                   && FindCommandDef(g.commands, OptionKey(g.globals[i])).Some?
                                   && forall m :: 0 <= m < i ==> FindCommandDef(g.commands, OptionKey(g.globals[m])).None?
    decreases |g.globals| - k
  {
    if k == |g.globals| then Ok(g)
    else if FindCommandDef(g.commands, OptionKey(g.globals[k])).Some? then Err(GlobalNamedLikeCommand(g.globals[k].name))
    else CheckNoClash(g, k + 1)
  }

  /** `LoadDefinitionsFromXML` on an already-parsed document, adding to the
      definitions already held. */
  function LoadDefinitions(g: Grammar, doc: seq<Element>): (r: Result<Grammar, DefinitionError>)
    ensures r.Ok? ==> NoClash(r.value)
    ensures r.Ok? && ValidTables(g) ==> Valid(r.value)
    ensures r.Ok? ==> r.value == Grammar(g.commands + CommandsRead(TopLevelElements(doc)), g.globals + GlobalsRead(TopLevelElements(doc)))
    ensures LoadElements(g, TopLevelElements(doc)).Err? ==> r == Err(LoadElements(g, TopLevelElements(doc)).error)
    ensures LoadElements(g, TopLevelElements(doc)).Ok? ==> (r.Ok? <==> NoClash(LoadElements(g, TopLevelElements(doc)).value))
    ensures LoadElements(g, TopLevelElements(doc)).Ok? && r.Err? ==>
              var h := LoadElements(g, TopLevelElements(doc)).value;
              exists i :: 0 <= i < |h.globals| && r.error == GlobalNamedLikeCommand(h.globals[i].name)
                          && FindCommandDef(h.commands, OptionKey(h.globals[i])).Some?
                          && forall m :: 0 <= m < i ==> FindCommandDef(h.commands, OptionKey(h.globals[m])).None?
  {
    LoadElementsInOrder(g, TopLevelElements(doc));
    var g' :- LoadElements(g, TopLevelElements(doc));
    CheckNoClash(g', 0)
  }

  /** The definitions the processor holds after `LoadDefinitionsFromXML`, whether it
      succeeded or not: a failing element keeps those added before it, and a clash
      keeps them all, since the clash check runs after every element was added. */
  function HeldAfterLoad(g: Grammar, doc: seq<Element>): (h: Grammar)
    ensures LoadDefinitions(g, doc).Ok? ==> h == LoadDefinitions(g, doc).value
    ensures LoadElements(g, TopLevelElements(doc)).Ok? ==> h == LoadElements(g, TopLevelElements(doc)).value
    ensures ValidTables(g) ==> ValidTables(h)
    ensures g.commands <= h.commands && g.globals <= h.globals
  {
    Held(g, TopLevelElements(doc))
  }

  /** A wrapping root element is transparent: the document loads as its children
      would, unless those children are themselves a lone wrapper. */
  lemma WrapperTransparent(g: Grammar, root: Element)
    requires IsWrapper(root)
    requires !(|root.children| == 1 && IsWrapper(root.children[0]))
    ensures LoadDefinitions(g, [root]) == LoadDefinitions(g, root.children)
  {
    assert TopLevelElements([root]) == root.children == TopLevelElements(root.children);
  }
}

=== FILE: optiondefs.dfy ===
/** Option definitions and their keyed collection (Args/internal/optionDef.cs).
    A collection is keyed by the upper-cased name and refuses a second item with the same key. */
module OptionDefs {
  import opened Results
  import opened Text
  import opened XmlNodes
  import opened Assist

  datatype OptionDef = OptionDef(
    name: string,
    required: bool,
    defaultValue: Option<string>,
    allowMultiple: bool,
    isFlag: bool)

  /** `GetKeyForItem`. */
  function OptionKey(od: OptionDef): string {
    Upper(od.name)
  }

  /** A name as the loader leaves it: non-empty and trimmed. */
  predicate WellNamed(name: string) {
    |name| > 0 && !IsWhiteSpace(name[0]) && !IsWhiteSpace(name[|name| - 1])
  }

  /** What every loaded option definition satisfies. */
  predicate ValidOptionDef(od: OptionDef) {
    WellNamed(od.name) && !(od.isFlag && od.allowMultiple)
  }

  predicate AllValidOptionDefs(defs: seq<OptionDef>) {
    forall i :: 0 <= i < |defs| ==> ValidOptionDef(defs[i])
  }

  lemma AppendValidOptionDef(defs: seq<OptionDef>, od: OptionDef)
    ensures AllValidOptionDefs(defs) && ValidOptionDef(od) ==> AllValidOptionDefs(defs + [od])
  {
    assert forall i :: 0 <= i < |defs| ==> (defs + [od])[i] == defs[i];
  }

  predicate UniqueOptionKeys(defs: seq<OptionDef>) {
    forall i, j :: 0 <= i < j < |defs| ==> OptionKey(defs[i]) != OptionKey(defs[j])
  }

  /** `Contains(key)` and the indexer `this[key]`: the first definition with that key. */
  function FindOptionDef(defs: seq<OptionDef>, key: string): (r: Option<OptionDef>)
    ensures r.None? <==> forall i :: 0 <= i < |defs| ==> OptionKey(defs[i]) != key
    ensures r.Some? ==> exists i :: 0 <= i < |defs| && defs[i] == r.value && OptionKey(defs[i]) == key
                          && forall j :: 0 <= j < i ==> OptionKey(defs[j]) != key
  {
    if |defs| == 0 then None
    else if OptionKey(defs[0]) == key then Some(defs[0])
    else
      var r := FindOptionDef(defs[1..], key);
      assert forall j :: 1 <= j < |defs| ==> defs[j] == defs[1..][j - 1];
      r
  }

  /** With unique keys the definition found is the only one with that key. */
  lemma FindUniqueOptionDef(defs: seq<OptionDef>, i: nat)
    requires UniqueOptionKeys(defs) && i < |defs|
    ensures FindOptionDef(defs, OptionKey(defs[i])) == Some(defs[i])
  {
    var r := FindOptionDef(defs, OptionKey(defs[i]));
    var m :| 0 <= m < |defs| && defs[m] == r.value && OptionKey(defs[m]) == OptionKey(defs[i]);
    assert m == i;
  }

  /** `KeyedCollection.Add`: appends, or refuses an item whose key is present. */
  function AddOptionDef(defs: seq<OptionDef>, od: OptionDef): (r: Result<seq<OptionDef>, DefinitionError>)
    ensures r.Err? <==> exists i :: 0 <= i < |defs| && OptionKey(defs[i]) == OptionKey(od)
    ensures r.Err? ==> r.error == DuplicateKey(OptionKey(od))
    ensures r.Ok? ==> r.value == defs + [od]
    ensures r.Ok? && UniqueOptionKeys(defs) ==> UniqueOptionKeys(r.value)
  {
    if FindOptionDef(defs, OptionKey(od)).Some? then Err(DuplicateKey(OptionKey(od)))
    else Ok(defs + [od])
  }

  /** The value of a boolean setting spelled `primary` with the alias `alias`:
      the alias wins when present, and an absent setting is false. */
  predicate BooleanSetting(e: Element, primary: string, alias: string) {
    if alias in e.attributes then IsTrueWord(e.attributes[alias])
    else primary in e.attributes && IsTrueWord(e.attributes[primary])
  }

  /** The value of a text setting spelled `primary` with the alias `alias`:
      the alias wins when present, and an absent setting is null. */
  function StringSetting(e: Element, primary: string, alias: string): Option<string> {
    if alias in e.attributes then Some(e.attributes[alias])
    else if primary in e.attributes then Some(e.attributes[primary])
    else None
  }

  /** The name attribute, trimmed, when it is present and not blank. */
  function ElementName(e: Element): (r: Option<string>)
    ensures r.Some? ==> WellNamed(r.value) && "name" in e.attributes && r.value == Trim(e.attributes["name"])
    ensures r.None? <==> "name" !in e.attributes || Trim(e.attributes["name"]) == ""
  {
    match Attribute(e, "name")
    case None => None
    case Some(raw) => TrimFacts(raw); if Trim(raw) == "" then None else Some(Trim(raw))
  }

  /** The settings of an option element other than its name, the `-` aliases
      read after the `_` spellings; the first malformed boolean is reported. */
  function OptionSettings(e: Element, name: string): (r: Result<OptionDef, DefinitionError>)
    ensures r.Ok? ==> r.value.name == name
    ensures r.Ok? ==> r.value.required == BooleanSetting(e, "required", "required")
    ensures r.Ok? ==> r.value.allowMultiple == BooleanSetting(e, "allow_multiple", "allow-multiple")
    ensures r.Ok? ==> r.value.isFlag == BooleanSetting(e, "is_flag", "is-flag")
    ensures r.Ok? ==> r.value.defaultValue == StringSetting(e, "default_value", "default-value")
    ensures r.Err? <==> !SettingsValid(e)
    ensures !BooleanAttributeValid(e, "required") ==> r == Err(InvalidBoolean("required"))
    ensures r.Err? ==> r.error.InvalidBoolean? && !BooleanAttributeValid(e, r.error.attribute)
  {
    var required :- GetOptionalBooleanAttribute(e, "required", false);
    var allowMultiple :- GetOptionalBooleanAttribute(e, "allow_multiple", false);
    var defaultValue := GetOptionalStringAttribute(e, "default_value", None);
    var isFlag :- GetOptionalBooleanAttribute(e, "is_flag", false);
    var allowMultiple' :- GetOptionalBooleanAttribute(e, "allow-multiple", allowMultiple);
    var defaultValue' := GetOptionalStringAttribute(e, "default-value", defaultValue);
    var isFlag' :- GetOptionalBooleanAttribute(e, "is-flag", isFlag);
    Ok(OptionDef(name, required, defaultValue', allowMultiple', isFlag'))
  }

  /** Every boolean attribute an option element may carry is well spelled. */
  predicate SettingsValid(e: Element) {
    BooleanAttributeValid(e, "required") && BooleanAttributeValid(e, "allow_multiple")
    && BooleanAttributeValid(e, "is_flag") && BooleanAttributeValid(e, "allow-multiple")
    && BooleanAttributeValid(e, "is-flag")
  }

  /** `new OptionDef(node)`: a trimmed, non-blank name, the settings, and a flag
      may not take several values. */
  function OptionDefFromElement(e: Element): (r: Result<OptionDef, DefinitionError>)
    ensures r.Ok? ==> ValidOptionDef(r.value)
  {
    match ElementName(e)
    case None => Err(MissingName("option"))
    case Some(name) =>
      var od :- OptionSettings(e, name);
      if od.isFlag && od.allowMultiple then Err(FlagWithMultiple(name))
      else Ok(od)
  }

  /** How an option element reads: the name attribute is required, the settings
      follow their attributes, and a well-spelled element fails exactly when it
      is a flag that takes several values. */
  lemma OptionElementReading(e: Element)
    ensures ElementName(e).None? ==> OptionDefFromElement(e) == Err(MissingName("option"))
    ensures OptionDefFromElement(e).Ok? ==>
      Some(OptionDefFromElement(e).value.name) == ElementName(e)
      && OptionSettings(e, OptionDefFromElement(e).value.name) == OptionDefFromElement(e)
    ensures ElementName(e).Some? && SettingsValid(e) ==>
      (OptionDefFromElement(e).Err? <==>
         BooleanSetting(e, "is_flag", "is-flag") && BooleanSetting(e, "allow_multiple", "allow-multiple"))
    ensures ElementName(e).Some? && !SettingsValid(e) ==>
      OptionDefFromElement(e).Err? && OptionDefFromElement(e).error.InvalidBoolean?
  {
  }
}

=== FILE: options.dfy ===
/** Parsed options and the option list of a command or of the global options
    (Args/option.cs, Args/optionCollection.cs). Names compare case-insensitively. */
module ParsedOptions {
  import opened Results
  import opened Text

  /** An option found in the input with its values in encounter order. */
  datatype ParsedOption = ParsedOption(name: string, values: seq<string>)

  /** `new Option(name, value)`: the name verbatim and exactly one value. */
  function NewOption(name: string, value: string): (o: ParsedOption)
    ensures o.name == name && |o.values| == 1 && Value(o) == value
  {
    ParsedOption(name, [value])
  }

  /** `Option.Value`: the first value. */
  function Value(o: ParsedOption): string
    requires |o.values| > 0
  {
    o.values[0]
  }

  predicate Named(o: ParsedOption, name: string) {
    EqualsIgnoreCase(o.name, name)
  }

  function IndexFrom(opts: seq<ParsedOption>, name: string, k: nat): (r: Option<nat>)
    requires k <= |opts|
    ensures r.Some? ==> k <= r.value < |opts| && Named(opts[r.value], name)
    ensures r.Some? ==> forall j :: k <= j < r.value ==> !Named(opts[j], name)
    ensures r.None? ==> forall j :: k <= j < |opts| ==> !Named(opts[j], name)
    decreases |opts| - k
  {
    if k == |opts| then None
    else if Named(opts[k], name) then Some(k)
    else IndexFrom(opts, name, k + 1)
  }

  /** Position of the first option with the given name. */
  function IndexOf(opts: seq<ParsedOption>, name: string): (r: Option<nat>)
    ensures r.Some? ==> r.value < |opts| && Named(opts[r.value], name)
    ensures r.Some? ==> forall j :: 0 <= j < r.value ==> !Named(opts[j], name)
    ensures r.None? ==> forall j :: 0 <= j < |opts| ==> !Named(opts[j], name)
  {
    IndexFrom(opts, name, 0)
  }

  /** The indexer `this[optionName]`: the first case-insensitive match, or null. */
  function Lookup(opts: seq<ParsedOption>, name: string): (r: Option<ParsedOption>)
    ensures r.Some? ==> r.value in opts && Named(r.value, name)
    ensures r.Some? ==> exists i :: 0 <= i < |opts| && opts[i] == r.value && forall j :: 0 <= j < i ==> !Named(opts[j], name)
    ensures r.None? <==> forall j :: 0 <= j < |opts| ==> !Named(opts[j], name)
  {
    match IndexOf(opts, name)
    case Some(i) => Some(opts[i])
    case None => None
  }

  /** `Exists`: some option has the name, exactly when the indexer finds one. */
  function Exists(opts: seq<ParsedOption>, name: string): (b: bool)
    ensures b <==> exists j :: 0 <= j < |opts| && Named(opts[j], name)
    ensures b <==> Lookup(opts, name).Some?
  {
    if |opts| == 0 then false
    else Named(opts[0], name) || (assert forall j :: 1 <= j < |opts| ==> opts[j] == opts[1..][j - 1]; Exists(opts[1..], name))
  }

  /** `CountWithName`: how many options carry the name. */
  function CountWithName(opts: seq<ParsedOption>, name: string): (n: nat)
    ensures n <= |opts|
    ensures n == 0 <==> !Exists(opts, name)
  {
    if |opts| == 0 then 0
    else
      assert forall j :: 1 <= j < |opts| ==> opts[j] == opts[1..][j - 1];
      (if Named(opts[0], name) then 1 else 0) + CountWithName(opts[1..], name)
  }

  /** The upper-cased names present, the set `CountWithName` tests against. */
  function UsedKeys(opts: seq<ParsedOption>): set<string> {
    set i | 0 <= i < |opts| :: Upper(opts[i].name)
  }

  /** A name's key is among the used keys exactly when `CountWithName` is positive. */
  lemma UsedKeysCount(opts: seq<ParsedOption>, name: string)
    ensures Upper(name) in UsedKeys(opts) <==> CountWithName(opts, name) > 0
  {
    if Upper(name) in UsedKeys(opts) {
      var i :| 0 <= i < |opts| && Upper(opts[i].name) == Upper(name);
      assert Named(opts[i], name);
    }
    if CountWithName(opts, name) > 0 {
      var j :| 0 <= j < |opts| && Named(opts[j], name);
      assert Upper(opts[j].name) in UsedKeys(opts);
    }
  }

  lemma UsedKeysCons(opts: seq<ParsedOption>)
    requires |opts| > 0
    ensures UsedKeys(opts) == {Upper(opts[0].name)} + UsedKeys(opts[1..])
  {
    forall k | k in UsedKeys(opts)
      ensures k in {Upper(opts[0].name)} + UsedKeys(opts[1..])
    {
      var i :| 0 <= i < |opts| && Upper(opts[i].name) == k;
      if i > 0 {
        assert opts[1..][i - 1] == opts[i];
      }
    }
    forall k | k in UsedKeys(opts[1..])
      ensures k in UsedKeys(opts)
    {
      var i :| 0 <= i < |opts[1..]| && Upper(opts[1..][i].name) == k;
      assert opts[i + 1] == opts[1..][i];
    }
  }

  /** Options that start with the same options use at least their keys. */
  lemma UsedKeysPrefix(opts: seq<ParsedOption>, longer: seq<ParsedOption>)
    requires |opts| <= |longer| && longer[..|opts|] == opts
    ensures UsedKeys(opts) <= UsedKeys(longer)
  {
    forall k | k in UsedKeys(opts)
      ensures k in UsedKeys(longer)
    {
      var i :| 0 <= i < |opts| && Upper(opts[i].name) == k;
      assert longer[i] == longer[..|opts|][i];
    }
  }

  /** `Value(name, default)`: the first value of the match, else the default. */
  function ValueOr(opts: seq<ParsedOption>, name: string, fallback: string): (v: string)
    requires Lookup(opts, name).Some? ==> |Lookup(opts, name).value.values| > 0
    ensures Exists(opts, name) ==> v == Lookup(opts, name).value.values[0]
    ensures !Exists(opts, name) ==> v == fallback
  {
    match Lookup(opts, name)
    case Some(o) => Value(o)
    case None => fallback
  }

  /** `Values(name, defaults)`: the values of the match, else the defaults in order. */
  function ValuesOr(opts: seq<ParsedOption>, name: string, fallback: seq<string>): (vs: seq<string>)
    ensures Exists(opts, name) ==> vs == Lookup(opts, name).value.values
    ensures !Exists(opts, name) ==> vs == fallback
  {
    match Lookup(opts, name)
    case Some(o) => o.values
    case None => fallback
  }

  /** The merging `Add`: an option whose name is already present has its values
      appended to the present one; a new name is appended at the end. */
  function Add(opts: seq<ParsedOption>, o: ParsedOption): (r: seq<ParsedOption>)
    ensures Exists(opts, o.name) ==> |r| == |opts|
    ensures !Exists(opts, o.name) ==> r == opts + [o]
    ensures forall j :: 0 <= j < |opts| ==> r[j].name == opts[j].name
    ensures forall j :: 0 <= j < |opts| && !Named(opts[j], o.name) ==> r[j] == opts[j]
    ensures forall j :: 0 <= j < |opts| && Named(opts[j], o.name) ==>
      r[j].values == opts[j].values + (if IndexOf(opts, o.name) == Some(j) then o.values else [])
  {
    match IndexOf(opts, o.name)
    case Some(i) => opts[i := opts[i].(values := opts[i].values + o.values)]
    case None => opts + [o]
  }

  /** No two options share a name, ignoring case. */
  predicate DistinctNames(opts: seq<ParsedOption>) {
    forall i, j :: 0 <= i < j < |opts| ==> !EqualsIgnoreCase(opts[i].name, opts[j].name)
  }

  /** Every option carries at least one value. */
  predicate AllHaveValues(opts: seq<ParsedOption>) {
    forall i :: 0 <= i < |opts| ==> |opts[i].values| > 0
  }

  /** `Add` uses exactly one key more: the added option's, present or not before. */
  lemma AddUsedKeys(opts: seq<ParsedOption>, o: ParsedOption)
    ensures UsedKeys(Add(opts, o)) == UsedKeys(opts) + {Upper(o.name)}
  {
    var r := Add(opts, o);
    match IndexOf(opts, o.name)
    case Some(i) =>
      SameNamesSameKeys(opts, r);
      assert Upper(opts[i].name) == Upper(o.name);
    case None =>
      AppendUsedKeys(opts, o);
  }

  /** Options with the same names, in the same places, use the same keys. */
  lemma SameNamesSameKeys(opts: seq<ParsedOption>, r: seq<ParsedOption>)
    requires |r| == |opts| && forall j :: 0 <= j < |opts| ==> r[j].name == opts[j].name
    ensures UsedKeys(r) == UsedKeys(opts)
  {
    forall k | k in UsedKeys(r)
      ensures k in UsedKeys(opts)
    {
      var i :| 0 <= i < |r| && Upper(r[i].name) == k;
      assert Upper(opts[i].name) == k;
    }
  }

  /** Appending an option adds its key. */
  lemma AppendUsedKeys(opts: seq<ParsedOption>, o: ParsedOption)
    ensures UsedKeys(opts + [o]) == UsedKeys(opts) + {Upper(o.name)}
  {
    var r := opts + [o];
    forall k | k in UsedKeys(r)
      ensures k in UsedKeys(opts) + {Upper(o.name)}
    {
      var i :| 0 <= i < |r| && Upper(r[i].name) == k;
      if i < |opts| {
        assert Upper(opts[i].name) == k;
      }
    }
    forall k | k in UsedKeys(opts)
      ensures k in UsedKeys(r)
    {
      var i :| 0 <= i < |opts| && Upper(opts[i].name) == k;
      assert Upper(r[i].name) == k;
    }
    assert Upper(r[|opts|].name) == Upper(o.name);
  }

  /** `Add` keeps the names of a collection pairwise distinct. */
  lemma AddKeepsNamesDistinct(opts: seq<ParsedOption>, o: ParsedOption)
    ensures DistinctNames(opts) ==> DistinctNames(Add(opts, o))
  {
  }

  /** `Add` never leaves an option without values. */
  lemma AddKeepsValues(opts: seq<ParsedOption>, o: ParsedOption)
    ensures AllHaveValues(opts) && |o.values| > 0 ==> AllHaveValues(Add(opts, o))
  {
  }

  /** With distinct names, `CountWithName` is 0 or 1. */
  lemma {:induction false} DistinctCountAtMostOne(opts: seq<ParsedOption>, name: string)
    requires DistinctNames(opts)
    ensures CountWithName(opts, name) <= 1
  {
    if |opts| > 0 {
      DistinctCountAtMostOne(opts[1..], name);
      if Named(opts[0], name) {
        assert forall j :: 1 <= j < |opts| ==> opts[j] == opts[1..][j - 1];
        assert !Exists(opts[1..], name);
      }
    }
  }

  /** An option list built by `Add` alone, starting empty, has distinct names. */
  function AddAll(opts: seq<ParsedOption>, more: seq<ParsedOption>): (r: seq<ParsedOption>)
    requires DistinctNames(opts)
    ensures DistinctNames(r)
    ensures AllHaveValues(opts) && AllHaveValues(more) ==> AllHaveValues(r)
    decreases |more|
  {
    if |more| == 0 then opts
    else
      AddKeepsNamesDistinct(opts, more[0]);
      AddKeepsValues(opts, more[0]);
      AddAll(Add(opts, more[0]), more[1..])
  }

  /** Adding two lists one after the other is adding their concatenation. */
  lemma {:induction false} AddAllAppend(opts: seq<ParsedOption>, a: seq<ParsedOption>, b: seq<ParsedOption>)
    requires DistinctNames(opts)
    ensures AddAll(AddAll(opts, a), b) == AddAll(opts, a + b)
    decreases |a|
  {
    if |a| > 0 {
      var ab := a + b;
      assert ab[0] == a[0] && ab[1..] == a[1..] + b;
      AddKeepsNamesDistinct(opts, a[0]);
      var first := Add(opts, a[0]);
      assert AddAll(opts, a) == AddAll(first, a[1..]);
      assert AddAll(opts, ab) == AddAll(first, a[1..] + b);
      AddAllAppend(first, a[1..], b);
    } else {
      assert a + b == b;
    }
  }
}

=== FILE: passes.dfy ===
/** `Parser.ParseOuter` (Args/internal/parser.cs:143-210): one pass, the merge
    of neighbouring deferred texts, and, on the first level only, a second-level
    pass over each merged text, with the commands found so far carried along. */
module Passes {
  import opened Results
  import opened Text
  import opened Tokenizer
  import opened Errors
  import opened ParsedCommands
  import opened Intermediate
  import opened Grammar
  import opened Engine
  import opened PassInvariants

  predicate IsText(e: Entry) {
    e.unprocessedText.Some?
  }

  /** Each run of neighbouring text entries becomes one entry whose text is the
      run's texts separated by a space; every other entry is kept as it is.
      The source folds from the left, appending to the run's first entry; joining
      the same run from the right yields the same text. */
  function MergeUnprocessed(es: seq<Entry>): (r: seq<Entry>)
    ensures |r| <= |es|
    decreases |es|
  {
    if |es| == 0 then []
    else
      var rest := MergeUnprocessed(es[1..]);
      if IsText(es[0]) && |rest| > 0 && IsText(rest[0]) then
        [es[0].(unprocessedText := Some(es[0].unprocessedText.value + " " + rest[0].unprocessedText.value))] + rest[1..]
      else [es[0]] + rest
  }

  /** The commands of the entries, in order. */
  function CommandsOf(es: seq<Entry>): (r: seq<ParsedCommand>)
    decreases |es|
  {
    if |es| == 0 then []
    else if es[0].cmd.Some? then [es[0].cmd.value] + CommandsOf(es[1..])
    else CommandsOf(es[1..])
  }

  /** The texts of the entries, in order. */
  function TextsOf(es: seq<Entry>): (r: seq<string>)
    decreases |es|
  {
    if |es| == 0 then []
    else if IsText(es[0]) then [es[0].unprocessedText.value] + TextsOf(es[1..])
    else TextsOf(es[1..])
  }

  predicate NoAdjacentTexts(es: seq<Entry>) {
    forall i :: 0 <= i < |es| - 1 ==> !(IsText(es[i]) && IsText(es[i + 1]))
  }

  predicate AllWellFormed(es: seq<Entry>) {
    forall i :: 0 <= i < |es| ==> es[i].WellFormed()
  }

  /** The merge keeps every command in order and leaves no two texts side by side. */
  lemma {:induction false} MergeKeepsCommands(es: seq<Entry>)
    requires AllWellFormed(es)
    ensures AllWellFormed(MergeUnprocessed(es))
    ensures CommandsOf(MergeUnprocessed(es)) == CommandsOf(es)
    ensures NoAdjacentTexts(MergeUnprocessed(es))
    ensures |MergeUnprocessed(es)| > 0 && IsText(MergeUnprocessed(es)[0]) <==> |es| > 0 && IsText(es[0])
    decreases |es|
  {
    if |es| > 0 {
      MergeKeepsCommands(es[1..]);
      var rest := MergeUnprocessed(es[1..]);
      var r := MergeUnprocessed(es);
      if IsText(es[0]) && |rest| > 0 && IsText(rest[0]) {
        assert r[1..] == rest[1..];
        assert rest[0].WellFormed();
        assert CommandsOf(rest) == CommandsOf(rest[1..]);
      } else {
        assert r[1..] == rest;
      }
    }
  }

  /** A list of commands alone is left as it is. */
  lemma {:induction false} MergeIdentity(es: seq<Entry>)
    requires AllCommands(es) && forall i :: 0 <= i < |es| ==> es[i].WellFormed()
    ensures MergeUnprocessed(es) == es
    decreases |es|
  {
    if |es| > 0 {
      MergeIdentity(es[1..]);
      assert es == [es[0]] + es[1..];
    }
  }

  /** Texts followed by commands merge into one text, the texts joined by spaces. */
  lemma {:induction false} MergeClosedForm(ts: seq<Entry>, cs: seq<Entry>)
    requires |ts| > 0 && NoCommands(ts) && forall i :: 0 <= i < |ts| ==> ts[i].WellFormed()
    requires AllCommands(cs) && forall i :: 0 <= i < |cs| ==> cs[i].WellFormed()
    ensures MergeUnprocessed(ts + cs) == [AsUnprocessedText(Join(TextsOf(ts), " "))] + cs
    decreases |ts|
  {
    var es := ts + cs;
    assert es[1..] == ts[1..] + cs;
    if |ts| == 1 {
      MergeIdentity(cs);
      assert TextsOf(ts) == [ts[0].unprocessedText.value] by {
        assert ts[1..] == [];
      }
      if |cs| > 0 {
        assert !IsText(cs[0]);
      }
    } else {
      MergeClosedForm(ts[1..], cs);
      assert TextsOf(ts) == [ts[0].unprocessedText.value] + TextsOf(ts[1..]);
      assert |TextsOf(ts[1..])| > 0 by {
        assert IsText(ts[1..][0]);
      }
    }
  }

  /** `ParseOuter` below the first level: a pass at level 1 and the merge; no further reparse. */
  function ParseNested(mode: MergeMode, g: Grammar, text: string, found: set<string>): (r: Result<PassResult, ParseError>)
    ensures r.Ok? ==> AllCommands(r.value.entries) && AllEntriesOk(g, r.value.entries) && found <= r.value.found
  {
    var p :- ParseInner(mode, g, 1, text, found);
    ParseInnerSound(mode, g, 1, text, found);
    MergeIdentity(p.entries);
    Ok(PassResult(MergeUnprocessed(p.entries), p.found))
  }

  /** The loop of `ParseOuter` over the merged entries: each text is parsed again
      at level 1 and replaced by what that yields; commands are kept. The first
      failure ends the whole parse. */
  function Reparse(mode: MergeMode, g: Grammar, es: seq<Entry>, found: set<string>): (r: Result<PassResult, ParseError>)
    decreases |es|
  {
    if |es| == 0 then Ok(PassResult([], found))
    else if IsText(es[0]) then
      var p :- ParseNested(mode, g, es[0].unprocessedText.value, found);
      var rest :- Reparse(mode, g, es[1..], p.found);
      Ok(PassResult(p.entries + rest.entries, rest.found))
    else
      var rest :- Reparse(mode, g, es[1..], found);
      Ok(PassResult([es[0]] + rest.entries, rest.found))
  }

  /** After the reparse only sound commands are left. */
  lemma {:induction false} ReparseSound(mode: MergeMode, g: Grammar, es: seq<Entry>, found: set<string>)
    requires forall i :: 0 <= i < |es| && !IsText(es[i]) ==> EntryOk(g, es[i]) && es[i].cmd.Some?
    ensures Reparse(mode, g, es, found).Ok? ==>
      AllCommands(Reparse(mode, g, es, found).value.entries) && AllEntriesOk(g, Reparse(mode, g, es, found).value.entries)
    decreases |es|
  {
    if |es| > 0 {
      if IsText(es[0]) {
        var p := ParseNested(mode, g, es[0].unprocessedText.value, found);
        if p.Ok? {
          ReparseSound(mode, g, es[1..], p.value.found);
        }
      } else {
        ReparseSound(mode, g, es[1..], found);
      }
    }
  }

  /** Commands alone pass through the reparse unchanged. */
  lemma {:induction false} ReparseCommands(mode: MergeMode, g: Grammar, cs: seq<Entry>, found: set<string>)
    requires AllCommands(cs) && forall i :: 0 <= i < |cs| ==> cs[i].WellFormed()
    ensures Reparse(mode, g, cs, found) == Ok(PassResult(cs, found))
    decreases |cs|
  {
    if |cs| > 0 {
      ReparseCommands(mode, g, cs[1..], found);
      assert cs == [cs[0]] + cs[1..];
    }
  }

  predicate AnyUnprocessed(es: seq<Entry>) {
    exists i :: 0 <= i < |es| && IsText(es[i])
  }

  /** What `ParseOuter` does with the first pass's result: merge neighbouring
      deferred texts and, when any is left, parse each once more. */
  function Settle(mode: MergeMode, g: Grammar, p: PassResult): Result<PassResult, ParseError> {
    var merged := MergeUnprocessed(p.entries);
    if AnyUnprocessed(p.entries) then Reparse(mode, g, merged, p.found)
    else Ok(PassResult(merged, p.found))
  }

  /** `ParseOuter(text, 0, pi)` with a fresh `pi`. */
  function ParseOuter(mode: MergeMode, g: Grammar, text: string): (r: Result<PassResult, ParseError>)
  {
    var p :- ParseInner(mode, g, 0, text, {});
    Settle(mode, g, p)
  }

  /** Number of leading entries that are not commands. */
  function TextPrefix(es: seq<Entry>): (k: nat)
    ensures k <= |es| && NoCommands(es[..k]) && (k < |es| ==> es[k].cmd.Some?)
    decreases |es|
  {
    if |es| == 0 || es[0].cmd.Some? then 0
    else
      var k := TextPrefix(es[1..]);
      assert es[..k + 1] == [es[0]] + es[1..][..k];
      k + 1
  }

  /** Ordered entries are their deferred texts followed by commands. */
  lemma OrderedSplit(es: seq<Entry>)
    requires Ordered(es)
    ensures AllCommands(es[TextPrefix(es)..])
  {
    var k := TextPrefix(es);
    if k < |es| {
      forall i | 0 <= i < |es[k..]|
        ensures es[k..][i].cmd.Some?
      {
        assert es[k..][i] == es[k + i];
      }
    }
  }

  /** Ordered sound entries with no leading text settle to themselves. */
  lemma SettleCommandsFirst(mode: MergeMode, g: Grammar, p: PassResult)
    requires AllEntriesOk(g, p.entries) && Ordered(p.entries) && TextPrefix(p.entries) == 0
    ensures Settle(mode, g, p) == Ok(p)
  {
    var es := p.entries;
    OrderedSplit(es);
    assert es[0..] == es;
    assert !AnyUnprocessed(es);
    MergeIdentity(es);
  }

  /** Ordered sound entries with leading texts settle to the nested parse of
      those texts joined, followed by the commands. */
  lemma SettleLeadingTexts(mode: MergeMode, g: Grammar, p: PassResult)
    requires AllEntriesOk(g, p.entries) && Ordered(p.entries) && TextPrefix(p.entries) > 0
    ensures
      var es := p.entries;
      var k := TextPrefix(es);
      var nested := ParseNested(mode, g, Join(TextsOf(es[..k]), " "), p.found);
      && (nested.Err? ==> Settle(mode, g, p) == Err(nested.error))
      && (nested.Ok? ==> Settle(mode, g, p) == Ok(PassResult(nested.value.entries + es[k..], nested.value.found)))
  {
    var es := p.entries;
    var k := TextPrefix(es);
    OrderedSplit(es);
    assert es == es[..k] + es[k..];
    forall i | 0 <= i < |es[k..]|
      ensures es[k..][i].WellFormed()
    {
      assert es[k..][i] == es[k + i];
    }
    forall i | 0 <= i < |es[..k]|
      ensures es[..k][i].WellFormed()
    {
      assert es[..k][i] == es[i];
    }
    MergeClosedForm(es[..k], es[k..]);
    assert IsText(es[0]) by {
      assert es[..k][0] == es[0];
    }
    var merged := [AsUnprocessedText(Join(TextsOf(es[..k]), " "))] + es[k..];
    assert merged[1..] == es[k..];
    var nested := ParseNested(mode, g, Join(TextsOf(es[..k]), " "), p.found);
    if nested.Ok? {
      ReparseCommands(mode, g, es[k..], nested.value.found);
    }
  }

  /** The first pass defers the words before its first command; they are merged
      into one text and parsed once more at level 1, with the commands the first
      pass found, and what that yields comes before the first pass's commands. */
  lemma ParseOuterDefersOnce(mode: MergeMode, g: Grammar, text: string)
    ensures
      var p := ParseInner(mode, g, 0, text, {});
      p.Ok? ==>
        var es := p.value.entries;
        var k := TextPrefix(es);
        && (k == 0 ==> ParseOuter(mode, g, text) == Ok(p.value))
        && (k > 0 ==>
              var nested := ParseNested(mode, g, Join(TextsOf(es[..k]), " "), p.value.found);
              && (nested.Err? ==> ParseOuter(mode, g, text) == Err(nested.error))
              && (nested.Ok? ==> ParseOuter(mode, g, text) == Ok(PassResult(nested.value.entries + es[k..], nested.value.found))))
  {
    var p := ParseInner(mode, g, 0, text, {});
    if p.Ok? {
      ParseInnerSound(mode, g, 0, text, {});
      if TextPrefix(p.value.entries) == 0 {
        SettleCommandsFirst(mode, g, p.value);
      } else {
        SettleLeadingTexts(mode, g, p.value);
      }
    }
  }

  lemma SoundSuffix(g: Grammar, es: seq<Entry>, k: nat)
    requires AllEntriesOk(g, es) && k <= |es|
    ensures AllEntriesOk(g, es[k..])
  {
    forall i | 0 <= i < |es[k..]|
      ensures EntryOk(g, es[k..][i])
    {
      assert es[k..][i] == es[k + i];
    }
  }

  lemma SoundConcat(g: Grammar, xs: seq<Entry>, ys: seq<Entry>)
    requires AllCommands(xs) && AllEntriesOk(g, xs) && AllCommands(ys) && AllEntriesOk(g, ys)
    ensures AllCommands(xs + ys) && AllEntriesOk(g, xs + ys)
  {
    forall i | 0 <= i < |xs + ys|
      ensures (xs + ys)[i].cmd.Some? && EntryOk(g, (xs + ys)[i])
    {
      if i >= |xs| {
        assert (xs + ys)[i] == ys[i - |xs|];
      }
    }
  }

  /** Settling ordered sound entries leaves sound commands only. */
  lemma SettleSound(mode: MergeMode, g: Grammar, p: PassResult)
    requires AllEntriesOk(g, p.entries) && Ordered(p.entries)
    ensures Settle(mode, g, p).Ok? ==> AllCommands(Settle(mode, g, p).value.entries) && AllEntriesOk(g, Settle(mode, g, p).value.entries)
  {
    var es := p.entries;
    var k := TextPrefix(es);
    OrderedSplit(es);
    if k == 0 {
      SettleCommandsFirst(mode, g, p);
      assert es == es[k..];
    } else {
      SettleLeadingTexts(mode, g, p);
      var nested := ParseNested(mode, g, Join(TextsOf(es[..k]), " "), p.found);
      if nested.Ok? {
        SoundSuffix(g, es, k);
        SoundConcat(g, nested.value.entries, es[k..]);
      }
    }
  }

  /** The outcome of `ParseOuter` holds sound commands only: no deferred text survives. */
  lemma ParseOuterSound(mode: MergeMode, g: Grammar, text: string)
    ensures ParseOuter(mode, g, text).Ok? ==>
      AllCommands(ParseOuter(mode, g, text).value.entries) && AllEntriesOk(g, ParseOuter(mode, g, text).value.entries)
  {
    var p := ParseInner(mode, g, 0, text, {});
    if p.Ok? {
      ParseInnerSound(mode, g, 0, text, {});
      SettleSound(mode, g, p.value);
    }
  }
}

=== FILE: passinvariants.dfy ===
/** What every step of a parse pass preserves (Args/internal/parser.cs:214-580). */
module PassInvariants {
  import opened Results
  import opened Text
  import opened Tokenizer
  import opened Errors
  import opened ParsedOptions
  import opened ParsedCommands
  import opened Intermediate
  import opened OptionDefs
  import opened CommandDefs
  import opened Grammar
  import opened Engine

  /** The assembler can look the name up: the pseudo-command, or a defined command. */
  predicate KnownName(g: Grammar, name: string) {
    IsGlobalName(name) || FindCommandDef(g.commands, Upper(name)).Some?
  }

  /** A command as the pass builds it: a known name, and distinct options that all hold a value. */
  predicate CommandOk(g: Grammar, c: ParsedCommand) {
    KnownName(g, c.name) && AllHaveValues(c.options) && DistinctNames(c.options)
  }

  predicate EntryOk(g: Grammar, e: Entry) {
    e.WellFormed() && (e.cmd.Some? ==> CommandOk(g, e.cmd.value))
  }

  predicate AllEntriesOk(g: Grammar, es: seq<Entry>) {
    forall i :: 0 <= i < |es| ==> EntryOk(g, es[i])
  }

  /** Deferred words come first: no text entry follows a command entry. */
  predicate Ordered(es: seq<Entry>) {
    forall i, j :: 0 <= i < j < |es| && es[i].cmd.Some? ==> es[j].cmd.Some?
  }

  predicate AllCommands(es: seq<Entry>) {
    forall i :: 0 <= i < |es| ==> es[i].cmd.Some?
  }

  predicate NoCommands(es: seq<Entry>) {
    forall i :: 0 <= i < |es| ==> es[i].cmd.None?
  }

  /** The open option writes into the command's option of the same name. */
  predicate SlotAttached(cmd: ParsedCommand, s: Slot) {
    s.target.Attached? && s.target.index < |cmd.options| && Named(cmd.options[s.target.index], s.def.name)
  }

  predicate ContextOk(mode: MergeMode, g: Grammar, c: Context) {
    && c.cmd.name == c.def.name
    && CommandOk(g, c.cmd)
    && (c.slot.Some? ==> (c.slot.value.def.isFlag ==> !c.slot.value.awaiting))
    && (c.slot.Some? && mode == Reattach ==> SlotAttached(c.cmd, c.slot.value))
  }

  predicate Inv(mode: MergeMode, g: Grammar, level: nat, st: PassState) {
    && AllEntriesOk(g, st.done)
    && Ordered(st.done)
    && (st.ctx.Some? ==> ContextOk(mode, g, st.ctx.value))
    && (st.ctx.None? ==> NoCommands(st.done))
    && (level > 0 ==> AllCommands(st.done))
  }

  lemma DistinctWhenNamesKept(a: seq<ParsedOption>, b: seq<ParsedOption>)
    requires |a| == |b| && forall i :: 0 <= i < |a| ==> a[i].name == b[i].name
    ensures DistinctNames(a) ==> DistinctNames(b)
  {
  }

  /** Writing a value through the open option keeps the command and the slot sound. */
  lemma SetSlotValueOk(g: Grammar, cmd: ParsedCommand, s: Slot, v: string)
    requires CommandOk(g, cmd)
    ensures CommandOk(g, SetSlotValue(cmd, s.target, v))
    ensures SlotAttached(cmd, s) ==> SlotAttached(SetSlotValue(cmd, s.target, v), s)
  {
    DistinctWhenNamesKept(cmd.options, SetSlotValue(cmd, s.target, v).options);
  }

  lemma AppendSlotValueOk(g: Grammar, cmd: ParsedCommand, s: Slot, v: string)
    requires CommandOk(g, cmd)
    ensures CommandOk(g, AppendSlotValue(cmd, s.target, v))
    ensures SlotAttached(cmd, s) ==> SlotAttached(AppendSlotValue(cmd, s.target, v), s)
  {
    DistinctWhenNamesKept(cmd.options, AppendSlotValue(cmd, s.target, v).options);
  }

  /** Opening an option keeps the context sound; in `Reattach` mode the new slot
      refers to the option holding its values, merged or not. */
  lemma OpenOptionOk(mode: MergeMode, g: Grammar, c: Context, od: OptionDef, o: ParsedOption, awaiting: bool)
    requires ContextOk(mode, g, c)
    requires |o.values| > 0 && EqualsIgnoreCase(o.name, od.name)
    requires od.isFlag ==> !awaiting
    ensures ContextOk(mode, g, OpenOption(mode, c, od, o, awaiting))
  {
    var r := OpenOption(mode, c, od, o, awaiting);
    AddKeepsValues(c.cmd.options, o);
    AddKeepsNamesDistinct(c.cmd.options, o);
    if mode == Reattach {
      match IndexOf(c.cmd.options, o.name)
      case None =>
        assert r.cmd.options[|c.cmd.options|] == o;
      case Some(i) =>
        assert r.cmd.options[i].name == c.cmd.options[i].name;
    }
  }

  lemma TakeDefaultOk(mode: MergeMode, g: Grammar, c: Context, d: string)
    requires ContextOk(mode, g, c) && c.slot.Some?
    ensures ContextOk(mode, g, TakeDefault(c, d))
  {
    SetSlotValueOk(g, c.cmd, c.slot.value, d);
  }

  lemma GlobalContextOk(mode: MergeMode, g: Grammar, od: OptionDef)
    ensures ContextOk(mode, g, GlobalContext(od))
  {
    var c := GlobalContext(od);
    assert c.cmd.options == [NewOption(od.name, InitialValue(od))];
    assert IsGlobalName(GlobalCommandName);
  }

  lemma InSlotOk(mode: MergeMode, g: Grammar, found: set<string>, c: Context, w: Word)
    requires ContextOk(mode, g, c) && c.slot.Some?
    ensures InSlot(mode, found, c, w).Ok? ==> ContextOk(mode, g, InSlot(mode, found, c, w).value)
  {
    var s := c.slot.value;
    var keyword := FindOptionDef(c.def.options, w.Upper());
    if keyword.Some? && s.def.required && s.awaiting {
    } else if keyword.Some? && !s.awaiting {
      var kd := keyword.value;
      match IndexOf(c.cmd.options, w.text)
      case None =>
        OpenOptionOk(mode, g, c, kd, NewOption(w.text, InitialValue(kd)), !kd.isFlag);
      case Some(i) =>
    } else if s.awaiting {
      SetSlotValueOk(g, c.cmd, s, w.text);
    } else if s.def.allowMultiple {
      AppendSlotValueOk(g, c.cmd, s, w.text);
    } else {
      match GetUnusedOption(c.def.options, c.cmd.options)
      case Some(od) =>
        OpenOptionOk(mode, g, c, od, NewOption(od.name, w.text), false);
      case None =>
    }
  }

  lemma NoSlotOk(mode: MergeMode, g: Grammar, c: Context, w: Word)
    requires ContextOk(mode, g, c) && c.slot.None?
    ensures ContextOk(mode, g, NoSlot(mode, c, w))
  {
    var keyword := if w.quoted then None else FindOptionDef(c.def.options, w.Upper());
    match keyword
    case Some(kd) =>
      OpenOptionOk(mode, g, c, kd, NewOption(w.text, InitialValue(kd)), !kd.isFlag);
    case None =>
      match GetUnusedOption(c.def.options, c.cmd.options)
      case Some(od) => OpenOptionOk(mode, g, c, od, NewOption(od.name, w.text), false);
      case None =>
  }

  /** A defined command's name is known. */
  lemma DefinedNameKnown(g: Grammar, cd: CommandDef)
    requires cd in g.commands
    ensures KnownName(g, cd.name)
  {
    var i :| 0 <= i < |g.commands| && g.commands[i] == cd;
    assert CommandKey(g.commands[i]) == Upper(cd.name);
  }

  lemma NoContextOk(mode: MergeMode, g: Grammar, level: nat, st: PassState, w: Word)
    requires Inv(mode, g, level, st) && st.ctx.None?
    ensures NoContext(g, level, st, w).Ok? ==> Inv(mode, g, level, NoContext(g, level, st, w).value)
  {
    if level > 0 {
      match FirstUnusedDefault(g.commands, st.found)
      case None =>
      case Some(cd) =>
        if |cd.options| > 0 {
          DefinedNameKnown(g, cd);
          var od := cd.options[0];
          var o := NewOption(od.name, w.text);
          assert AddOption(NewCommand(cd.name), o).options == [o];
        }
    } else {
      var st' := NoContext(g, level, st, w).value;
      assert st'.done == st.done + [AsUnprocessedText(w.Unprocessed())];
    }
  }

  /** Appending the entry of a sound command keeps the entry list sound and ordered. */
  lemma AppendCommandEntry(g: Grammar, done: seq<Entry>, c: ParsedCommand)
    requires AllEntriesOk(g, done) && Ordered(done) && CommandOk(g, c)
    ensures AllEntriesOk(g, done + [AsCommand(c)]) && Ordered(done + [AsCommand(c)])
    ensures AllCommands(done) ==> AllCommands(done + [AsCommand(c)])
  {
    var es := done + [AsCommand(c)];
    assert forall i :: 0 <= i < |done| ==> es[i] == done[i];
  }

  /** A global keyword closes the open command, if any, and opens the global pseudo-command. */
  lemma GlobalStepOk(mode: MergeMode, g: Grammar, level: nat, st: PassState, od: OptionDef)
    requires Inv(mode, g, level, st)
    ensures Supersede(st.ctx).Ok? ==>
      Inv(mode, g, level, PassState(st.done + Flush(Supersede(st.ctx).value), Some(GlobalContext(od)), st.found))
  {
    var sup := Supersede(st.ctx);
    if sup.Ok? && st.ctx.Some? {
      if Awaiting(st.ctx) && st.ctx.value.slot.value.def.required {
        TakeDefaultOk(mode, g, st.ctx.value, st.ctx.value.slot.value.def.defaultValue.value);
      }
      AppendCommandEntry(g, st.done, sup.value.value.cmd);
    }
    GlobalContextOk(mode, g, od);
  }

  /** A command keyword closes the open command, if any, and opens a new one. */
  lemma CommandStepOk(mode: MergeMode, g: Grammar, level: nat, st: PassState, cd: CommandDef)
    requires Inv(mode, g, level, st) && cd in g.commands
    ensures Inv(mode, g, level, PassState(Entries(st), Some(Context(cd, NewCommand(cd.name), None)), st.found + {CommandKey(cd)}))
  {
    if st.ctx.Some? {
      AppendCommandEntry(g, st.done, st.ctx.value.cmd);
    }
    DefinedNameKnown(g, cd);
  }

  /** Every step keeps the pass invariant. */
  lemma StepKeepsInv(mode: MergeMode, g: Grammar, level: nat, st: PassState, w: Word)
    requires Inv(mode, g, level, st)
    ensures Step(mode, g, level, st, w).Ok? ==> Inv(mode, g, level, Step(mode, g, level, st, w).value)
  {
    var global := GlobalKeyword(g, st, w);
    if global.Ok? {
      if global.value.Some? {
        GlobalStepOk(mode, g, level, st, global.value.value);
      } else if !Awaiting(st.ctx) && CommandAvailable(g, st.found, w.text).Some? {
        CommandStepOk(mode, g, level, st, CommandAvailable(g, st.found, w.text).value);
      } else {
        match st.ctx
        case None => NoContextOk(mode, g, level, st, w);
        case Some(c) =>
          if c.slot.Some? {
            InSlotOk(mode, g, st.found, c, w);
          } else {
            NoSlotOk(mode, g, c, w);
          }
      }
    }
  }

  lemma {:induction false} RunKeepsInv(mode: MergeMode, g: Grammar, level: nat, st: PassState, words: seq<Word>)
    requires Inv(mode, g, level, st)
    ensures Run(mode, g, level, st, words).Ok? ==> Inv(mode, g, level, Run(mode, g, level, st, words).value)
    decreases |words|
  {
    if |words| > 0 {
      StepKeepsInv(mode, g, level, st, words[0]);
      var st' := Step(mode, g, level, st, words[0]);
      if st'.Ok? {
        RunKeepsInv(mode, g, level, st'.value, words[1..]);
      }
    }
  }

  /** A pass yields sound entries with the deferred words first; a second-level
      pass defers nothing; and no option is left awaiting its value. */
  lemma ParseInnerSound(mode: MergeMode, g: Grammar, level: nat, text: string, found: set<string>)
    ensures ParseInner(mode, g, level, text, found).Ok? ==>
      var es := ParseInner(mode, g, level, text, found).value.entries;
      AllEntriesOk(g, es) && Ordered(es) && (level > 0 ==> AllCommands(es))
  {
    var st0 := PassState([], None, found);
    RunKeepsInv(mode, g, level, st0, Tokenize(text));
    var st := Run(mode, g, level, st0, Tokenize(text));
    if st.Ok? {
      var fin := Finish(st.value);
      if fin.Ok? {
        assert Inv(mode, g, level, fin.value) by {
          if Awaiting(st.value.ctx) {
            TakeDefaultOk(mode, g, st.value.ctx.value, st.value.ctx.value.slot.value.def.defaultValue.value);
          }
        }
        if fin.value.ctx.Some? {
          AppendCommandEntry(g, fin.value.done, fin.value.ctx.value.cmd);
        }
      }
    }
  }
}

=== FILE: processor.dfy ===
/** `Processor.Parse` (Args/processor.cs:228-248): normalise the input, run the
    passes, assemble the result. The definitions are those `LoadDefinitions`
    produced (module Loader). */
module Processor {
  import opened Results
  import opened Text
  import opened Errors
  import opened ParsedOptions
  import opened ParsedCommands
  import opened Grammar
  import opened Engine
  import opened PassInvariants
  import opened Passes
  import opened Assembler

  /** A null input reads as the empty text; any other is trimmed. The result
      has no white space at either end, is empty exactly for a blank input, and
      otherwise is the input from its first to its last non-blank character. */
  function Normalise(s: Option<string>): (r: string)
    ensures s.None? ==> r == ""
    ensures |r| > 0 ==> !IsWhiteSpace(r[0]) && !IsWhiteSpace(r[|r| - 1])
    ensures s.Some? ==> (r == "" <==> forall i :: 0 <= i < |s.value| ==> IsWhiteSpace(s.value[i]))
    ensures s.Some? ==> |r| <= |TrimStart(s.value)| <= |s.value| && forall i :: 0 <= i < |r| ==> r[i] == s.value[|s.value| - |TrimStart(s.value)| + i]
  {
    match s
    case None => ""
    case Some(text) => TrimFacts(text); Trim(text)
  }

  /** Normalising a normalised text changes nothing. */
  lemma NormaliseIdempotent(s: Option<string>)
    ensures Normalise(Some(Normalise(s))) == Normalise(s)
  {
    TrimUnchanged(Normalise(s));
  }

  /** The parse with a chosen reading of line 434 (see `MergeMode`). */
  function ParseWith(mode: MergeMode, g: Grammar, s: Option<string>): (r: Result<ParseResult, ParseError>)
    ensures r.Ok? ==> DistinctNames(r.value.globals)
    ensures r.Ok? ==> forall i :: 0 <= i < |r.value.commands| ==> !IsGlobalName(r.value.commands[i].name)
  {
    var outer :- ParseOuter(mode, g, Normalise(s));
    ParseOuterSound(mode, g, Normalise(s));
    CommandsOfOk(g, outer.entries);
    Assemble(g, outer.entries)
  }

  /** `Processor.Parse`, with the option a positional word merges into kept open. */
  function Parse(g: Grammar, s: Option<string>): (r: Result<ParseResult, ParseError>)
    ensures r.Ok? ==> DistinctNames(r.value.globals)
    ensures r.Ok? ==> forall i :: 0 <= i < |r.value.commands| ==>
                        !IsGlobalName(r.value.commands[i].name) && KnownName(g, r.value.commands[i].name)
  {
    var r := ParseWith(Reattach, g, s);
    ParseKnown(Reattach, g, s);
    r
  }

  /** Every command of the result is defined, carries its required options and
      its non-empty defaults. */
  lemma ParseKnown(mode: MergeMode, g: Grammar, s: Option<string>)
    ensures ParseWith(mode, g, s).Ok? ==>
      forall i :: 0 <= i < |ParseWith(mode, g, s).value.commands| ==>
        var c := ParseWith(mode, g, s).value.commands[i];
        KnownName(g, c.name) && !IsGlobalName(c.name) && RequiredPresent(DefOf(g, c), c)
        && forall k :: 0 <= k < |DefOf(g, c).options| && HasDefault(DefOf(g, c).options[k]) ==> HasOption(c.options, DefOf(g, c).options[k].name)
  {
    var outer := ParseOuter(mode, g, Normalise(s));
    if outer.Ok? {
      ParseOuterSound(mode, g, Normalise(s));
      CommandsOfOk(g, outer.value.entries);
      AssembleCommands(g, outer.value.entries);
    }
  }

  /** A null input parses as the empty text, and surrounding white space does not matter. */
  lemma ParseIgnoresSurroundingSpace(g: Grammar, s: string)
    ensures Parse(g, None) == Parse(g, Some(""))
    ensures Parse(g, Some(s)) == Parse(g, Some(Trim(s)))
  {
    NormaliseIdempotent(Some(s));
    TrimUnchanged("");
  }
}

=== FILE: results.dfy ===
/** Failure-compatible wrappers used throughout the model: `Option` stands for a
    nullable C# reference and `Result` for a value or the exception the source throws. */
module Results {

  /** A possibly absent value (a C# `null` is `None`). */
  datatype Option<+T> = None | Some(value: T) {

    /** The value, or `fallback` when absent (the `??` operator). */
    function GetOr(fallback: T): T {
      if Some? then value else fallback
    }
  }

  /** A computed value, or the error that aborts the computation. */
  datatype Result<+T, +E> = Ok(value: T) | Err(error: E) {

    predicate IsFailure() {
      Err?
    }

    function PropagateFailure<U>(): Result<U, E>
      requires Err?
    {
      Err(error)
    }

    function Extract(): T
      requires Ok?
    {
      value
    }
  }
}

=== FILE: text.dfy ===
/** String helpers standing in for the .NET string operations the source relies on:
    `Trim`, `ToUpperInvariant`, ordinal case-insensitive comparison and joining. */
module Text {

  /** The characters `char.IsWhiteSpace` accepts, which `string.Trim()` removes. */
  predicate IsWhiteSpace(c: char) {
    || c == ' '
    || ('\t' <= c <= '\r')
    || c == '\U{85}' || c == '\U{A0}' || c == '\U{1680}'
    || ('\U{2000}' <= c <= '\U{200A}')
    || c == '\U{2028}' || c == '\U{2029}' || c == '\U{202F}' || c == '\U{205F}' || c == '\U{3000}'
  }

  /** The number of white-space characters `s` starts with. */
  function LeadingSpace(s: string): (n: nat)
    ensures n <= |s|
    decreases |s|
  {
    if |s| > 0 && IsWhiteSpace(s[0]) then 1 + LeadingSpace(s[1..]) else 0
  }

  /** The number of white-space characters `s` ends with. */
  function TrailingSpace(s: string): (n: nat)
    ensures n <= |s|
    decreases |s|
  {
    if |s| > 0 && IsWhiteSpace(s[|s| - 1]) then 1 + TrailingSpace(s[..|s| - 1]) else 0
  }

  /** `s` without its leading white space. */
  function TrimStart(s: string): string {
    s[LeadingSpace(s)..]
  }

  /** `s` without its trailing white space. */
  function TrimEnd(s: string): string {
    s[..|s| - TrailingSpace(s)]
  }

  /** `string.Trim()`: white space removed from both ends. */
  function Trim(s: string): string {
    TrimEnd(TrimStart(s))
  }

  /** The leading white space is white space, and the character after it is not. */
  lemma {:induction false} LeadingSpaceFacts(s: string)
    ensures forall i :: 0 <= i < LeadingSpace(s) ==> IsWhiteSpace(s[i])
    ensures LeadingSpace(s) < |s| ==> !IsWhiteSpace(s[LeadingSpace(s)])
    decreases |s|
  {
    if |s| > 0 && IsWhiteSpace(s[0]) {
      LeadingSpaceFacts(s[1..]);
      forall i | 1 <= i < LeadingSpace(s)
        ensures IsWhiteSpace(s[i])
      {
        assert s[i] == s[1..][i - 1];
      }
    }
  }

  /** The trailing white space is white space, and the character before it is not. */
  lemma {:induction false} TrailingSpaceFacts(s: string)
    ensures forall i :: |s| - TrailingSpace(s) <= i < |s| ==> IsWhiteSpace(s[i])
    ensures TrailingSpace(s) < |s| ==> !IsWhiteSpace(s[|s| - TrailingSpace(s) - 1])
    decreases |s|
  {
    if |s| > 0 && IsWhiteSpace(s[|s| - 1]) {
      TrailingSpaceFacts(s[..|s| - 1]);
    }
  }

  /** What `Trim` leaves: a slice of `s` starting after the leading white space,
      with no white space at either end, empty exactly for an all-white text. */
  lemma TrimFacts(s: string)
    ensures |Trim(s)| <= |TrimStart(s)| <= |s|
    ensures forall i :: 0 <= i < |Trim(s)| ==> Trim(s)[i] == s[|s| - |TrimStart(s)| + i]
    ensures |Trim(s)| > 0 ==> !IsWhiteSpace(Trim(s)[0]) && !IsWhiteSpace(Trim(s)[|Trim(s)| - 1])
    ensures |Trim(s)| == 0 <==> forall i :: 0 <= i < |s| ==> IsWhiteSpace(s[i])
  {
    var t := TrimStart(s);
    var r := Trim(s);
    LeadingSpaceFacts(s);
    TrailingSpaceFacts(t);
    if |r| > 0 {
      assert r[0] == s[LeadingSpace(s)];
      assert r[|r| - 1] == t[|t| - TrailingSpace(t) - 1];
    }
    if |r| == 0 {
      forall i | 0 <= i < |s|
        ensures IsWhiteSpace(s[i])
      {
        if i >= LeadingSpace(s) {
          assert s[i] == t[i - LeadingSpace(s)];
        }
      }
    }
  }

  /** Trimming leaves a text that neither starts nor ends with white space unchanged. */
  lemma TrimUnchanged(s: string)
    requires |s| > 0 ==> !IsWhiteSpace(s[0]) && !IsWhiteSpace(s[|s| - 1])
    ensures Trim(s) == s
  {
    assert LeadingSpace(s) == 0;
    assert TrimStart(s) == s;
    assert TrailingSpace(s) == 0;
  }

  /** Upper-casing of one character; only ASCII letters are mapped. */
  function UpperChar(c: char): char {
    if 'a' <= c <= 'z' then (c as int - 32) as char else c
  }

  /** `ToUpperInvariant`, restricted to the ASCII letters. */
  function Upper(s: string): (r: string)
    ensures |r| == |s|
    ensures forall i :: 0 <= i < |s| ==> r[i] == UpperChar(s[i])
  {
    seq(|s|, i requires 0 <= i < |s| => UpperChar(s[i]))
  }

  /** Upper-casing twice is upper-casing once, so upper-cased keys compare as themselves. */
  lemma UpperIdempotent(s: string)
    ensures Upper(Upper(s)) == Upper(s)
  {
    assert forall i :: 0 <= i < |s| ==> UpperChar(UpperChar(s[i])) == UpperChar(s[i]);
  }

  /** `a.Equals(b, StringComparison.OrdinalIgnoreCase)`. */
  predicate EqualsIgnoreCase(a: string, b: string) {
    Upper(a) == Upper(b)
  }

  /** The parts separated by `sep`. */
  function Join(parts: seq<string>, sep: string): string
    decreases |parts|
  {
    if |parts| == 0 then ""
    else if |parts| == 1 then parts[0]
    else parts[0] + sep + Join(parts[1..], sep)
  }
}

=== FILE: tokenizer.dfy ===
/** The quote-aware word splitter of the parser (`TextToParse.GetNextWord`,
    Args/internal/parser.cs). Words are separated by spaces and `=`; a word whose
    first character is `"` or `'` runs to the next same quote that is followed by a
    space or the end of the text. */
module Tokenizer {
  import opened Text

  /** One word handed to the engine (`WordDetails`). `quote` is NUL for an unquoted word. */
  datatype Word = Word(text: string, quoted: bool, quote: char) {

    /** `TextUpper`, the form compared against definition keys. */
    function Upper(): string {
      Text.Upper(text)
    }

    /** The form in which a deferred word is handed to the second pass: a quoted
        word gets its quotes back so that it is re-read as one quoted word. */
    function Unprocessed(): string {
      if quoted then [quote] + text + [quote] else text
    }
  }

  /** What one call of the scanning loop produced before trimming. */
  datatype Scanned = Scanned(raw: string, next: nat, quoted: bool, quote: char)

  predicate IsQuote(c: char) {
    c == '"' || c == '\''
  }

  predicate IsSeparator(c: char) {
    c == ' ' || c == '='
  }

  predicate NoSeparators(w: string) {
    forall i :: 0 <= i < |w| ==> !IsSeparator(w[i])
  }

  /** `PeekNextChar`: the character after position `i`, or NUL past the end. */
  function PeekNext(s: string, i: nat): char {
    if i + 1 < |s| then s[i + 1] else '\0'
  }

  /** The quote `q` at position `k` closes a quoted region. */
  predicate ClosesAt(s: string, q: char, k: nat)
    requires k < |s|
  {
    s[k] == q && (PeekNext(s, k) == ' ' || PeekNext(s, k) == '\0')
  }

  /** The character loop of `GetNextWord`, from position `i` with `word` collected so far. */
  function Scan(s: string, i: nat, word: string, inQuotes: bool, q: char): (r: Scanned)
    requires i <= |s|
    requires inQuotes ==> IsQuote(q)
    ensures i <= r.next <= |s|
    ensures i < |s| ==> i < r.next
    ensures inQuotes ==> r.quoted && r.quote == q
    ensures r.quoted ==> IsQuote(r.quote)
    ensures !r.quoted ==> r.quote == q
    decreases |s| - i
  {
    if i == |s| then Scanned(word, i, inQuotes, q)
    else
      var c := s[i];
      if IsQuote(c) && |word| == 0 && !inQuotes then
        Scan(s, i + 1, word, true, c)
      else if inQuotes && ClosesAt(s, q, i) then
        Scanned(word, if i + 2 <= |s| then i + 2 else |s|, true, q)
      else if !inQuotes && IsSeparator(c) then
        if |word| > 0 then Scanned(word, i + 1, false, q) else Scan(s, i + 1, word, false, q)
      else
        Scan(s, i + 1, word + [c], inQuotes, q)
  }

  /** `GetNextWord` at position `i`: the trimmed word and the position after it. */
  function NextWord(s: string, i: nat): (r: (Word, nat))
    requires i <= |s|
    ensures i <= r.1 <= |s|
    ensures i < |s| ==> i < r.1
    ensures !r.0.quoted ==> r.0.quote == '\0'
    ensures r.0.quoted ==> IsQuote(r.0.quote)
  {
    var sc := Scan(s, i, [], false, '\0');
    (Word(Trim(sc.raw), sc.quoted, sc.quote), sc.next)
  }

  /** Outside quotes the scanner collects no separator. */
  lemma {:induction false} ScanNoSeparators(s: string, i: nat, word: string, inQuotes: bool, q: char)
    requires i <= |s| && (inQuotes ==> IsQuote(q)) && (!inQuotes ==> NoSeparators(word))
    ensures !Scan(s, i, word, inQuotes, q).quoted ==> NoSeparators(Scan(s, i, word, inQuotes, q).raw)
    decreases |s| - i
  {
    if i < |s| {
      var c := s[i];
      if IsQuote(c) && |word| == 0 && !inQuotes {
      } else if inQuotes && ClosesAt(s, q, i) {
      } else if !inQuotes && IsSeparator(c) {
        if |word| == 0 {
          ScanNoSeparators(s, i + 1, word, false, q);
        }
      } else if !inQuotes {
        assert NoSeparators(word + [c]) by {
          assert forall k :: 0 <= k < |word| ==> (word + [c])[k] == word[k];
        }
        ScanNoSeparators(s, i + 1, word + [c], inQuotes, q);
      }
    }
  }

  /** An unquoted word holds no space and no `=`. */
  lemma NextWordNoSeparators(s: string, i: nat)
    requires i <= |s|
    ensures !NextWord(s, i).0.quoted ==> NoSeparators(NextWord(s, i).0.text)
  {
    ScanNoSeparators(s, i, [], false, '\0');
    TrimKeepsNoSeparators(Scan(s, i, [], false, '\0').raw);
  }

  /** Trimming takes a slice, so it brings in no separator. */
  lemma TrimKeepsNoSeparators(w: string)
    ensures NoSeparators(w) ==> NoSeparators(Trim(w))
  {
    if NoSeparators(w) {
      TrimFacts(w);
      var t := Trim(w);
      forall k | 0 <= k < |t|
        ensures !IsSeparator(t[k])
      {
        assert t[k] == w[|w| - |TrimStart(w)| + k];
      }
    }
  }

  /** The words the engine reads from position `i` on (`while (!isAtEnd()) GetNextWord()`). */
  function TokenizeFrom(s: string, i: nat): (ws: seq<Word>)
    requires i <= |s|
    ensures |ws| <= |s| - i
    decreases |s| - i
  {
    if i == |s| then []
    else
      var (w, j) := NextWord(s, i);
      [w] + TokenizeFrom(s, j)
  }

  function Tokenize(s: string): seq<Word> {
    TokenizeFrom(s, 0)
  }

  /** Every unquoted word the tokenizer returns is free of spaces and `=`. */
  lemma {:induction false} TokenizeNoSeparators(s: string, i: nat)
    requires i <= |s|
    ensures forall k :: 0 <= k < |TokenizeFrom(s, i)| ==> !TokenizeFrom(s, i)[k].quoted ==> NoSeparators(TokenizeFrom(s, i)[k].text)
    decreases |s| - i
  {
    if i < |s| {
      NextWordNoSeparators(s, i);
      TokenizeNoSeparators(s, NextWord(s, i).1);
      var ws := TokenizeFrom(s, i);
      assert ws == [NextWord(s, i).0] + TokenizeFrom(s, NextWord(s, i).1);
      forall k | 0 <= k < |ws| && !ws[k].quoted
        ensures NoSeparators(ws[k].text)
      {
        if k > 0 {
          assert ws[k] == TokenizeFrom(s, NextWord(s, i).1)[k - 1];
        }
      }
    }
  }

  function Min(a: int, b: int): int {
    if a <= b then a else b
  }

  /** `k` ends the quoted region for quote `q` that continues at `i`: the first
      closing quote at or after `i`, or the end of the text when there is none. */
  predicate IsRegionEnd(s: string, q: char, i: nat, k: nat) {
    && i <= k <= |s|
    && (forall j :: i <= j < k ==> !ClosesAt(s, q, j))
    && (k < |s| ==> ClosesAt(s, q, k))
  }

  /** Inside a quoted region every character, spaces, `=` and the other quote
      included, is taken literally up to the region's end. */
  lemma {:induction false} ScanQuoted(s: string, i: nat, word: string, q: char, k: nat)
    requires i <= |s| && IsQuote(q) && IsRegionEnd(s, q, i, k)
    ensures Scan(s, i, word, true, q) == Scanned(word + s[i..k], if k < |s| then Min(k + 2, |s|) else |s|, true, q)
    decreases |s| - i
  {
    if i < |s| && i < k {
      assert !ClosesAt(s, q, i);
      ScanQuoted(s, i + 1, word + [s[i]], q, k);
      assert word + [s[i]] + s[i + 1..k] == word + s[i..k];
    }
  }

  /** A word that opens with a quote is the trimmed text up to the matching
      closing quote (or the end of the text) and is flagged as quoted. */
  lemma QuotedWord(s: string, i: nat, k: nat)
    requires i < |s| && IsQuote(s[i]) && IsRegionEnd(s, s[i], i + 1, k)
    ensures NextWord(s, i).0 == Word(Trim(s[i + 1..k]), true, s[i])
    ensures NextWord(s, i).1 == if k < |s| then Min(k + 2, |s|) else |s|
  {
    ScanQuoted(s, i + 1, [], s[i], k);
    assert [] + s[i + 1..k] == s[i + 1..k];
  }

  /** `k` ends the unquoted word that continues at `i`: the first separator, or the end. */
  predicate IsWordEnd(s: string, i: nat, k: nat) {
    && i <= k <= |s|
    && (forall j :: i <= j < k ==> !IsSeparator(s[j]))
    && (k < |s| ==> IsSeparator(s[k]))
  }

  /** Once an unquoted word has started, it runs to the next space or `=`, quotes included. */
  lemma {:induction false} ScanUnquoted(s: string, i: nat, word: string, q: char, k: nat)
    requires i <= |s| && |word| > 0 && NoSeparators(word) && IsWordEnd(s, i, k)
    ensures Scan(s, i, word, false, q) == Scanned(word + s[i..k], if k < |s| then k + 1 else |s|, false, q)
    decreases |s| - i
  {
    if i < |s| && i < k {
      ScanUnquoted(s, i + 1, word + [s[i]], q, k);
      assert word + [s[i]] + s[i + 1..k] == word + s[i..k];
    }
  }

  /** A word that does not open with a quote is the trimmed text up to the next separator. */
  lemma UnquotedWord(s: string, i: nat, k: nat)
    requires i < |s| && !IsQuote(s[i]) && !IsSeparator(s[i]) && IsWordEnd(s, i, k)
    ensures NextWord(s, i).0 == Word(Trim(s[i..k]), false, '\0')
    ensures NextWord(s, i).1 == if k < |s| then k + 1 else |s|
  {
    assert Scan(s, i, [], false, '\0') == Scan(s, i + 1, [] + [s[i]], false, '\0');
    assert [] + [s[i]] == [s[i]];
    assert IsWordEnd(s, i + 1, k);
    ScanUnquoted(s, i + 1, [s[i]], '\0', k);
    assert [s[i]] + s[i + 1..k] == s[i..k];
  }

  /** `s` with every `=` turned into a space. */
  function EqualsAsSpaces(s: string): (r: string)
    ensures |r| == |s|
    ensures forall i :: 0 <= i < |s| ==> r[i] == if s[i] == '=' then ' ' else s[i]
  {
    seq(|s|, i requires 0 <= i < |s| => if s[i] == '=' then ' ' else s[i])
  }

  predicate NoQuotes(s: string) {
    forall i :: 0 <= i < |s| ==> !IsQuote(s[i])
  }

  lemma {:induction false} ScanEqualsAsSpaces(s: string, i: nat, word: string, q: char)
    requires i <= |s| && NoQuotes(s) && NoSeparators(word)
    ensures Scan(s, i, word, false, q) == Scan(EqualsAsSpaces(s), i, word, false, q)
    decreases |s| - i
  {
    var t := EqualsAsSpaces(s);
    if i < |s| {
      if IsSeparator(s[i]) {
        if |word| == 0 {
          ScanEqualsAsSpaces(s, i + 1, word, q);
        }
      } else {
        assert t[i] == s[i];
        ScanEqualsAsSpaces(s, i + 1, word + [s[i]], q);
      }
    }
  }

  lemma {:induction false} TokenizeFromEqualsAsSpaces(s: string, i: nat)
    requires i <= |s| && NoQuotes(s)
    ensures TokenizeFrom(s, i) == TokenizeFrom(EqualsAsSpaces(s), i)
    decreases |s| - i
  {
    if i < |s| {
      ScanEqualsAsSpaces(s, i, [], '\0');
      TokenizeFromEqualsAsSpaces(s, NextWord(s, i).1);
    }
  }

  /** Outside quotes `=` is a separator exactly like a space: replacing every `=`
      by a space does not change the words of a quote-free text. */
  lemma EqualsIsSpace(s: string)
    requires NoQuotes(s)
    ensures Tokenize(s) == Tokenize(EqualsAsSpaces(s))
  {
    TokenizeFromEqualsAsSpaces(s, 0);
  }

  /** Separators before a word are skipped: the word read from `i` is the word read
      from the first non-separator `j`. */
  lemma SeparatorsSkipped(s: string, i: nat, j: nat)
    requires i <= j < |s| && forall k :: i <= k < j ==> IsSeparator(s[k])
    ensures NextWord(s, i) == NextWord(s, j)
  {
    ScanSkipsSeparators(s, i, j);
  }

  lemma {:induction false} ScanSkipsSeparators(s: string, i: nat, j: nat)
    requires i <= j < |s| && forall k :: i <= k < j ==> IsSeparator(s[k])
    ensures Scan(s, i, [], false, '\0') == Scan(s, j, [], false, '\0')
    decreases j - i
  {
    if i < j {
      assert !IsQuote(s[i]);
      ScanSkipsSeparators(s, i + 1, j);
    }
  }

  /** Any run of spaces and `=` between `list` and `*.txt` (`list=*.txt`,
      `list = *.txt`, `list =*.txt`, `list= *.txt`, ...) reads as the same two words. */
  lemma ListThenTxt(sep: string)
    requires |sep| > 0 && forall k :: 0 <= k < |sep| ==> IsSeparator(sep[k])
    ensures Tokenize("list" + sep + "*.txt") == [Word("list", false, '\0'), Word("*.txt", false, '\0')]
  {
    var s := "list" + sep + "*.txt";
    var b := 4 + |sep|;
    assert s[..4] == "list";
    assert s[b..] == "*.txt";
    forall k | 0 <= k < 4
      ensures !IsSeparator(s[k]) && !IsQuote(s[k])
    {
      assert s[k] == "list"[k];
    }
    forall k | 4 <= k < b
      ensures IsSeparator(s[k])
    {
      assert s[k] == sep[k - 4];
    }
    forall k | b <= k < |s|
      ensures !IsSeparator(s[k]) && !IsQuote(s[k])
    {
      assert s[k] == "*.txt"[k - b];
    }
    TrimUnchanged("list");
    TrimUnchanged("*.txt");
    TwoWords(s, 4, b, |s|);
  }

  /** A text made of an unquoted word, a run of separators and a second unquoted word. */
  lemma TwoWords(s: string, a: nat, b: nat, c: nat)
    requires 0 < a < b < c == |s|
    requires forall k :: 0 <= k < a ==> !IsSeparator(s[k]) && !IsQuote(s[k])
    requires forall k :: a <= k < b ==> IsSeparator(s[k])
    requires forall k :: b <= k < c ==> !IsSeparator(s[k]) && !IsQuote(s[k])
    ensures Tokenize(s) == [Word(Trim(s[..a]), false, '\0'), Word(Trim(s[b..]), false, '\0')]
  {
    var w1 := Word(Trim(s[..a]), false, '\0');
    var w2 := Word(Trim(s[b..]), false, '\0');
    UnquotedWord(s, 0, a);
    assert s[0..a] == s[..a];
    assert NextWord(s, 0) == (w1, a + 1);
    SeparatorsSkipped(s, a + 1, b);
    UnquotedWord(s, b, c);
    assert s[b..c] == s[b..];
    assert NextWord(s, a + 1) == (w2, c);
    assert TokenizeFrom(s, c) == [];
    assert TokenizeFrom(s, a + 1) == [w2] + TokenizeFrom(s, c);
    assert TokenizeFrom(s, 0) == [w1] + TokenizeFrom(s, a + 1);
  }

  /** The scanner reads `s` from `i` as it reads the suffix `s[j..]` from `i - j`. */
  lemma {:induction false} ScanShift(s: string, j: nat, i: nat, word: string, inQuotes: bool, q: char)
    requires j <= i <= |s|
    requires inQuotes ==> IsQuote(q)
    ensures Scan(s, i, word, inQuotes, q) == Scan(s[j..], i - j, word, inQuotes, q).(next := Scan(s[j..], i - j, word, inQuotes, q).next + j)
    decreases |s| - i
  {
    var t := s[j..];
    if i < |s| {
      assert t[i - j] == s[i];
      assert PeekNext(t, i - j) == PeekNext(s, i);
      assert ClosesAt(t, q, i - j) == ClosesAt(s, q, i);
      var c := s[i];
      if IsQuote(c) && |word| == 0 && !inQuotes {
        ScanShift(s, j, i + 1, word, true, c);
      } else if inQuotes && ClosesAt(s, q, i) {
      } else if !inQuotes && IsSeparator(c) {
        if |word| == 0 {
          ScanShift(s, j, i + 1, word, false, q);
        }
      } else {
        ScanShift(s, j, i + 1, word + [c], inQuotes, q);
      }
    }
  }

  /** The words read from position `i` depend only on the text from `j <= i` on. */
  lemma {:induction false} TokenizeFromShift(s: string, j: nat, i: nat)
    requires j <= i <= |s|
    ensures TokenizeFrom(s, i) == TokenizeFrom(s[j..], i - j)
    decreases |s| - i
  {
    if i < |s| {
      var t := s[j..];
      var w := NextWord(s, i);
      var w' := NextWord(t, i - j);
      NextWordShift(s, j, i);
      TokenizeFromShift(s, j, w.1);
      TokenizeFromStep(s, i);
      TokenizeFromStep(t, i - j);
      calc {
        TokenizeFrom(s, i);
        [w.0] + TokenizeFrom(s, w.1);
        [w'.0] + TokenizeFrom(t, w'.1);
        TokenizeFrom(t, i - j);
      }
    }
  }

  /** One word read, then the rest of the text. */
  lemma TokenizeFromStep(s: string, i: nat)
    requires i < |s|
    ensures TokenizeFrom(s, i) == [NextWord(s, i).0] + TokenizeFrom(s, NextWord(s, i).1)
  {
  }

  lemma NextWordShift(s: string, j: nat, i: nat)
    requires j <= i <= |s|
    ensures NextWord(s, i).0 == NextWord(s[j..], i - j).0
    ensures NextWord(s, i).1 == NextWord(s[j..], i - j).1 + j
  {
    ScanShift(s, j, i, [], false, '\0');
  }

  /** The word a caller gets for an unquoted text `t`. */
  function Unquoted(t: string): Word {
    Word(t, false, '\0')
  }

  /** A text the tokenizer returns as one unquoted word: not empty, no space or
      `=`, no quote in front and no white space at either end. */
  predicate IsPlainWord(t: string) {
    && |t| > 0 && NoSeparators(t) && !IsQuote(t[0])
    && !IsWhiteSpace(t[0]) && !IsWhiteSpace(t[|t| - 1])
  }

  /** A plain word read on its own. */
  lemma PlainWordAlone(w: string)
    requires IsPlainWord(w)
    ensures Tokenize(w) == [Unquoted(w)]
  {
    UnquotedWord(w, 0, |w|);
    assert w[0..|w|] == w;
    TrimUnchanged(w);
  }

  /** A plain word and a space in front of a text: the word, then the text's words. */
  lemma PlainWordThen(w: string, rest: string)
    requires IsPlainWord(w)
    ensures Tokenize(w + " " + rest) == [Unquoted(w)] + Tokenize(rest)
  {
    var s := w + " " + rest;
    var n := |w|;
    assert s[0..n] == w;
    forall k | 0 <= k < n
      ensures !IsSeparator(s[k])
    {
      assert s[k] == w[k];
    }
    assert s[n] == ' ';
    UnquotedWord(s, 0, n);
    TrimUnchanged(w);
    TokenizeFromShift(s, n + 1, n + 1);
    assert s[n + 1..] == rest;
  }

  /** The unquoted words for the texts `ts`. */
  function UnquotedAll(ts: seq<string>): (ws: seq<Word>)
    ensures |ws| == |ts| && forall i :: 0 <= i < |ts| ==> ws[i] == Unquoted(ts[i])
  {
    seq(|ts|, i requires 0 <= i < |ts| => Unquoted(ts[i]))
  }

  /** Round trip: plain words joined by single spaces read back as those words. */
  lemma {:induction false} JoinedWordsRead(ts: seq<string>)
    requires forall i :: 0 <= i < |ts| ==> IsPlainWord(ts[i])
    ensures Tokenize(Join(ts, " ")) == UnquotedAll(ts)
    decreases |ts|
  {
    if |ts| == 0 {
      assert Tokenize("") == [];
    } else if |ts| == 1 {
      PlainWordAlone(ts[0]);
    } else {
      assert Join(ts, " ") == ts[0] + " " + Join(ts[1..], " ");
      JoinedWordsRead(ts[1..]);
      PlainWordThen(ts[0], Join(ts[1..], " "));
      assert UnquotedAll(ts) == [Unquoted(ts[0])] + UnquotedAll(ts[1..]);
    }
  }
}

=== FILE: xmlnodes.dfy ===
/** An already-parsed XML element, reduced to what the definition loader reads:
    its name, its attributes and its child elements in document order. */
module XmlNodes {
  import opened Results

  datatype Element = Element(name: string, attributes: map<string, string>, children: seq<Element>)

  /** `node.Attributes?[name]?.Value`; attribute names match exactly. */
  function Attribute(e: Element, name: string): (r: Option<string>)
    ensures r.Some? <==> name in e.attributes
    ensures r.Some? ==> r.value == e.attributes[name]
  {
    if name in e.attributes then Some(e.attributes[name]) else None
  }

  /** Why a definition document is refused (`XMLProcessingException` and the
      exceptions it wraps). */
  datatype DefinitionError =
    | MissingName(elementKind: string)
    | InvalidBoolean(attribute: string)
    | FlagWithMultiple(option: string)
    | DuplicateKey(key: string)
    | MultipleDefaults
    | RequiredGlobal(option: string)
    | InvalidElement(elementName: string)
    | GlobalNamedLikeCommand(option: string)
}
